=== FILE: README.md ===
# controle-financas — a Dafny model of the ledger, sync and controller core

This project models the logic of the "Controle de Finanças" personal-finance web app in Dafny. Four parts are covered:

- **The ledger store** (`js/storage.js`). This holds transactions, categories, goals and fixed expenses, each keyed by id. It also holds a savings amount and the settings. The model covers the create, find, shallow-merge update and delete operations, the protected default categories and goal deposits.
- **The aggregations** over the store: overall and monthly balance, expense per category, the trailing-months series, the list of months that have data, and snapshot export, import and clear.
- **The sync protocol** with a GitHub Gist (`js/sync.js`). The model covers the configured/unconfigured state, setup, the device list a push writes, blocked devices, pull, push, sync, auto-sync and sync-on-load, and device removal.
- **The pure helpers of the interface** (`js/ui.js`) and **the form guards of the controller** (`js/app.js`).

The store is an immutable `Ledger.Store` value. Every mutator returns the new store together with what the original function returns (`Ledger.Change`).

Money is an `int` number of cents. A date is `(year, month, day)` read from `YYYY-MM-DD`, with `month` the calendar month 1..12. This 1-based convention is used everywhere; the source's own mix of conventions is Finding 1 below.

Some inputs are parameters, because the model has no clock, no random source and no network:

- the current instant and the current month;
- fresh ids and this device's identity;
- the outcome of each network request.

Each request has a `bool` that says whether it succeeded. The remote Gist is an abstract document value (`Sync.Gist`) whose file may be missing.

Modules:

| file | modules | what |
|---|---|---|
| `common.dfy` | `Common`, `Calendar` | `Option`, dates, months, month serial numbers |
| `text.dfy` | `Text` | digit filtering, decimal text, `trim`, `join` |
| `records.dfy` | `Records`, `Sorting` | id-keyed `find`/`findIndex`/`filter`/update, comparator sort |
| `ledger.dfy` | `Ledger` | the store and its CRUD, export/import/clear |
| `aggregates.dfy` | `Aggregates` | balances, category totals, monthly series, available months |
| `sync.dfy` | `Sync` | configuration, sync document, push/pull/sync, devices |
| `ui.dfy` | `Ui` | money mask, due alert, category filter, replication list, recent list, breakdown, month filter |
| `app.dfy` | `App` | form validation and dispatch, category deletion feedback, savings, spreadsheet export |

## Model

| member | source | states |
|---|---|---|
| Ledger.AddTransaction | js/storage.js:37-44 | appends exactly one record carrying the fresh id and creation time and every input field; the earlier records are unchanged and nothing but the transactions changes |
| Ledger.UpdateTransaction | js/storage.js:46-55 | a missing id gives null and the store as it was; otherwise only the first record with that id changes, to the shallow merge of it with the updates, and the length is kept |
| Ledger.DeleteTransaction | js/storage.js:57-62 | keeps exactly the records whose id differs, each as many times as it was stored, and returns what remains; only the transactions change |
| Ledger.ByMonth | js/storage.js:64-70 | keeps exactly the transactions dated in the month, each as many times as it occurs |
| Ledger.ByType | js/storage.js:72-75 | keeps exactly the transactions of the type, each as many times as it occurs |
| Ledger.GetCategories | js/storage.js:78-86 | with nothing stored, seeds and returns the nine default categories; a stored list is returned unchanged and a second read changes nothing |
| Ledger.CategoriesOf | js/storage.js:78-86 | a read sees the stored list when there is one, and otherwise the nine default categories |
| Ledger.SeedingUnobservable | js/storage.js:78-86 | the write that seeds the defaults into an empty store changes nothing any reader of the store observes |
| Ledger.AddCategory | js/storage.js:92-99 | the new category gets the fresh id and is never a default one; it is appended to the list as read |
| Ledger.DeleteCategory | js/storage.js:101-110 | null exactly when the first category with the id is a default one, and then the list is unchanged; otherwise exactly the categories with another id are kept, each as many times as listed, so an unknown id changes nothing |
| Ledger.GetCategoryById | js/storage.js:112-115 | the first category with that id, or none when no category has it |
| Ledger.AddGoal | js/storage.js:127-135 | appends the goal under the fresh id with its saved amount at zero |
| Ledger.UpdateGoal | js/storage.js:137-146 | null and no change for a missing id; otherwise only that goal becomes the shallow merge |
| Ledger.DeleteGoal | js/storage.js:148-153 | keeps exactly the goals with another id, each as many times as stored |
| Ledger.GetGoalById | js/storage.js:155-158 | the first goal with the id, found exactly when one exists |
| Ledger.AddAmountToGoal | js/storage.js:160-167 | null and no change for a missing goal; otherwise exactly that goal's saved amount grows by the amount and nothing else changes |
| Ledger.SetTheme | js/storage.js:170-184 | records the theme over the settings as read, changes nothing else, and returns the settings a later read sees |
| Ledger.GetSettings | js/storage.js:170-173 | the stored settings, or the light theme when none are stored |
| Ledger.SetSavings | js/storage.js:187-195 | stores the amount and returns it; only the savings change |
| Ledger.AddFixedExpense | js/storage.js:207-214 | appends the expense under the fresh id and creation time |
| Ledger.UpdateFixedExpense | js/storage.js:216-225 | null and no change for a missing id; otherwise only that expense becomes the shallow merge |
| Ledger.DeleteFixedExpense | js/storage.js:227-232 | keeps exactly the expenses with another id, each as many times as stored |
| Ledger.GetFixedExpenseById | js/storage.js:234-237 | the first expense with the id, found exactly when one exists |
| Ledger.ExportData | js/storage.js:341-351 | the document holds every collection as a reader sees it, defaults applied, stamped with the time |
| Ledger.ImportData | js/storage.js:353-372 | overwrites exactly the collections the document holds, keeps the rest, and applies a present savings amount even when it is 0 |
| Ledger.ClearAllData | js/storage.js:374-381 | afterwards a reader sees no transactions, goals or fixed expenses, the default categories and settings, and savings 0 |
| Ledger.DefaultCategoriesFacts | js/storage.js:15-25 | there are nine defaults, all flagged default, with distinct ids |
| Ledger.ImportExportRoundTrip | js/storage.js:341-372 | importing an export, into any store, reproduces transactions, categories, goals, settings, savings and fixed expenses |
| Ledger.AddThenDeleteTransaction | js/storage.js:37-62 | adding under an unused id and then deleting that id gives back the original store |
| Ledger.AddThenFindTransaction | js/storage.js:37-44 | a lookup of the fresh id finds the added record |
| Ledger.UpdateThenFindTransaction | js/storage.js:46-55 | a lookup after an update finds the updated record |
| Ledger.DeleteTransactionKeepsOrder | js/storage.js:57-62 | deleting from a list split in two gives what is kept of the first part followed by what is kept of the second, so the kept records stay in stored order |
| Ledger.DeleteGoalKeepsOrder | js/storage.js:148-153 | the same order-keeping split for goals |
| Ledger.DeleteFixedExpenseKeepsOrder | js/storage.js:227-232 | the same order-keeping split for fixed expenses |
| Ledger.DeleteCategoryKeepsOrder | js/storage.js:101-110 | a deletion that goes ahead keeps the other categories of the first part of the list before those of the second |
| Ledger.ByMonthAppend | js/storage.js:64-70 | the month filter of a list split in two is the filter of the first part followed by that of the second, so stored order is kept |
| Ledger.ByTypeAppend | js/storage.js:72-75 | the type filter keeps stored order in the same way |
| Ledger.AddThenDeleteFixedExpense | js/storage.js:207-232 | adding a fixed expense under an unused id and then deleting that id gives back the original store |
| Ledger.AddThenFindFixedExpense | js/storage.js:207-237 | a lookup of the fresh id finds the added fixed expense |
| Ledger.UpdateThenFindFixedExpense | js/storage.js:216-237 | a lookup after an update of a fixed expense finds the updated record |
| Ledger.AddThenDeleteGoal | js/storage.js:127-153 | adding a goal under a fresh id and deleting that id restores the store |
| Ledger.AddThenFindGoal | js/storage.js:127-158 | a goal added under a fresh id is what a lookup of that id finds |
| Ledger.AddThenFindCategory | js/storage.js:92-115 | a category added under a fresh id is what a lookup of that id finds |
| Ledger.AddThenDeleteCategory | js/storage.js:78-110 | a category added under a fresh id can be deleted, and the list then reads as before the addition |
| Ledger.DefaultCategoryUndeletable | js/storage.js:101-106 | when every category with the id is a default one, deletion returns null and the list a reader sees is unchanged |
| Aggregates.CalculateBalance | js/storage.js:240-260 | income sums the income values, expense sums every other type, and the balance is savings + income − expense |
| Aggregates.CalculateMonthlyBalance | js/storage.js:262-280 | the same sums over one month's transactions, with balance income − expense |
| Aggregates.IncomeOutgoPartition | js/storage.js:246-252 | every transaction's value lands in exactly one of income and expense |
| Aggregates.CategoryTotals | js/storage.js:289-299 | one entry per category that has an expense, with distinct categories; each amount is that category's expense total, and the amounts sum to the total of all expenses |
| Aggregates.ExpensesByCategory | js/storage.js:282-300 | the per-category totals over all transactions or over one month: distinct categories, each amount that category's expense, every category with an expense listed and no other, and the amounts summing to the total expense |
| Aggregates.CategoryTotalsMatchBalance | js/storage.js:240-300 | when every type is income or expense, the per-category totals add up to the expense of the balance over the same scope |
| Aggregates.GetMonthlyData | js/storage.js:302-320 | n entries, oldest first, for consecutive valid months ending at the current one, each carrying that month's income and expense |
| Aggregates.AvailableMonths | js/storage.js:322-333 | strictly descending, so free of duplicates, and holding exactly the months some transaction is dated in |
| Aggregates.DescendingDistinct | js/storage.js:332 | a strictly descending list of months has no duplicates |
| Aggregates.MonthlyBalancesAddUp | js/storage.js:240-333 | summing each listed month's income and expense gives the income and expense of the overall balance |
| Sync.RemoveConfig | js/sync.js:145-147 | afterwards the device is not configured and nothing else changes |
| Sync.IsConfigured | js/sync.js:150-153 | false without a configuration or with an empty token or Gist id; true only when all three are present |
| Sync.SelectGist | js/sync.js:183-189 | the id of the first listed Gist that holds the data file, or none when none does |
| Sync.Setup | js/sync.js:156-233 | an invalid token fails with "Token inválido" and changes nothing; a failed Gist-list request fails, because the error body cannot be iterated, and changes nothing; otherwise it reuses the first Gist with the file or creates one with the current data; a failed creation reports "Erro ao criar Gist"; on success the saved configuration carries the token, user, Gist id and time, and nothing else local changes |
| Sync.ConfigurationStates | js/sync.js:145-153 | a successful setup that reuses a Gist is configured; configured means a Gist id is present; removing the configuration always leaves the device unconfigured |
| Sync.AllData | js/sync.js:236-258 | the document carries every collection as read; the device list is the earlier list without this device, in order, followed by exactly one entry for this device stamped with the time |
| Sync.GetDevices | js/sync.js:261-285 | the document's device list, or empty when there is no configuration, the request fails or the file is missing |
| Sync.IsDeviceBlocked | js/sync.js:337-346 | true exactly when this device's entry in the readable device list is flagged blocked |
| Sync.PushAsWritten | js/sync.js:288-334 | without a configuration fails with "Não configurado"; a blocked device fails flagged blocked; a failed write fails; only success writes the document and the last-sync time, and a failure changes nothing (apart from the unmodelled category seeding of `getAllData`, see "## Left out") |
| Sync.PushAsWrittenDropsDevices | js/sync.js:302 | when the device-list read fails, a successful push replaces every other device's entry, blocked ones included, with this device alone |
| Sync.Push | js/sync.js:288-334 | the same results, but it reads the device list once and fails when that read fails; a successful push keeps every other device's entry |
| Sync.PushAgreesWhenReadsSucceed | js/sync.js:288-334 | when the reads succeed, the corrected push and the push as written do the same thing |
| Sync.Pull | js/sync.js:349-401 | without a configuration fails with "Não configurado"; a blocked device fails flagged blocked; a failed fetch or missing file fails; on success it overwrites exactly the collections the document holds, savings even when 0, and records the last-sync time |
| Sync.SyncNow | js/sync.js:404-414 | a failed pull is the result, with nothing pushed or changed; after a successful pull the outcome is exactly that of the push as written from the pulled local state, so a failed push returns the push's error and blocked flag and keeps the pulled data; its own block check and device read may fail silently; success writes the pulled data with the device list as that read returned it, and leaves the last-sync time at now |
| Sync.AutoSync | js/sync.js:428-437 | runs the push as written only when configured; otherwise nothing happens |
| Sync.SyncCorrected | js/sync.js:404-414 | the same pull; after a successful pull the outcome is exactly that of the corrected push from the pulled local state; a success keeps every other device's entry |
| Sync.SyncAgreesWhenReadsSucceed | js/sync.js:404-414 | when the block checks and the device read succeed, sync as written and the corrected sync do the same thing |
| Sync.SyncNowDropsDevices | js/sync.js:404-414 | when only the push's device read fails, sync as written reports success and writes this device alone, while the corrected sync fails and leaves the remote as it was |
| Sync.AutoSyncAgreesWhenReadsSucceed | js/sync.js:428-437 | when the reads succeed, a configured auto-sync is the corrected push, so it keeps every other device's entry |
| Sync.SyncOnLoad | js/sync.js:440-453 | unconfigured gives a plain failure; configured gives the pull's result |
| Sync.PushThenPull | js/sync.js:288-401 | a successful push as written, whatever its own block check and device read returned, followed by a pull of the same document leaves every collection and the savings history as they were |
| Sync.CorrectedPushThenPull | js/sync.js:288-401 | the same round trip through the corrected push |
| Sync.RemoveDeviceAsWritten | js/sync.js:85-131 | reports success whenever the configuration, fetch and file are there, whether or not the write succeeded; the written list is filtered from a separate read that may have failed |
| Sync.RemoveDeviceAsWrittenMisreports | js/sync.js:90-126 | a failed first read empties the device list while reporting success, and a failed write reports success with the device still listed |
| Sync.RemoveDevice | js/sync.js:85-131 | succeeds exactly when configuration, fetch, file and write are all there; the written list keeps exactly the devices with another id, and a failure changes nothing |
| Sync.RemoveDeviceIdempotent | js/sync.js:90-91 | removing the same device twice leaves the same list as removing it once |
| Ui.MoneyMask | js/ui.js:51-59 | empty exactly when the input has no digit; otherwise whole digits without a leading zero, a dot and two digits whose value is the input's digits read as cents |
| Ui.CentsReadBack | js/ui.js:53-58 | the digits of a rendered amount read back as that amount |
| Ui.MoneyMaskIdempotent | js/ui.js:51-59 | masking a masked value changes nothing |
| Ui.Count | js/ui.js:144-146 | the number of positions whose item qualifies; positive exactly when some item does |
| Ui.CountsPartition | js/ui.js:144-146 | overdue + today + upcoming equals the number of items, plus the items flagged both overdue and due today |
| Ui.Title | js/ui.js:148-161 | the non-zero groups in the order overdue, today, upcoming, joined by ", " and pluralised above 1; empty exactly when every count is zero |
| Ui.StatusText | js/ui.js:175-186 | "Atrasada " and the number of days late for overdue items, "Vence hoje!" for today, "Vence em " and the days left otherwise, then " dia", plural exactly when the day count is above 1 |
| Ui.StatusDaysReadBack | js/ui.js:175-186 | the digits of an overdue or upcoming status line read back as the absolute day count, and today's line has no digits |
| Ui.DueAlert | js/ui.js:131-202 | hidden exactly for an empty list; otherwise the title from the three counts, the overdue tone exactly when one item is overdue, and the statuses of at most the first five items |
| Ui.CategoryOptions | js/ui.js:346-355 | keeps exactly the categories shown for the chosen type, each as many times as listed |
| Ui.CategoryOptionsAppend | js/ui.js:346-355 | the options of a list split in two are those of the first part followed by those of the second, so the list order is kept |
| Ui.CategoryOptionsCharacterised | js/ui.js:350-354 | income shows custom categories and salario, investimentos and outros; expense shows every category but those two defaults; both show outros and all custom ones |
| Ui.FilterByKey | js/ui.js:303-308 | keeps exactly the transactions the month filter accepts, each as many times as it occurs |
| Ui.FilterByKeyAppend | js/ui.js:303-308 | the filter of a list split in two is the filter of the first part followed by that of the second, so stored order is kept |
| Ui.AsWrittenFilterMissesOwnMonth | js/ui.js:307 | the key a transaction's own month is listed under shows none of that month's transactions |
| Ui.FilterByOwnKey | js/ui.js:303-308 | with 1-based keys the filter keeps exactly the month's transactions |
| Ui.ReplicateRowOf | js/ui.js:741-755 | disabled exactly when already replicated or a card charge on its last installment; the note is "already replicated", "last installment", n → n−1 for a card charge with more installments, "card" for a card charge without an installment count, or none for a non-card item, each exactly in its case |
| Ui.SelectAll | js/ui.js:800-809 | sets every enabled checkbox and never touches a disabled one |
| Ui.CheckedIds | js/ui.js:795-798 | an id is selected exactly when some row with that id is checked, and there are as many ids as checked rows |
| Ui.CheckedIdsAppend | js/ui.js:795-798 | the ids of a split list are those of the first part followed by those of the second, so they come in row order |
| Ui.SelectAllChoosesEligible | js/ui.js:741-809 | after select-all, a transaction is checked exactly when it is eligible for replication |
| Ui.ReplicateCandidates | js/ui.js:707-730 | a permutation of the month's transactions, incomes first, dates ascending within a type |
| Ui.Recent | js/ui.js:217-220 | at most five transactions, newest first, taken from the list, and none left out is newer than one shown |
| Ui.BreakdownItemOf | js/ui.js:394-397 | the name and colour of the first category with the entry's id, or "Outros" in grey when unknown, with its amount and share |
| Ui.Breakdown | js/ui.js:393-399 | a permutation of the entries' items, largest amount first, every share 0 when the total is not positive |
| Ui.PercentsAddUp | js/ui.js:396 | the shares of the entries add up to the share of their sum |
| Ui.PercentsOfTotal | js/ui.js:389-399 | when the total is the positive sum of the entries, the shares add up to 100 |
| Ui.PercentScales | js/ui.js:396 | a share times the total is the amount times 100 |
| Ui.Percent | js/ui.js:396 | 0 when the total is not positive; otherwise, for an amount within the total, a share between 0 and 100 (its exact value is stated by Ui.PercentScales) |
| App.SaveTransaction | js/app.js:186-218 | an incomplete form (value 0 or unparsable, blank description, no category, no date) changes nothing and shows the error; an id updates exactly that transaction's type, value, description, category and date; no id adds exactly one transaction; the form's type then returns to income |
| App.SaveNewThenDelete | js/app.js:206-214 | saving a new transaction and deleting its id restores the store |
| App.SaveEditThenFind | js/app.js:206-209 | after an edit, looking the id up finds the form's data |
| App.SaveGoal | js/app.js:273-297 | a blank name, or a missing or zero target or month count, changes nothing; editing replaces only name, target and months and keeps the saved amount; a new goal starts at zero |
| App.EditKeepsProgress | js/app.js:284-288 | a deposit after an edit adds to the amount saved before the edit |
| App.AddCategoryForm | js/app.js:330-345 | a blank name, by every whitespace and line terminator `trim` removes, is refused; otherwise one custom category with the trimmed name, the colour and the folder icon is appended |
| App.AddCategoryFormTrims | js/app.js:331 | entering the name already trimmed gives the same outcome as entering it untrimmed |
| App.AddCategoryFormThenDelete | js/app.js:330-361 | a category the form adds under a fresh id can be deleted through the confirmation, which leaves the list as before |
| App.UnicodeBlankNameRefused | js/app.js:330-335 | a name made only of Unicode space separators is refused and the store is unchanged |
| App.ConfirmDeleteCategory | js/app.js:347-361 | the "cannot delete default" error exactly when the store refuses, with the list unchanged and no refresh; otherwise success and the refreshed list without the id |
| App.DefaultCategoryStays | js/app.js:352-354 | confirming the deletion of a default category reports the error and keeps every category |
| App.SaveSavings | js/app.js:365-371 | savings become the parsed value, or 0 when unparsable; nothing else in the store changes (the category seeding of the refresh that follows is not modelled, see "## Left out") |
| App.SavingsShiftBalance | js/app.js:366-367 | the balance moves by the change in savings; income and expense stay |
| App.RowOf | js/app.js:388-397 | "Receita" exactly for income, "Despesa" otherwise; the name of the first category with the id, or "Outros" when unknown; date, description and value kept |
| App.TransactionRows | js/app.js:388-400 | one row per transaction, a permutation, in ascending date order |
| App.EveryTransactionExported | js/app.js:388-397 | every transaction's row appears in the sheet |
| App.Summary | js/app.js:403-408 | exactly four rows, labelled and valued as savings, income, expense and balance |
| App.ExportWorkbook | js/app.js:381-408 | the sheets as above; the balance row is savings + income − expense, and only the seeding of default categories may touch the store |
| App.ExportAgreesWithReport | js/app.js:381-408 | when every type is income or expense, the exported expense total is what the per-category report sums to |

## Left out

- Persistence (`localStorage`) and JSON (de)serialisation: the store is an in-memory value, so malformed stored text is not modelled.
- The Gist REST calls themselves (headers, URLs, status codes, `fetch` exceptions). Each request is one success flag, and a response body is the abstract document.
- Time and randomness. `Date.now()`/`Math.random()` ids and `new Date().toISOString()` stamps are parameters. So is the time-zone parsing of `new Date('YYYY-MM-DD')`: dates are taken at their written components.
- Floating point. Amounts are whole cents, so `parseFloat` of the value fields and rounding in sums are not modelled. Breakdown shares are exact `real`s.
- The data-URL Excel writing (`XLSX`), DOM rendering, event binding, modals, toasts' rendering, theme switching and scrolling. Only the values handed to them are modelled.
- User-agent sniffing and device naming (`js/sync.js:10-82`). This device's id and name are a parameter.
- `getLastSyncFormatted` and every `toLocaleString`/`Intl` formatting: locale output.
- Functions the shown files call but do not define. `Storage.getNextMonth` and `Storage.getCurrentMonth` are not part of this model. `Storage.isAlreadyReplicated` becomes the set of already-replicated ids, and `Storage.getSavingsHistory`/`saveSavingsHistory` become an opaque list held next to the store.
- `js/charts.js`, `sw.js` and `server.js`: chart configuration, cache and HTTP plumbing.
- Ui.ReplicateCandidates does not state the order of transactions of the same type and date (see the line on ties below). It ranks every type other than income after income. The source's comparator is not consistent for a third type string, and only income and expense occur.
- Ui.Recent, App.TransactionRows, Ui.Breakdown and Ui.ReplicateCandidates do not state the order of ties. The sort is a stable insertion sort, but stability is not proved.
- Aggregates.AvailableMonths orders months numerically. The source sorts `YYYY-MM` text, which agrees only for four-digit years.
- Ui.Percent states the share only as a bound; its exact value is stated by Ui.PercentScales.
- Ledger.AddCategory appends to a copy of the list as read. In the source, an unseeded read returns the `DEFAULT_CATEGORIES` array itself (js/storage.js:84-85) and `addCategory` pushes onto it (js/storage.js:96), so the in-memory defaults grow and a read after `clearAllData` (js/storage.js:374-381) would list the added category. In the source the controller's refresh reads the categories (js/app.js:158) at start-up and after every save, which stores them, so the shown flows never reach this; that seeding write is itself not modelled (see the next line).
- Ledger.UpdateTransaction, Ledger.UpdateGoal and Ledger.UpdateFixedExpense take patches that cannot carry `id` or `createdAt`, while `{...old, ...updates}` (js/storage.js:46-55, 137-146, 216-225) merges any key. No caller passes those keys: js/app.js:198-208 passes the form fields and js/app.js:287 passes name, target and months.
- App.SaveTransaction, App.SaveGoal, App.SaveSavings, Sync.PushAsWritten, Sync.Push, Sync.Setup and Ledger.GetCategoryById do not model the write with which their category read seeds an empty store with the defaults (js/storage.js:84). In the source this read happens in `refreshAll` after every save (js/app.js:158, 218, 296, 370), in `getAllData` before a push's PATCH or a Gist creation (js/sync.js:249, 314, 205), and in `getCategoryById` (js/storage.js:113). Their contracts keep `categories == None` where the source would store the defaults. Ledger.SeedingUnobservable proves that this write changes nothing any reader observes.
- Ledger.ExportData of the store does not model the side effect of seeding the default categories when it reads them. App.ExportWorkbook does model that seeding.
- Sync.Setup: a failed Gist-list request fails with the message V8 gives for iterating a non-iterable value; other engines word that message differently.
- App.SaveTransaction: the source passes the form's text date through. The model takes the date as already parsed, so a non-empty but malformed date is not modelled.

## Findings

| source | as written | input that shows it | evidently intended | confidence | as-written member | corrected member |
|---|---|---|---|---|---|---|
| js/storage.js:328 with js/ui.js:307, js/ui.js:712, js/ui.js:332 | month keys are written with the 0-based `getMonth()` and read back as 1-based months | a transaction dated 2024-02-15 is listed under key "2024-01"; filtering by that key keeps January's transactions, so February's own transactions are not shown | a key and its reading use the same month convention | high, not executed | Ui.AsWrittenFilterMissesOwnMonth | Ui.FilterByOwnKey |
| js/sync.js:90-91, js/sync.js:108, js/sync.js:273 | `removeDevice` filters a separately fetched device list, and that fetch yields `[]` on failure | devices [a, b]: the list read fails, the document fetch succeeds, and the document is written with no devices at all | remove only the named device from the document just fetched | high, not executed | Sync.RemoveDeviceAsWrittenMisreports | Sync.RemoveDevice |
| js/sync.js:110-126 | the result of the PATCH is never checked, so success is always reported | devices [a, b]: removing a with the write failing reports success, and a is still listed | report failure when the write fails | high, not executed | Sync.RemoveDeviceAsWrittenMisreports | Sync.RemoveDevice |
| js/sync.js:302 with js/sync.js:241-245, js/sync.js:273 | `push` builds the device list from `getDevices()`, which yields `[]` when its request fails; `sync` and `autoSync` use this push (Sync.SyncNowDropsDevices shows it through `sync`, and Sync.SyncCorrected is the corrected `sync`) | another device is listed as blocked; the device-list read fails and the write succeeds; the pushed document lists only this device, so the block is lost | keep the other devices' entries, or fail when they cannot be read | medium, not executed | Sync.PushAsWrittenDropsDevices | Sync.Push |

=== FILE: aggregates.dfy ===
/**
 * The read-side calculations of `js/storage.js`: the overall and monthly
 * balances, expense totals per category, the trailing-months series and the
 * list of months that have transactions. All are folds over the stored
 * transactions; amounts are cents.
 */
module Aggregates {
  import opened Common
  import opened Calendar
  import opened Ledger

  // ===== Reference sums =====

  /** What a transaction contributes to income. */
  function IncomeOf(t: Transaction): int {
    if t.kind == Income then t.value else 0
  }

  /** What a transaction contributes to the balance's expense: every type other than income counts. */
  function OutgoOf(t: Transaction): int {
    if t.kind == Income then 0 else t.value
  }

  /** What a transaction contributes to the per-category expense totals: only the expense type counts. */
  function ExpenseOf(t: Transaction): int {
    if t.kind == Expense then t.value else 0
  }

  /** Sum of `f` over the transactions, folded left to right. */
  function SumBy(txs: seq<Transaction>, f: Transaction -> int): int {
    if |txs| == 0 then 0 else SumBy(txs[..|txs| - 1], f) + f(txs[|txs| - 1])
  }

  lemma {:induction false} SumByAppend(a: seq<Transaction>, b: seq<Transaction>, f: Transaction -> int)
    ensures SumBy(a + b, f) == SumBy(a, f) + SumBy(b, f)
  {
    if |b| > 0 {
      assert (a + b)[..|a + b| - 1] == a + b[..|b| - 1];
      SumByAppend(a, b[..|b| - 1], f);
    } else {
      assert a + b == a;
    }
  }

  /** Every transaction counts either as income or as outgoing, never both. */
  lemma {:induction false} IncomeOutgoPartition(txs: seq<Transaction>)
    ensures SumBy(txs, IncomeOf) + SumBy(txs, OutgoOf) == SumBy(txs, (t: Transaction) => t.value)
  {
    if |txs| > 0 {
      IncomeOutgoPartition(txs[..|txs| - 1]);
    }
  }

  /** Only income and expense types occur. */
  predicate TwoTypes(txs: seq<Transaction>) {
    forall t :: t in txs ==> t.kind == Income || t.kind == Expense
  }

  /** Without other types, the balance's expense and the per-category expense agree. */
  lemma {:induction false} OutgoIsExpense(txs: seq<Transaction>)
    requires TwoTypes(txs)
    ensures SumBy(txs, OutgoOf) == SumBy(txs, ExpenseOf)
  {
    if |txs| > 0 {
      assert txs[|txs| - 1] in txs;
      OutgoIsExpense(txs[..|txs| - 1]);
    }
  }

  // ===== Balances =====

  /** Result of `calculateBalance`. */
  datatype BalanceSheet = BalanceSheet(income: int, expense: int, savings: int, balance: int)

  /** Result of `calculateMonthlyBalance`. */
  datatype MonthTotals = MonthTotals(income: int, expense: int, balance: int)

  function Balance(s: Store): BalanceSheet {
    var income := SumBy(s.transactions, IncomeOf);
    var expense := SumBy(s.transactions, OutgoOf);
    BalanceSheet(income, expense, s.savings, s.savings + income - expense)
  }

  function MonthBalance(txs: seq<Transaction>, ym: YearMonth): MonthTotals {
    var inMonth := ByMonth(txs, ym);
    var income := SumBy(inMonth, IncomeOf);
    var expense := SumBy(inMonth, OutgoOf);
    MonthTotals(income, expense, income - expense)
  }

  /**
   * One pass over all transactions: income sums the income-typed values,
   * expense sums every other value, and the balance is savings plus income
   * minus expense.
   */
  method CalculateBalance(s: Store) returns (r: BalanceSheet)
    ensures r.income == SumBy(s.transactions, IncomeOf)
    ensures r.expense == SumBy(s.transactions, OutgoOf)
    ensures r.savings == s.savings
    ensures r.balance == r.savings + r.income - r.expense
    ensures r == Balance(s)
  {
    var txs := s.transactions;
    var income := 0;
    var expense := 0;
    var i := 0;
    while i < |txs|
      invariant 0 <= i <= |txs|
      invariant income == SumBy(txs[..i], IncomeOf)
      invariant expense == SumBy(txs[..i], OutgoOf)
    {
      assert txs[..i + 1][..i] == txs[..i];
      if txs[i].kind == Income {
        income := income + txs[i].value;
      } else {
        expense := expense + txs[i].value;
      }
      i := i + 1;
    }
    assert txs[..i] == txs;
    r := BalanceSheet(income, expense, s.savings, s.savings + income - expense);
  }

  /**
   * One pass over the transactions dated in `ym`: income and expense are
   * the sums over that month alone, and the balance is their difference.
   */
  method CalculateMonthlyBalance(s: Store, ym: YearMonth) returns (r: MonthTotals)
    ensures r.income == SumBy(ByMonth(s.transactions, ym), IncomeOf)
    ensures r.expense == SumBy(ByMonth(s.transactions, ym), OutgoOf)
    ensures r.balance == r.income - r.expense
    ensures r == MonthBalance(s.transactions, ym)
  {
    var txs := s.transactions;
    var income := 0;
    var expense := 0;
    var i := 0;
    while i < |txs|
      invariant 0 <= i <= |txs|
      invariant income == MonthSum(txs[..i], ym, IncomeOf)
      invariant expense == MonthSum(txs[..i], ym, OutgoOf)
    {
      var t := txs[i];
      assert txs[..i + 1][..i] == txs[..i];
      if MonthOf(t.date) == ym {
        if t.kind == Income {
          income := income + t.value;
        } else {
          expense := expense + t.value;
        }
      }
      i := i + 1;
    }
    assert txs[..i] == txs;
    MonthSumIsFiltered(txs, ym, IncomeOf);
    MonthSumIsFiltered(txs, ym, OutgoOf);
    r := MonthTotals(income, expense, income - expense);
  }

  /** The sum of `f` over the transactions dated in `ym`, taken in one pass. */
  function MonthSum(txs: seq<Transaction>, ym: YearMonth, f: Transaction -> int): int {
    if |txs| == 0 then 0
    else
      var t := txs[|txs| - 1];
      MonthSum(txs[..|txs| - 1], ym, f) + (if MonthOf(t.date) == ym then f(t) else 0)
  }

  /** The one-pass month sum is the sum over the month's filtered transactions. */
  lemma {:induction false} MonthSumIsFiltered(txs: seq<Transaction>, ym: YearMonth, f: Transaction -> int)
    ensures MonthSum(txs, ym, f) == SumBy(ByMonth(txs, ym), f)
  {
    if |txs| > 0 {
      var front := txs[..|txs| - 1];
      var t := txs[|txs| - 1];
      MonthSumIsFiltered(front, ym, f);
      if MonthOf(t.date) == ym {
        var kept := ByMonth(txs, ym);
        assert kept == ByMonth(front, ym) + [t];
        assert kept[..|kept| - 1] == ByMonth(front, ym);
      }
    }
  }

  // ===== Expenses by category =====

  /** One entry of `getExpensesByCategory`: a category id and its summed expense. */
  datatype CategoryAmount = CategoryAmount(category: string, amount: int)

  /** Expense total of category `c`. */
  function CategoryExpense(txs: seq<Transaction>, c: string): int {
    if |txs| == 0 then 0
    else
      var t := txs[|txs| - 1];
      CategoryExpense(txs[..|txs| - 1], c) + (if t.category == c then ExpenseOf(t) else 0)
  }

  function AmountSum(entries: seq<CategoryAmount>): int {
    if |entries| == 0 then 0 else AmountSum(entries[..|entries| - 1]) + entries[|entries| - 1].amount
  }

  predicate DistinctCategories(entries: seq<CategoryAmount>) {
    forall i, j :: 0 <= i < j < |entries| ==> entries[i].category != entries[j].category
  }

  predicate Listed(entries: seq<CategoryAmount>, c: string) {
    exists k :: 0 <= k < |entries| && entries[k].category == c
  }

  function EntryIndex(entries: seq<CategoryAmount>, c: string): (i: int)
    ensures -1 <= i < |entries|
    ensures i >= 0 ==> entries[i].category == c
    ensures i < 0 <==> !Listed(entries, c)
  {
    if |entries| == 0 then -1
    else if entries[|entries| - 1].category == c then |entries| - 1
    else
      var i := EntryIndex(entries[..|entries| - 1], c);
      assert Listed(entries, c) ==> Listed(entries[..|entries| - 1], c) by {
        if Listed(entries, c) {
          var k :| 0 <= k < |entries| && entries[k].category == c;
          assert entries[..|entries| - 1][k] == entries[k];
        }
      }
      i
  }

  lemma {:induction false} AmountSumUpdate(entries: seq<CategoryAmount>, i: int, delta: int)
    requires 0 <= i < |entries|
    ensures AmountSum(entries[i := entries[i].(amount := entries[i].amount + delta)]) == AmountSum(entries) + delta
  {
    var e := entries[i := entries[i].(amount := entries[i].amount + delta)];
    if i < |entries| - 1 {
      assert e[..|e| - 1] == entries[..|entries| - 1][i := entries[i].(amount := entries[i].amount + delta)];
      AmountSumUpdate(entries[..|entries| - 1], i, delta);
    } else {
      assert e[..|e| - 1] == entries[..|entries| - 1];
    }
  }

  /** Each entry holds its category's expense total. */
  predicate AmountsMatch(txs: seq<Transaction>, r: seq<CategoryAmount>) {
    forall k :: 0 <= k < |r| ==> r[k].amount == CategoryExpense(txs, r[k].category)
  }

  /** Every category that has an expense is listed. */
  predicate CoversExpenses(txs: seq<Transaction>, r: seq<CategoryAmount>) {
    forall t :: t in txs && t.kind == Expense ==> Listed(r, t.category)
  }

  /** Only categories that have an expense are listed. */
  predicate OnlyExpenseCategories(txs: seq<Transaction>, r: seq<CategoryAmount>) {
    forall k :: 0 <= k < |r| ==> HasExpense(txs, r[k].category)
  }

  /** Some expense of `txs` is filed under category `c`. */
  predicate HasExpense(txs: seq<Transaction>, c: string) {
    exists t :: t in txs && t.kind == Expense && t.category == c
  }

  /**
   * Expense totals per category, one entry per category that has an
   * expense, in order of first appearance. Each entry holds that category's
   * expense total, and the entries add up to the overall expense total.
   */
  function CategoryTotals(txs: seq<Transaction>): (r: seq<CategoryAmount>)
    ensures DistinctCategories(r)
    ensures AmountsMatch(txs, r)
    ensures CoversExpenses(txs, r)
    ensures OnlyExpenseCategories(txs, r)
    ensures AmountSum(r) == SumBy(txs, ExpenseOf)
  {
    if |txs| == 0 then []
    else
      var prefix := txs[..|txs| - 1];
      var t := txs[|txs| - 1];
      var before := CategoryTotals(prefix);
      assert txs == prefix + [t];
      if t.kind != Expense then
        AccumulateOther(prefix, before, t);
        before
      else
        var i := EntryIndex(before, t.category);
        if i < 0 then
          AccumulateNew(prefix, before, t);
          before + [CategoryAmount(t.category, t.value)]
        else
          AccumulateExisting(prefix, before, t, i);
          before[i := before[i].(amount := before[i].amount + t.value)]
  }

  lemma AccumulateOther(prefix: seq<Transaction>, before: seq<CategoryAmount>, t: Transaction)
    requires t.kind != Expense
    requires AmountsMatch(prefix, before) && CoversExpenses(prefix, before)
    requires OnlyExpenseCategories(prefix, before) && AmountSum(before) == SumBy(prefix, ExpenseOf)
    ensures AmountsMatch(prefix + [t], before) && CoversExpenses(prefix + [t], before)
    ensures OnlyExpenseCategories(prefix + [t], before) && AmountSum(before) == SumBy(prefix + [t], ExpenseOf)
  {
    var txs := prefix + [t];
    assert txs[..|txs| - 1] == prefix;
    forall k | 0 <= k < |before| ensures HasExpense(txs, before[k].category) {
      assert HasExpense(prefix, before[k].category);
      var u :| u in prefix && u.kind == Expense && u.category == before[k].category;
      assert u in txs;
    }
  }

  /** Appending a transaction adds its expense to its own category only. */
  lemma CategoryExpenseSnoc(prefix: seq<Transaction>, t: Transaction, c: string)
    ensures CategoryExpense(prefix + [t], c) == CategoryExpense(prefix, c) + (if t.category == c then ExpenseOf(t) else 0)
    ensures SumBy(prefix + [t], ExpenseOf) == SumBy(prefix, ExpenseOf) + ExpenseOf(t)
  {
    assert (prefix + [t])[..|prefix|] == prefix;
  }

  /** Transactions already in `prefix` keep a witness among `prefix + [t]`. */
  lemma OnlyExpenseGrows(prefix: seq<Transaction>, t: Transaction, r: seq<CategoryAmount>)
    requires OnlyExpenseCategories(prefix, r)
    ensures OnlyExpenseCategories(prefix + [t], r)
  {
    var txs := prefix + [t];
    forall k | 0 <= k < |r| ensures HasExpense(txs, r[k].category) {
      assert HasExpense(prefix, r[k].category);
      var u :| u in prefix && u.kind == Expense && u.category == r[k].category;
      assert u in txs;
    }
  }

  lemma AccumulateNew(prefix: seq<Transaction>, before: seq<CategoryAmount>, t: Transaction)
    requires t.kind == Expense && !Listed(before, t.category)
    requires DistinctCategories(before)
    requires AmountsMatch(prefix, before) && CoversExpenses(prefix, before)
    requires OnlyExpenseCategories(prefix, before) && AmountSum(before) == SumBy(prefix, ExpenseOf)
    ensures var r := before + [CategoryAmount(t.category, t.value)];
            && DistinctCategories(r)
            && AmountsMatch(prefix + [t], r) && CoversExpenses(prefix + [t], r)
            && OnlyExpenseCategories(prefix + [t], r) && AmountSum(r) == SumBy(prefix + [t], ExpenseOf)
  {
    var txs := prefix + [t];
    var r := before + [CategoryAmount(t.category, t.value)];
    assert r[..|r| - 1] == before;
    CategoryExpenseSnoc(prefix, t, t.category);
    NotListedNoExpense(prefix, before, t.category);
    forall k | 0 <= k < |r| ensures r[k].amount == CategoryExpense(txs, r[k].category) {
      CategoryExpenseSnoc(prefix, t, r[k].category);
    }
    forall u | u in txs && u.kind == Expense ensures Listed(r, u.category) {
      if u in prefix {
        var k :| 0 <= k < |before| && before[k].category == u.category;
        assert r[k] == before[k];
      } else {
        assert r[|r| - 1].category == u.category;
      }
    }
    OnlyExpenseGrows(prefix, t, before);
    forall k | 0 <= k < |r| ensures HasExpense(txs, r[k].category) {
      if k == |before| {
        assert t in txs;
      }
    }
  }

  /** A category with no entry in totals that cover every expense has no expense. */
  lemma {:induction false} NotListedNoExpense(txs: seq<Transaction>, entries: seq<CategoryAmount>, c: string)
    requires CoversExpenses(txs, entries)
    requires !Listed(entries, c)
    ensures CategoryExpense(txs, c) == 0
  {
    if |txs| > 0 {
      var p := txs[..|txs| - 1];
      assert CoversExpenses(p, entries) by {
        forall u | u in p && u.kind == Expense ensures Listed(entries, u.category) {
          assert u in txs;
        }
      }
      assert txs[|txs| - 1] in txs;
      NotListedNoExpense(p, entries, c);
    }
  }

  lemma AccumulateExisting(prefix: seq<Transaction>, before: seq<CategoryAmount>, t: Transaction, i: int)
    requires t.kind == Expense && 0 <= i < |before| && before[i].category == t.category
    requires DistinctCategories(before)
    requires AmountsMatch(prefix, before) && CoversExpenses(prefix, before)
    requires OnlyExpenseCategories(prefix, before) && AmountSum(before) == SumBy(prefix, ExpenseOf)
    ensures var r := before[i := before[i].(amount := before[i].amount + t.value)];
            && DistinctCategories(r)
            && AmountsMatch(prefix + [t], r) && CoversExpenses(prefix + [t], r)
            && OnlyExpenseCategories(prefix + [t], r) && AmountSum(r) == SumBy(prefix + [t], ExpenseOf)
  {
    AccumulateExistingAmounts(prefix, before, t, i);
    AccumulateExistingCategories(prefix, before, t, i);
  }

  /** The amounts half of `AccumulateExisting`: only the matching entry grows, by the expense's value. */
  lemma AccumulateExistingAmounts(prefix: seq<Transaction>, before: seq<CategoryAmount>, t: Transaction, i: int)
    requires t.kind == Expense && 0 <= i < |before| && before[i].category == t.category
    requires DistinctCategories(before)
    requires AmountsMatch(prefix, before) && AmountSum(before) == SumBy(prefix, ExpenseOf)
    ensures var r := before[i := before[i].(amount := before[i].amount + t.value)];
            AmountsMatch(prefix + [t], r) && AmountSum(r) == SumBy(prefix + [t], ExpenseOf)
  {
    var txs := prefix + [t];
    var r := before[i := before[i].(amount := before[i].amount + t.value)];
    AmountSumUpdate(before, i, t.value);
    CategoryExpenseSnoc(prefix, t, t.category);
    forall k | 0 <= k < |r| ensures r[k].amount == CategoryExpense(txs, r[k].category) {
      CategoryExpenseSnoc(prefix, t, r[k].category);
    }
  }

  /** The categories half of `AccumulateExisting`: the list of categories is unchanged and already covers `t`. */
  lemma AccumulateExistingCategories(prefix: seq<Transaction>, before: seq<CategoryAmount>, t: Transaction, i: int)
    requires 0 <= i < |before| && before[i].category == t.category
    requires DistinctCategories(before) && CoversExpenses(prefix, before) && OnlyExpenseCategories(prefix, before)
    ensures var r := before[i := before[i].(amount := before[i].amount + t.value)];
            DistinctCategories(r) && CoversExpenses(prefix + [t], r) && OnlyExpenseCategories(prefix + [t], r)
  {
    var txs := prefix + [t];
    var r := before[i := before[i].(amount := before[i].amount + t.value)];
    OnlyExpenseGrows(prefix, t, before);
    SameCategories(txs, before, r);
    assert CoversExpenses(txs, before) by {
      forall u | u in txs && u.kind == Expense ensures Listed(before, u.category) {
        if u !in prefix {
          assert before[i].category == u.category;
        }
      }
    }
  }

  /** Entries with the same categories in the same places agree on every category-level property. */
  lemma SameCategories(txs: seq<Transaction>, a: seq<CategoryAmount>, b: seq<CategoryAmount>)
    requires |a| == |b| && forall k :: 0 <= k < |a| ==> a[k].category == b[k].category
    ensures DistinctCategories(a) ==> DistinctCategories(b)
    ensures CoversExpenses(txs, a) ==> CoversExpenses(txs, b)
    ensures OnlyExpenseCategories(txs, a) ==> OnlyExpenseCategories(txs, b)
  {
    if CoversExpenses(txs, a) {
      forall u | u in txs && u.kind == Expense ensures Listed(b, u.category) {
        var k :| 0 <= k < |a| && a[k].category == u.category;
        assert b[k].category == u.category;
      }
    }
  }

  /**
   * `getExpensesByCategory`: the totals over every transaction, or over the
   * month `scope` when one is given.
   */
  function ExpensesByCategory(s: Store, scope: Option<YearMonth>): (r: seq<CategoryAmount>)
    ensures var txs := if scope.Some? then ByMonth(s.transactions, scope.value) else s.transactions;
            && DistinctCategories(r)
            && AmountsMatch(txs, r)
            && CoversExpenses(txs, r)
            && OnlyExpenseCategories(txs, r)
            && AmountSum(r) == SumBy(txs, ExpenseOf)
  {
    CategoryTotals(if scope.Some? then ByMonth(s.transactions, scope.value) else s.transactions)
  }

  /**
   * With only income and expense types, the per-category totals add up to
   * the expense of the balance over the same scope: all transactions, or
   * one month.
   */
  lemma CategoryTotalsMatchBalance(s: Store, ym: YearMonth)
    requires TwoTypes(s.transactions)
    ensures AmountSum(ExpensesByCategory(s, None)) == Balance(s).expense
    ensures AmountSum(ExpensesByCategory(s, Some(ym))) == MonthBalance(s.transactions, ym).expense
  {
    OutgoIsExpense(s.transactions);
    var inMonth := ByMonth(s.transactions, ym);
    assert TwoTypes(inMonth);
    OutgoIsExpense(inMonth);
  }

  // ===== Trailing months =====

  /** One point of the trailing-months series; `month` is the calendar month 1..12. */
  datatype MonthPoint = MonthPoint(year: int, month: int, income: int, expense: int)

  function PointMonth(p: MonthPoint): YearMonth {
    YearMonth(p.year, p.month)
  }

  /** The point's income and expense are those of the transactions dated in its month. */
  predicate CarriesMonthTotals(txs: seq<Transaction>, p: MonthPoint) {
    var totals := MonthBalance(txs, PointMonth(p));
    p.income == totals.income && p.expense == totals.expense
  }

  /** The point of the month `back` months before `now`, with that month's totals summed directly. */
  function PointAt(txs: seq<Transaction>, now: YearMonth, back: int): MonthPoint {
    var ym := MonthsBefore(now, back);
    MonthPoint(ym.year, ym.month, MonthSum(txs, ym, IncomeOf), MonthSum(txs, ym, OutgoOf))
  }

  /** The point of the month `back` months before `now`, from one pass of the monthly balance. */
  method MonthPointOf(s: Store, now: YearMonth, back: int) returns (point: MonthPoint)
    ensures point == PointAt(s.transactions, now, back)
  {
    var ym := MonthsBefore(now, back);
    var totals := CalculateMonthlyBalance(s, ym);
    MonthSumIsFiltered(s.transactions, ym, IncomeOf);
    MonthSumIsFiltered(s.transactions, ym, OutgoOf);
    point := MonthPoint(ym.year, ym.month, totals.income, totals.expense);
  }

  /** `p` is the point of the month `back` months before `now`, with that month's totals. */
  predicate PointFor(txs: seq<Transaction>, now: YearMonth, back: int, p: MonthPoint) {
    && Serial(PointMonth(p)) == Serial(now) - back
    && ValidMonth(PointMonth(p))
    && CarriesMonthTotals(txs, p)
  }

  /**
   * The last `months` months, oldest first and ending with `now`'s month,
   * each with that month's income and expense; no entries when `months`
   * is not positive.
   */
  method GetMonthlyData(s: Store, now: YearMonth, months: int) returns (data: seq<MonthPoint>)
    requires ValidMonth(now)
    ensures |data| == if months > 0 then months else 0
    ensures forall k :: 0 <= k < |data| ==> Serial(PointMonth(data[k])) == Serial(now) - (|data| - 1 - k)
    ensures forall k :: 0 <= k < |data| ==> ValidMonth(PointMonth(data[k]))
    ensures forall k :: 0 <= k && k + 1 < |data| ==> Serial(PointMonth(data[k + 1])) == Serial(PointMonth(data[k])) + 1
    ensures |data| > 0 ==> PointMonth(data[|data| - 1]) == now
    ensures forall k :: 0 <= k < |data| ==> CarriesMonthTotals(s.transactions, data[k])
  {
    data := CollectPoints(s, now, months);
    PointsInOrder(s.transactions, now, data);
  }

  /** The loop of `getMonthlyData`: from `months - 1` months back up to `now`, one point per month. */
  method CollectPoints(s: Store, now: YearMonth, months: int) returns (data: seq<MonthPoint>)
    ensures |data| == if months > 0 then months else 0
    ensures forall k :: 0 <= k < |data| ==> data[k] == PointAt(s.transactions, now, |data| - 1 - k)
  {
    data := [];
    var i := months - 1;
    while i >= 0
      invariant i < months
      invariant months > 0 ==> i >= -1
      invariant months <= 0 ==> i == months - 1
      invariant |data| == months - 1 - i
      invariant data == RecentPoints(s.transactions, now, months, |data|)
    {
      var point := MonthPointOf(s, now, i);
      data := data + [point];
      i := i - 1;
    }
    RecentPointsAt(s.transactions, now, months, |data|);
  }

  /** The first `n` of the points for the last `months` months, oldest first. */
  function RecentPoints(txs: seq<Transaction>, now: YearMonth, months: int, n: nat): seq<MonthPoint> {
    if n == 0 then [] else RecentPoints(txs, now, months, n - 1) + [PointAt(txs, now, months - n)]
  }

  /** Point `k` of the list is the one `months - 1 - k` months before `now`. */
  lemma {:induction false} RecentPointsAt(txs: seq<Transaction>, now: YearMonth, months: int, n: nat)
    ensures |RecentPoints(txs, now, months, n)| == n
    ensures forall k :: 0 <= k < n ==> RecentPoints(txs, now, months, n)[k] == PointAt(txs, now, months - 1 - k)
  {
    if n > 0 {
      RecentPointsAt(txs, now, months, n - 1);
    }
  }

  /** Points each `|data| - 1 - k` months before `now` run month by month up to `now` itself. */
  lemma PointsInOrder(txs: seq<Transaction>, now: YearMonth, data: seq<MonthPoint>)
    requires ValidMonth(now)
    requires forall k :: 0 <= k < |data| ==> data[k] == PointAt(txs, now, |data| - 1 - k)
    ensures forall k :: 0 <= k < |data| ==> Serial(PointMonth(data[k])) == Serial(now) - (|data| - 1 - k)
    ensures forall k :: 0 <= k < |data| ==> ValidMonth(PointMonth(data[k]))
    ensures forall k :: 0 <= k && k + 1 < |data| ==> Serial(PointMonth(data[k + 1])) == Serial(PointMonth(data[k])) + 1
    ensures |data| > 0 ==> PointMonth(data[|data| - 1]) == now
    ensures forall k :: 0 <= k < |data| ==> CarriesMonthTotals(txs, data[k])
  {
    forall k | 0 <= k < |data|
      ensures PointFor(txs, now, |data| - 1 - k, data[k])
    {
      var ym := MonthsBefore(now, |data| - 1 - k);
      MonthSumIsFiltered(txs, ym, IncomeOf);
      MonthSumIsFiltered(txs, ym, OutgoOf);
    }
    if |data| > 0 {
      assert PointFor(txs, now, 0, data[|data| - 1]);
      SerialInjective(PointMonth(data[|data| - 1]), now);
    }
  }

  // ===== Months that have transactions =====

  predicate StrictlyDescending(ms: seq<YearMonth>) {
    forall i, j :: 0 <= i < j < |ms| ==> MonthLt(ms[j], ms[i])
  }

  /** Adds `m` to a strictly descending list unless it is already there. */
  function InsertMonth(ms: seq<YearMonth>, m: YearMonth): (r: seq<YearMonth>)
    requires StrictlyDescending(ms)
    ensures StrictlyDescending(r)
    ensures forall x :: x in r <==> x in ms || x == m
  {
    if |ms| == 0 then [m]
    else if ms[0] == m then ms
    else if MonthLt(ms[0], m) then [m] + ms
    else
      var rest := InsertMonth(ms[1..], m);
      assert forall x :: x in rest ==> MonthLt(x, ms[0]) by {
        forall x | x in rest ensures MonthLt(x, ms[0]) {
          if x != m {
            var j :| 0 <= j < |ms[1..]| && ms[1..][j] == x;
            assert ms[j + 1] == x;
          }
        }
      }
      assert forall j :: 0 <= j < |rest| ==> rest[j] in rest;
      assert ms == [ms[0]] + ms[1..];
      [ms[0]] + rest
  }

  /**
   * The distinct months of the transactions' dates, newest first: no month
   * repeats, and a month is listed exactly when some transaction falls in it.
   */
  function AvailableMonths(txs: seq<Transaction>): (r: seq<YearMonth>)
    ensures StrictlyDescending(r)
    ensures forall ym :: ym in r <==> exists t :: t in txs && MonthOf(t.date) == ym
  {
    if |txs| == 0 then []
    else
      var prefix := txs[..|txs| - 1];
      var t := txs[|txs| - 1];
      assert txs == prefix + [t];
      InsertMonth(AvailableMonths(prefix), MonthOf(t.date))
  }

  /** Strictly descending lists hold no month twice. */
  lemma DescendingDistinct(ms: seq<YearMonth>)
    requires StrictlyDescending(ms)
    ensures forall i, j :: 0 <= i < j < |ms| ==> ms[i] != ms[j]
  {
  }

  // ===== The monthly figures add up to the overall ones =====

  /** Sum of `f` over the transactions of each month in `ms`, month by month. */
  function MonthsSum(txs: seq<Transaction>, ms: seq<YearMonth>, f: Transaction -> int): int {
    if |ms| == 0 then 0 else MonthsSum(txs, ms[..|ms| - 1], f) + SumBy(ByMonth(txs, ms[|ms| - 1]), f)
  }

  predicate Distinct(ms: seq<YearMonth>) {
    forall i, j :: 0 <= i < j < |ms| ==> ms[i] != ms[j]
  }

  lemma {:induction false} MonthsSumEmpty(ms: seq<YearMonth>, f: Transaction -> int)
    ensures MonthsSum([], ms, f) == 0
  {
    if |ms| > 0 {
      MonthsSumEmpty(ms[..|ms| - 1], f);
    }
  }

  /** Appending one transaction adds its contribution once, in its own month, if that month is listed. */
  lemma {:induction false} MonthsSumSnoc(p: seq<Transaction>, t: Transaction, ms: seq<YearMonth>, f: Transaction -> int)
    requires Distinct(ms)
    ensures MonthsSum(p + [t], ms, f) == MonthsSum(p, ms, f) + (if MonthOf(t.date) in ms then f(t) else 0)
  {
    if |ms| > 0 {
      var init := ms[..|ms| - 1];
      var m := ms[|ms| - 1];
      assert Distinct(init);
      MonthsSumSnoc(p, t, init, f);
      assert ms == init + [m];
      assert MonthOf(t.date) in ms <==> MonthOf(t.date) in init || MonthOf(t.date) == m;
      FilteredSumSnoc(p, t, m, f);
      if MonthOf(t.date) == m {
        assert m !in init;
      }
    }
  }

  /** One more transaction adds its value to the sum over a month exactly when it is dated in that month. */
  lemma FilteredSumSnoc(p: seq<Transaction>, t: Transaction, m: YearMonth, f: Transaction -> int)
    ensures SumBy(ByMonth(p + [t], m), f) == SumBy(ByMonth(p, m), f) + (if MonthOf(t.date) == m then f(t) else 0)
  {
    var txs := p + [t];
    assert txs[..|txs| - 1] == p;
    assert txs[|txs| - 1] == t;
    MonthSumIsFiltered(txs, m, f);
    MonthSumIsFiltered(p, m, f);
  }

  /** Over distinct months covering every transaction, the monthly sums add up to the overall sum. */
  lemma {:induction false} MonthsSumCovers(txs: seq<Transaction>, ms: seq<YearMonth>, f: Transaction -> int)
    requires Distinct(ms)
    requires forall t :: t in txs ==> MonthOf(t.date) in ms
    ensures MonthsSum(txs, ms, f) == SumBy(txs, f)
  {
    if |txs| == 0 {
      MonthsSumEmpty(ms, f);
    } else {
      var p := txs[..|txs| - 1];
      var t := txs[|txs| - 1];
      assert txs == p + [t];
      assert t in txs;
      MonthsSumCovers(p, ms, f);
      MonthsSumSnoc(p, t, ms, f);
    }
  }

  /**
   * The monthly incomes and expenses over the months `AvailableMonths`
   * lists add up to the income and expense of the overall balance.
   */
  lemma MonthlyBalancesAddUp(s: Store)
    ensures MonthsSum(s.transactions, AvailableMonths(s.transactions), IncomeOf) == Balance(s).income
    ensures MonthsSum(s.transactions, AvailableMonths(s.transactions), OutgoOf) == Balance(s).expense
  {
    var ms := AvailableMonths(s.transactions);
    DescendingDistinct(ms);
    MonthsSumCovers(s.transactions, ms, IncomeOf);
    MonthsSumCovers(s.transactions, ms, OutgoOf);
  }
}

=== FILE: app.dfy ===
/**
 * The controller of `js/app.js`: the form guards that decide whether a
 * store mutation happens at all, the edit-or-add dispatch behind the save
 * buttons, the handling of a refused category deletion, the savings
 * field, and the shaping of the spreadsheet export. Form fields arrive
 * already read: a number field is `None` when it does not parse, a date
 * field is `None` when it is empty. The toast a handler shows is part of
 * its result; what it renders is not modelled.
 */
module App {
  import opened Common
  import opened Calendar
  import Text
  import Records
  import Sorting
  import opened Ledger
  import Aggregates

  /** A toast: its text and whether it is shown as an error. */
  datatype Toast = Toast(message: string, isError: bool)

  /** The controller's state: the store and the type the transaction form is set to. */
  datatype Controller = Controller(store: Store, currentType: TxType)

  /** What a handler leaves behind and the toast it shows. */
  datatype Step = Step(controller: Controller, toast: Toast)

  const MissingFields := Toast("Preencha todos os campos", true)

  /** A number field that holds a number other than zero (`!value` is false). */
  predicate NonZero(n: Option<int>) {
    n.Some? && n.value != 0
  }

  // ===== Transactions =====

  /**
   * The transaction form: the hidden id (empty for a new transaction), the
   * parsed value in cents, the raw description, the chosen category id and
   * the date.
   */
  datatype TxForm = TxForm(id: string, value: Option<int>, description: string, category: string, date: Option<Date>)

  /** The guard of `saveTransaction`: a non-zero number, and a description, category and date that are not empty. */
  predicate TxFormComplete(f: TxForm) {
    && NonZero(f.value)
    && Text.Trim(f.description) != ""
    && f.category != ""
    && f.date.Some?
  }

  /** `t` carries what a complete form says: the form's type, its value, trimmed description, category and date. */
  predicate HoldsForm(t: Transaction, kind: TxType, f: TxForm) {
    && t.kind == kind && Some(t.value) == f.value && t.description == Text.Trim(f.description)
    && t.category == f.category && Some(t.date) == f.date
  }

  /** `b` keeps what the form does not touch in `a`: the id, the creation time, and the paid and card fields. */
  predicate KeepsBookkeeping(a: Transaction, b: Transaction) {
    && b.id == a.id && b.createdAt == a.createdAt
    && b.paid == a.paid && b.isCard == a.isCard && b.installments == a.installments
  }

  /** The object the handler builds: the form's five fields and nothing else. */
  function FormPatch(kind: TxType, f: TxForm): TxPatch
    requires TxFormComplete(f)
  {
    TxPatch(Some(kind), f.value, Some(Text.Trim(f.description)), Some(f.category), f.date, None, None, None)
  }

  /** The same object as a new record; the fields it lacks read as false and 0. */
  function FormTransaction(kind: TxType, f: TxForm): Transaction
    requires TxFormComplete(f)
  {
    Transaction("", kind, f.value.value, Text.Trim(f.description), f.category, f.date.value, 0, false, false, 0)
  }

  /**
   * `saveTransaction`. An incomplete form changes nothing. Otherwise a
   * non-empty id updates that transaction's type, value, description,
   * category and date (an id no transaction has changes nothing, though the
   * success toast still shows), and an empty id adds exactly one new
   * transaction; either way the form's type switches back to income.
   */
  function SaveTransaction(c: Controller, f: TxForm, freshId: string, now: int): (r: Step)
    ensures !TxFormComplete(f) <==> r.toast.isError
    ensures !TxFormComplete(f) ==> r.controller == c && r.toast == MissingFields
    ensures TxFormComplete(f) ==> r.controller.currentType == Income
    ensures OnlyTransactionsChange(c.store, r.controller.store)
    ensures TxFormComplete(f) && f.id == "" ==>
              var txs := c.store.transactions;
              var after := r.controller.store.transactions;
              && |after| == |txs| + 1 && after[..|txs|] == txs
              && HoldsForm(after[|txs|], c.currentType, f)
              && after[|txs|].id == freshId && after[|txs|].createdAt == now
              && !after[|txs|].paid && !after[|txs|].isCard && after[|txs|].installments == 0
    ensures TxFormComplete(f) && f.id != "" ==>
              var txs := c.store.transactions;
              var after := r.controller.store.transactions;
              && |after| == |txs|
              && (!Records.HasId(txs, TxId, f.id) ==> after == txs)
              && (Records.HasId(txs, TxId, f.id) ==>
                    var i := Records.IndexOf(txs, TxId, f.id);
                    && HoldsForm(after[i], c.currentType, f)
                    && KeepsBookkeeping(txs[i], after[i])
                    && forall j :: 0 <= j < |txs| && j != i ==> after[j] == txs[j])
  {
    if !TxFormComplete(f) then Step(c, MissingFields)
    else if f.id != "" then
      var u := UpdateTransaction(c.store, f.id, FormPatch(c.currentType, f));
      Step(Controller(u.store, Income), Toast("Transação atualizada!", false))
    else
      var added := AddTransaction(c.store, FormTransaction(c.currentType, f), freshId, now);
      Step(Controller(added.store, Income), Toast("Transação salva!", false))
  }

  /** Saving a new transaction under an unused id and then deleting that id restores the store. */
  lemma SaveNewThenDelete(c: Controller, f: TxForm, freshId: string, now: int)
    requires TxFormComplete(f) && f.id == ""
    requires !Records.HasId(c.store.transactions, TxId, freshId)
    ensures DeleteTransaction(SaveTransaction(c, f, freshId, now).controller.store, freshId).store == c.store
  {
    AddThenDeleteTransaction(c.store, FormTransaction(c.currentType, f), freshId, now);
  }

  /** After an edit of an existing id, looking that id up finds the form's data. */
  lemma SaveEditThenFind(c: Controller, f: TxForm, freshId: string, now: int)
    requires TxFormComplete(f) && f.id != ""
    requires Records.HasId(c.store.transactions, TxId, f.id)
    ensures var found := Records.Find(SaveTransaction(c, f, freshId, now).controller.store.transactions, TxId, f.id);
            found.Some? && HoldsForm(found.value, c.currentType, f)
  {
    UpdateThenFindTransaction(c.store, f.id, FormPatch(c.currentType, f));
  }

  // ===== Goals =====

  /** The goal form: the hidden id, the name, the parsed target in cents and the parsed month count. */
  datatype GoalForm = GoalForm(id: string, name: string, target: Option<int>, months: Option<int>)

  /** The guard of `saveGoal`: a name that is not blank, and a target and month count other than zero. */
  predicate GoalFormComplete(f: GoalForm) {
    Text.Trim(f.name) != "" && NonZero(f.target) && NonZero(f.months)
  }

  /**
   * `saveGoal`. An incomplete form changes nothing. Editing an existing
   * goal replaces its name, target and month count and keeps the amount
   * already saved towards it; a new goal starts at zero.
   */
  function SaveGoal(s: Store, f: GoalForm, freshId: string, now: int): (r: Change<Toast>)
    ensures !GoalFormComplete(f) <==> r.result.isError
    ensures !GoalFormComplete(f) ==> r.store == s && r.result == MissingFields
    ensures OnlyGoalsChange(s, r.store)
    ensures GoalFormComplete(f) && f.id == "" ==>
              && |r.store.goals| == |s.goals| + 1 && r.store.goals[..|s.goals|] == s.goals
              && var g := r.store.goals[|s.goals|];
                 && g.id == freshId && g.name == Text.Trim(f.name) && Some(g.targetAmount) == f.target
                 && Some(g.months) == f.months && g.currentAmount == 0
    ensures GoalFormComplete(f) && f.id != "" ==>
              && |r.store.goals| == |s.goals|
              && (!Records.HasId(s.goals, GoalId, f.id) ==> r.store == s)
              && (Records.HasId(s.goals, GoalId, f.id) ==>
                    var i := Records.IndexOf(s.goals, GoalId, f.id);
                    var g := r.store.goals[i];
                    && g.name == Text.Trim(f.name) && Some(g.targetAmount) == f.target && Some(g.months) == f.months
                    && g.id == s.goals[i].id && g.currentAmount == s.goals[i].currentAmount
                    && g.createdAt == s.goals[i].createdAt
                    && forall j :: 0 <= j < |s.goals| && j != i ==> r.store.goals[j] == s.goals[j])
  {
    if !GoalFormComplete(f) then Change(s, MissingFields)
    else
      var name := Text.Trim(f.name);
      if f.id != "" then
        var u := UpdateGoal(s, f.id, GoalPatch(Some(name), f.target, f.months, None));
        Change(u.store, Toast("Meta atualizada!", false))
      else
        var added := AddGoal(s, Goal("", name, f.target.value, f.months.value, 0, 0), freshId, now);
        assert added.store.goals[..|s.goals|] == s.goals;
        Change(added.store, Toast("Meta criada!", false))
  }

  /** Editing a goal and then adding to it sees the amount saved before the edit. */
  lemma EditKeepsProgress(s: Store, f: GoalForm, freshId: string, now: int, amount: int)
    requires GoalFormComplete(f) && f.id != "" && Records.HasId(s.goals, GoalId, f.id)
    ensures var edited := SaveGoal(s, f, freshId, now).store;
            var added := AddAmountToGoal(edited, f.id, amount);
            && added.result.Some?
            && added.result.value.currentAmount == s.goals[Records.IndexOf(s.goals, GoalId, f.id)].currentAmount + amount
  {
    var edited := SaveGoal(s, f, freshId, now).store;
    var i := Records.IndexOf(s.goals, GoalId, f.id);
    assert GoalId(edited.goals[i]) == f.id;
    var k := Records.IndexOf(edited.goals, GoalId, f.id);
    assert k == i;
  }

  // ===== Categories =====

  /**
   * `addCategory`: a blank name is refused; otherwise a custom category
   * with the trimmed name, the chosen colour and the folder icon is added.
   */
  function AddCategoryForm(s: Store, name: string, color: string, freshId: string): (r: Change<Toast>)
    ensures Text.Trim(name) == "" <==> r.result.isError
    ensures Text.Trim(name) == "" ==> r.store == s && r.result == Toast("Digite um nome para a categoria", true)
    ensures Text.Trim(name) != "" ==>
              && r.store.categories.Some?
              && var cats := r.store.categories.value;
                 && |cats| == |CategoriesOf(s)| + 1 && cats[..|cats| - 1] == CategoriesOf(s)
                 && cats[|cats| - 1] == Category(freshId, Text.Trim(name), color, "📁", false)
    ensures OnlyCategoriesChange(s, r.store)
  {
    var trimmed := Text.Trim(name);
    if trimmed == "" then Change(s, Toast("Digite um nome para a categoria", true))
    else
      var added := AddCategory(s, Category("", trimmed, color, "📁", false), freshId);
      assert added.store.categories.value[..|CategoriesOf(s)|] == CategoriesOf(s);
      Change(added.store, Toast("Categoria criada!", false))
  }

  /**
   * A name made only of Unicode space separators, here an ideographic
   * space and an em space, is blank for `trim` and so refused.
   */
  lemma UnicodeBlankNameRefused(s: Store, color: string, freshId: string)
    ensures var r := AddCategoryForm(s, "\U{3000}\U{2003}", color, freshId);
            r.store == s && r.result == Toast("Digite um nome para a categoria", true)
  {
    var name := "\U{3000}\U{2003}";
    assert Text.IsSpace(name[0]) && Text.IsSpace(name[1]);
  }

  /** The form trims the name itself, so entering the name already trimmed gives the same outcome. */
  lemma AddCategoryFormTrims(s: Store, name: string, color: string, freshId: string)
    ensures AddCategoryForm(s, Text.Trim(name), color, freshId) == AddCategoryForm(s, name, color, freshId)
  {
    Text.TrimIdempotent(name);
  }

  /**
   * A category the form added under a fresh id can be deleted through the
   * confirmation, and the list then reads as it did before the addition.
   */
  lemma AddCategoryFormThenDelete(s: Store, name: string, color: string, freshId: string)
    requires Text.Trim(name) != ""
    requires !Records.HasId(CategoriesOf(s), CategoryId, freshId)
    ensures var a := AddCategoryForm(s, name, color, freshId);
            var d := ConfirmDeleteCategory(a.store, freshId);
            && !a.result.isError
            && !d.result.toast.isError
            && CategoriesOf(d.store) == CategoriesOf(s)
  {
    var c := Category("", Text.Trim(name), color, "📁", false);
    assert AddCategoryForm(s, name, color, freshId).store == AddCategory(s, c, freshId).store;
    AddThenDeleteCategory(s, c, freshId);
  }

  /** What the confirmed deletion shows: a toast, and the refreshed category list unless it was refused. */
  datatype DeleteShown = DeleteShown(toast: Toast, refreshed: Option<seq<Category>>)

  /**
   * The confirmation callback of `confirmDeleteCategory`. A refusal by the
   * store (a default category) is reported as an error and refreshes
   * nothing; any other outcome reports success and shows the list as it
   * now stands.
   */
  function ConfirmDeleteCategory(s: Store, id: string): (r: Change<DeleteShown>)
    ensures r.result.toast.isError <==> r.result.refreshed.None?
    ensures var first := Records.Find(CategoriesOf(s), CategoryId, id);
            r.result.toast.isError <==> first.Some? && first.value.isDefault
    ensures r.result.toast.isError ==>
              r.result.toast.message == "Não é possível excluir categorias padrão"
              && CategoriesOf(r.store) == CategoriesOf(s)
    ensures r.result.refreshed.Some? ==>
              && r.result.refreshed.value == CategoriesOf(r.store)
              && forall x :: x in r.result.refreshed.value <==> x in CategoriesOf(s) && x.id != id
    ensures OnlyCategoriesChange(s, r.store)
  {
    var d := DeleteCategory(s, id);
    if d.result.None? then
      Change(d.store, DeleteShown(Toast("Não é possível excluir categorias padrão", true), None))
    else
      Change(d.store, DeleteShown(Toast("Categoria excluída!", false), Some(CategoriesOf(d.store))))
  }

  /** Confirming the deletion of a default category never removes it. */
  lemma DefaultCategoryStays(s: Store, id: string)
    requires exists x :: x in CategoriesOf(s) && x.id == id
    requires forall x :: x in CategoriesOf(s) && x.id == id ==> x.isDefault
    ensures var r := ConfirmDeleteCategory(s, id);
            r.result.toast.isError && forall x :: x in CategoriesOf(s) ==> x in CategoriesOf(r.store)
  {
    var first := Records.Find(CategoriesOf(s), CategoryId, id);
    assert first.Some?;
  }

  // ===== Savings =====

  /**
   * `saveSavings`: the savings become the parsed amount, or 0 when the field
   * does not parse, and the balance moves with them.
   */
  function SaveSavings(s: Store, parsed: Option<int>): (r: Change<Toast>)
    ensures parsed.None? ==> r.store.savings == 0
    ensures parsed.Some? ==> r.store.savings == parsed.value
    ensures OnlySavingsChange(s, r.store)
    ensures !r.result.isError
  {
    var set_ := SetSavings(s, parsed.GetOr(0));
    Change(set_.store, Toast("Saldo guardado atualizado!", false))
  }

  /** Changing the savings moves the balance by the same amount and leaves income and expense alone. */
  lemma SavingsShiftBalance(s: Store, parsed: Option<int>)
    ensures var after := Aggregates.Balance(SaveSavings(s, parsed).store);
            var before := Aggregates.Balance(s);
            && after.income == before.income && after.expense == before.expense
            && after.balance - before.balance == parsed.GetOr(0) - s.savings
  {
  }

  // ===== Export =====

  /** One line of the "Transações" sheet. */
  datatype Row = Row(date: Date, kind: string, description: string, category: string, value: int)

  /** One line of the "Resumo" sheet. */
  datatype SummaryRow = SummaryRow(item: string, value: int)

  /** The two sheets of the exported workbook. */
  datatype Workbook = Workbook(transactions: seq<Row>, summary: seq<SummaryRow>)

  /** The row of one transaction: "Receita" or "Despesa", and the category's name or "Outros". */
  function RowOf(cats: seq<Category>, t: Transaction): (r: Row)
    ensures r.date == t.date && r.description == t.description && r.value == t.value
    ensures r.kind == "Receita" <==> t.kind == Income
    ensures r.kind == "Receita" || r.kind == "Despesa"
    ensures (forall x :: x in cats ==> x.id != t.category) ==> r.category == "Outros"
    ensures (exists x :: x in cats && x.id == t.category) ==>
              exists x :: x in cats && x.id == t.category && x.name == r.category
    ensures Records.HasId(cats, CategoryId, t.category) ==>
              exists x :: Records.IsFirst(cats, CategoryId, t.category, x) && r.category == x.name
  {
    var name := match Records.Find(cats, CategoryId, t.category)
      case Some(x) => x.name
      case None => "Outros";
    Row(t.date, if t.kind == Income then "Receita" else "Despesa", t.description, name, t.value)
  }

  function RowsOf(cats: seq<Category>, txs: seq<Transaction>): (r: seq<Row>)
    ensures |r| == |txs| && forall i :: 0 <= i < |r| ==> r[i] == RowOf(cats, txs[i])
  {
    if |txs| == 0 then [] else [RowOf(cats, txs[0])] + RowsOf(cats, txs[1..])
  }

  predicate EarlierFirst(a: Row, b: Row) {
    DateLe(a.date, b.date)
  }

  lemma EarlierFirstOrders()
    ensures Sorting.TotalPreorder(EarlierFirst)
  {
  }

  /** The transaction rows: one per transaction, in ascending date order. */
  function TransactionRows(cats: seq<Category>, txs: seq<Transaction>): (r: seq<Row>)
    ensures multiset(r) == multiset(RowsOf(cats, txs))
    ensures forall i, j :: 0 <= i < j < |r| ==> DateLe(r[i].date, r[j].date)
    ensures |r| == |txs|
  {
    EarlierFirstOrders();
    Sorting.Sort(EarlierFirst, RowsOf(cats, txs))
  }

  /** Every transaction has its row in the export. */
  lemma EveryTransactionExported(cats: seq<Category>, txs: seq<Transaction>, t: Transaction)
    requires t in txs
    ensures RowOf(cats, t) in TransactionRows(cats, txs)
  {
    var i :| 0 <= i < |txs| && txs[i] == t;
    var rows := RowsOf(cats, txs);
    assert rows[i] == RowOf(cats, t);
    assert RowOf(cats, t) in multiset(rows);
  }

  /** The summary: savings, total income, total expense and the balance, in that order. */
  function Summary(b: Aggregates.BalanceSheet): (r: seq<SummaryRow>)
    ensures |r| == 4
    ensures r[0].item == "Saldo Guardado" && r[1].item == "Total Receitas"
    ensures r[2].item == "Total Despesas" && r[3].item == "Saldo Atual"
    ensures r[0].value == b.savings && r[1].value == b.income
    ensures r[2].value == b.expense && r[3].value == b.balance
  {
    [SummaryRow("Saldo Guardado", b.savings), SummaryRow("Total Receitas", b.income),
     SummaryRow("Total Despesas", b.expense), SummaryRow("Saldo Atual", b.balance)]
  }

  /**
   * `exportData` of the controller. Reading the categories seeds the
   * defaults into an empty store, so the store may change that way and no
   * other.
   */
  function ExportWorkbook(s: Store): (r: Change<Workbook>)
    ensures OnlyCategoriesChange(s, r.store) && CategoriesOf(r.store) == CategoriesOf(s)
    ensures multiset(r.result.transactions) == multiset(RowsOf(CategoriesOf(s), s.transactions))
    ensures forall i, j :: 0 <= i < j < |r.result.transactions| ==>
              DateLe(r.result.transactions[i].date, r.result.transactions[j].date)
    ensures |r.result.summary| == 4 && r.result.summary[0].value == s.savings
    ensures r.result.summary[3].value
            == r.result.summary[0].value + r.result.summary[1].value - r.result.summary[2].value
    ensures r.result.summary[1].value == Aggregates.SumBy(s.transactions, Aggregates.IncomeOf)
    ensures r.result.summary[2].value == Aggregates.SumBy(s.transactions, Aggregates.OutgoOf)
  {
    var cats := GetCategories(s);
    Change(cats.store, Workbook(TransactionRows(cats.result, s.transactions), Summary(Aggregates.Balance(s))))
  }

  /**
   * With only income and expense transactions, the export's expense total
   * is what the per-category report sums to, and its balance is the
   * income rows minus the expense rows plus the savings.
   */
  lemma ExportAgreesWithReport(s: Store)
    requires Aggregates.TwoTypes(s.transactions)
    ensures var w := ExportWorkbook(s).result;
            w.summary[2].value == Aggregates.AmountSum(Aggregates.ExpensesByCategory(s, None))
  {
    Aggregates.CategoryTotalsMatchBalance(s, YearMonth(0, 1));
  }
}

=== FILE: common.dfy ===
/** Shared vocabulary of the ledger model: optional values and calendar months. */
module Common {

  /** A value that may be absent: a missing key, `null` or `undefined` in the original program. */
  datatype Option<+T> = None | Some(value: T) {

    /** The carried value, or `default` when absent (the `x || default` idiom). */
    function GetOr(default: T): T {
      match this
      case Some(v) => v
      case None => default
    }
  }
}

/**
 * Calendar dates read component-wise from `YYYY-MM-DD` text, and months
 * counted as a single serial number so that month arithmetic is plain
 * integer arithmetic. Months are calendar months 1..12 throughout.
 */
module Calendar {

  /** A `YYYY-MM-DD` date; `month` is the calendar month 1..12 as written. */
  datatype Date = Date(year: int, month: int, day: int)

  /** A calendar month of a year; `month` is 1..12. */
  datatype YearMonth = YearMonth(year: int, month: int)

  predicate ValidMonth(ym: YearMonth) {
    1 <= ym.month <= 12
  }

  /** The month a date falls in, compared on its written components. */
  function MonthOf(d: Date): YearMonth {
    YearMonth(d.year, d.month)
  }

  /** Chronological order of dates; for well-formed dates it is also the order of their texts. */
  predicate DateLe(a: Date, b: Date) {
    a.year < b.year || (a.year == b.year && (a.month < b.month || (a.month == b.month && a.day <= b.day)))
  }

  /** Strict chronological order of months. */
  predicate MonthLt(a: YearMonth, b: YearMonth) {
    a.year < b.year || (a.year == b.year && a.month < b.month)
  }

  /** Number of months since January of year 0. */
  function Serial(ym: YearMonth): int {
    ym.year * 12 + (ym.month - 1)
  }

  function FromSerial(n: int): (ym: YearMonth)
    ensures ValidMonth(ym)
    ensures Serial(ym) == n
  {
    YearMonth(n / 12, n % 12 + 1)
  }

  /**
   * The month `i` months before `ym`, with the year carried the way
   * a JavaScript `new Date(year, monthIndex - i, 1)` normalises it.
   */
  function MonthsBefore(ym: YearMonth, i: int): (r: YearMonth)
    ensures ValidMonth(r)
    ensures Serial(r) == Serial(ym) - i
  {
    FromSerial(Serial(ym) - i)
  }

  /** Valid months are determined by their serial number. */
  lemma SerialInjective(a: YearMonth, b: YearMonth)
    requires ValidMonth(a) && ValidMonth(b)
    requires Serial(a) == Serial(b)
    ensures a == b
  {
    SerialParts(a);
    SerialParts(b);
  }

  /** The year and month are recovered from the serial number by division. */
  lemma SerialParts(a: YearMonth)
    requires ValidMonth(a)
    ensures Serial(a) / 12 == a.year
    ensures Serial(a) % 12 == a.month - 1
  {
  }

  /** On valid months, chronological order is the order of serial numbers. */
  lemma MonthLtSerial(a: YearMonth, b: YearMonth)
    requires ValidMonth(a) && ValidMonth(b)
    ensures MonthLt(a, b) <==> Serial(a) < Serial(b)
  {
    if a.year < b.year {
      assert Serial(a) < Serial(b);
    } else if a.year > b.year {
      assert Serial(a) > Serial(b);
    }
  }
}

=== FILE: ledger.dfy ===
/**
 * The ledger store: id-keyed collections of transactions, categories, goals
 * and fixed expenses, a savings amount and a settings record, with the
 * create / read / shallow-merge update / delete operations of
 * `js/storage.js`. Persistence is an immutable `Store` value: every
 * mutator returns the new store together with what the original returns.
 * Fresh ids and the current instant are parameters.
 */
module Ledger {
  import opened Common
  import opened Calendar
  import Records

  // ===== Entities =====

  /** The `type` of a transaction. Any text other than income and expense is kept as `OtherType`. */
  datatype TxType = Income | Expense | OtherType(tag: string)

  /** A transaction. `value` is in cents; `installments` is 0 when the record carries none. */
  datatype Transaction = Transaction(
    id: string,
    kind: TxType,
    value: int,
    description: string,
    category: string,
    date: Date,
    createdAt: int,
    paid: bool,
    isCard: bool,
    installments: int)

  /** The fields an update may carry; an absent field keeps the old value (object spread). */
  datatype TxPatch = TxPatch(
    kind: Option<TxType>,
    value: Option<int>,
    description: Option<string>,
    category: Option<string>,
    date: Option<Date>,
    paid: Option<bool>,
    isCard: Option<bool>,
    installments: Option<int>)

  datatype Category = Category(id: string, name: string, color: string, icon: string, isDefault: bool)

  /** A savings goal; amounts in cents. */
  datatype Goal = Goal(
    id: string,
    name: string,
    targetAmount: int,
    months: int,
    currentAmount: int,
    createdAt: int)

  datatype GoalPatch = GoalPatch(
    name: Option<string>,
    targetAmount: Option<int>,
    months: Option<int>,
    currentAmount: Option<int>)

  /** A recurring monthly obligation. */
  datatype FixedExpense = FixedExpense(
    id: string,
    description: string,
    value: int,
    category: string,
    dueDay: int,
    startMonth: YearMonth,
    createdAt: int)

  datatype FixedPatch = FixedPatch(
    description: Option<string>,
    value: Option<int>,
    category: Option<string>,
    dueDay: Option<int>,
    startMonth: Option<YearMonth>)

  datatype Settings = Settings(theme: string)

  /**
   * The persisted state. `categories` and `settings` distinguish "nothing
   * stored" (None) from a stored value, because reads fall back to defaults
   * only in the first case; an absent savings amount reads as 0.
   */
  datatype Store = Store(
    transactions: seq<Transaction>,
    categories: Option<seq<Category>>,
    goals: seq<Goal>,
    settings: Option<Settings>,
    savings: int,
    fixedExpenses: seq<FixedExpense>)

  /** What a mutator leaves behind and what it hands back to its caller. */
  datatype Change<T> = Change(store: Store, result: T)

  const EmptyStore := Store([], None, [], None, 0, [])

  function TxId(t: Transaction): string { t.id }
  function CategoryId(c: Category): string { c.id }
  function GoalId(g: Goal): string { g.id }
  function FixedId(e: FixedExpense): string { e.id }

  // ===== Frames: "only this collection changes" =====

  predicate OnlyTransactionsChange(a: Store, b: Store) { a.(transactions := b.transactions) == b }
  predicate OnlyCategoriesChange(a: Store, b: Store) { a.(categories := b.categories) == b }
  predicate OnlyGoalsChange(a: Store, b: Store) { a.(goals := b.goals) == b }
  predicate OnlySettingsChange(a: Store, b: Store) { a.(settings := b.settings) == b }
  predicate OnlySavingsChange(a: Store, b: Store) { a.(savings := b.savings) == b }
  predicate OnlyFixedChange(a: Store, b: Store) { a.(fixedExpenses := b.fixedExpenses) == b }

  // ===== Transactions =====

  /** `b` carries the same user data as `a`; only the store-assigned id and creation time may differ. */
  predicate SameTxData(a: Transaction, b: Transaction) {
    && a.kind == b.kind && a.value == b.value && a.description == b.description
    && a.category == b.category && a.date == b.date && a.paid == b.paid
    && a.isCard == b.isCard && a.installments == b.installments
  }

  /** Stores `t` under the fresh `id`, stamped with `now`, after every existing transaction. */
  function AddTransaction(s: Store, t: Transaction, id: string, now: int): (r: Change<Transaction>)
    ensures r.result.id == id && r.result.createdAt == now && SameTxData(t, r.result)
    ensures |r.store.transactions| == |s.transactions| + 1
    ensures r.store.transactions[..|s.transactions|] == s.transactions
    ensures r.store.transactions[|s.transactions|] == r.result
    ensures OnlyTransactionsChange(s, r.store)
  {
    var added := t.(id := id, createdAt := now);
    var txs := s.transactions + [added];
    assert txs[..|s.transactions|] == s.transactions;
    Change(s.(transactions := txs), added)
  }

  /** The shallow merge `{...t, ...p}`. */
  function MergeTx(t: Transaction, p: TxPatch): (m: Transaction)
    ensures m.id == t.id && m.createdAt == t.createdAt
    ensures p.value.Some? ==> m.value == p.value.value
    ensures p.value.None? ==> m.value == t.value
    ensures p == TxPatch(None, None, None, None, None, None, None, None) ==> m == t
  {
    t.(kind := p.kind.GetOr(t.kind), value := p.value.GetOr(t.value),
       description := p.description.GetOr(t.description), category := p.category.GetOr(t.category),
       date := p.date.GetOr(t.date), paid := p.paid.GetOr(t.paid), isCard := p.isCard.GetOr(t.isCard),
       installments := p.installments.GetOr(t.installments))
  }

  /**
   * Merges `p` into the first transaction with id `id`. A missing id yields
   * `None` and the store as it was; otherwise only that position changes.
   */
  function UpdateTransaction(s: Store, id: string, p: TxPatch): (r: Change<Option<Transaction>>)
    ensures r.result.None? <==> !Records.HasId(s.transactions, TxId, id)
    ensures r.result.None? ==> r.store == s
    ensures OnlyTransactionsChange(s, r.store)
    ensures |r.store.transactions| == |s.transactions|
    ensures r.result.Some? ==>
              var i := Records.IndexOf(s.transactions, TxId, id);
              && r.result.value == MergeTx(s.transactions[i], p)
              && r.store.transactions[i] == r.result.value
              && forall j :: 0 <= j < |s.transactions| && j != i ==> r.store.transactions[j] == s.transactions[j]
  {
    var u := Records.UpdateFirst(s.transactions, TxId, id, (t: Transaction) => MergeTx(t, p));
    if u.record.None? then Change(s, None) else Change(s.(transactions := u.items), u.record)
  }

  /** Removes every transaction with id `id`, keeping the others in order; returns what remains. */
  function DeleteTransaction(s: Store, id: string): (r: Change<seq<Transaction>>)
    ensures r.result == r.store.transactions
    ensures forall t :: t in r.result <==> t in s.transactions && t.id != id
    ensures forall t :: multiset(r.result)[t] == if t.id == id then 0 else multiset(s.transactions)[t]
    ensures OnlyTransactionsChange(s, r.store)
  {
    var kept := Records.Without(s.transactions, TxId, id);
    Records.WithoutMultiset(s.transactions, TxId, id);
    Change(s.(transactions := kept), kept)
  }

  /** The transactions dated in month `ym`, in stored order. */
  function ByMonth(txs: seq<Transaction>, ym: YearMonth): (r: seq<Transaction>)
    ensures forall t :: t in r <==> t in txs && MonthOf(t.date) == ym
    ensures forall t :: multiset(r)[t] == if MonthOf(t.date) == ym then multiset(txs)[t] else 0
    ensures |r| <= |txs|
  {
    if |txs| == 0 then []
    else
      var rest := ByMonth(txs[..|txs| - 1], ym);
      var t := txs[|txs| - 1];
      assert txs == txs[..|txs| - 1] + [t];
      assert multiset(txs) == multiset(txs[..|txs| - 1]) + multiset{t};
      if MonthOf(t.date) == ym then rest + [t] else rest
  }

  /** The transactions of type `kind`, in stored order. */
  function ByType(txs: seq<Transaction>, kind: TxType): (r: seq<Transaction>)
    ensures forall t :: t in r <==> t in txs && t.kind == kind
    ensures forall t :: multiset(r)[t] == if t.kind == kind then multiset(txs)[t] else 0
    ensures |r| <= |txs|
  {
    if |txs| == 0 then []
    else
      var rest := ByType(txs[..|txs| - 1], kind);
      var t := txs[|txs| - 1];
      assert txs == txs[..|txs| - 1] + [t];
      assert multiset(txs) == multiset(txs[..|txs| - 1]) + multiset{t};
      if t.kind == kind then rest + [t] else rest
  }

  // ===== Categories =====

  const DefaultCategories: seq<Category> := [
    Category("alimentacao", "Alimentação", "#FF9800", "🍔", true),
    Category("transporte", "Transporte", "#2196F3", "🚗", true),
    Category("moradia", "Moradia", "#9C27B0", "🏠", true),
    Category("lazer", "Lazer", "#E91E63", "🎮", true),
    Category("saude", "Saúde", "#4CAF50", "💊", true),
    Category("educacao", "Educação", "#00BCD4", "📚", true),
    Category("salario", "Salário", "#8BC34A", "💰", true),
    Category("investimentos", "Investimentos", "#3F51B5", "📈", true),
    Category("outros", "Outros", "#607D8B", "📦", true)
  ]

  /** The categories a read sees: the stored list, or the defaults when none is stored. */
  function CategoriesOf(s: Store): (r: seq<Category>)
    ensures s.categories.Some? ==> r == s.categories.value
    ensures s.categories.None? ==> |r| == 9 && forall c :: c in r ==> c.isDefault
  {
    s.categories.GetOr(DefaultCategories)
  }

  /**
   * Reads the categories, seeding the nine defaults into an empty store.
   * The list read is the one stored afterwards, and a second read changes
   * nothing.
   */
  function GetCategories(s: Store): (r: Change<seq<Category>>)
    ensures r.store.categories == Some(r.result)
    ensures s.categories.Some? ==> r.store == s
    ensures s.categories.None? ==> |r.result| == 9 && forall c :: c in r.result ==> c.isDefault
    ensures CategoriesOf(r.store) == CategoriesOf(s)
    ensures OnlyCategoriesChange(s, r.store)
  {
    match s.categories
    case Some(cats) => Change(s, cats)
    case None => Change(s.(categories := Some(DefaultCategories)), DefaultCategories)
  }

  /** Appends a custom category under the fresh `id`; a category added this way is never a default one. */
  function AddCategory(s: Store, c: Category, id: string): (r: Change<Category>)
    ensures r.result.id == id && !r.result.isDefault
    ensures r.result.name == c.name && r.result.color == c.color && r.result.icon == c.icon
    ensures r.store.categories == Some(CategoriesOf(s) + [r.result])
    ensures OnlyCategoriesChange(s, r.store)
  {
    var added := c.(id := id, isDefault := false);
    Change(s.(categories := Some(CategoriesOf(s) + [added])), added)
  }

  /**
   * Deletes category `id`. When the first category with that id is a
   * default one, the result is `None` and the list is unchanged; otherwise
   * every category with that id is removed and the remaining list returned.
   */
  function DeleteCategory(s: Store, id: string): (r: Change<Option<seq<Category>>>)
    ensures var first := Records.Find(CategoriesOf(s), CategoryId, id);
            r.result.None? <==> first.Some? && first.value.isDefault
    ensures r.result.None? ==> CategoriesOf(r.store) == CategoriesOf(s)
    ensures r.result.Some? ==> r.store.categories == r.result
    ensures r.result.Some? ==> forall c :: c in r.result.value <==> c in CategoriesOf(s) && c.id != id
    ensures r.result.Some? ==>
              forall c :: multiset(r.result.value)[c] == if c.id == id then 0 else multiset(CategoriesOf(s))[c]
    ensures OnlyCategoriesChange(s, r.store)
  {
    var cats := CategoriesOf(s);
    var first := Records.Find(cats, CategoryId, id);
    if first.Some? && first.value.isDefault then
      Change(s.(categories := Some(cats)), None)
    else
      var kept := Records.Without(cats, CategoryId, id);
      assert forall c :: c in kept <==> c in cats && CategoryId(c) != id;
      Records.WithoutMultiset(cats, CategoryId, id);
      Change(s.(categories := Some(kept)), Some(kept))
  }

  function GetCategoryById(s: Store, id: string): (r: Option<Category>)
    ensures r.Some? ==> r.value in CategoriesOf(s) && r.value.id == id
    ensures r.Some? ==> Records.IsFirst(CategoriesOf(s), CategoryId, id, r.value)
    ensures r.None? ==> forall c :: c in CategoriesOf(s) ==> c.id != id
  {
    Records.Find(CategoriesOf(s), CategoryId, id)
  }

  // ===== Goals =====

  /** Stores a new goal under the fresh `id`; its accumulated amount starts at zero. */
  function AddGoal(s: Store, g: Goal, id: string, now: int): (r: Change<Goal>)
    ensures r.result.id == id && r.result.createdAt == now && r.result.currentAmount == 0
    ensures r.result.name == g.name && r.result.targetAmount == g.targetAmount && r.result.months == g.months
    ensures r.store.goals == s.goals + [r.result]
    ensures OnlyGoalsChange(s, r.store)
  {
    var added := g.(id := id, createdAt := now, currentAmount := 0);
    Change(s.(goals := s.goals + [added]), added)
  }

  function MergeGoal(g: Goal, p: GoalPatch): (m: Goal)
    ensures m.id == g.id && m.createdAt == g.createdAt
    ensures p.currentAmount.Some? ==> m.currentAmount == p.currentAmount.value
    ensures p == GoalPatch(None, None, None, None) ==> m == g
  {
    g.(name := p.name.GetOr(g.name), targetAmount := p.targetAmount.GetOr(g.targetAmount),
       months := p.months.GetOr(g.months), currentAmount := p.currentAmount.GetOr(g.currentAmount))
  }

  /** Merges `p` into the first goal with id `id`; a missing id yields `None` and no change. */
  function UpdateGoal(s: Store, id: string, p: GoalPatch): (r: Change<Option<Goal>>)
    ensures r.result.None? <==> !Records.HasId(s.goals, GoalId, id)
    ensures r.result.None? ==> r.store == s
    ensures OnlyGoalsChange(s, r.store)
    ensures |r.store.goals| == |s.goals|
    ensures r.result.Some? ==>
              var i := Records.IndexOf(s.goals, GoalId, id);
              && r.result.value == MergeGoal(s.goals[i], p)
              && r.store.goals[i] == r.result.value
              && forall j :: 0 <= j < |s.goals| && j != i ==> r.store.goals[j] == s.goals[j]
  {
    var u := Records.UpdateFirst(s.goals, GoalId, id, (g: Goal) => MergeGoal(g, p));
    if u.record.None? then Change(s, None) else Change(s.(goals := u.items), u.record)
  }

  function DeleteGoal(s: Store, id: string): (r: Change<seq<Goal>>)
    ensures r.result == r.store.goals
    ensures forall g :: g in r.result <==> g in s.goals && g.id != id
    ensures forall g :: multiset(r.result)[g] == if g.id == id then 0 else multiset(s.goals)[g]
    ensures OnlyGoalsChange(s, r.store)
  {
    var kept := Records.Without(s.goals, GoalId, id);
    Records.WithoutMultiset(s.goals, GoalId, id);
    Change(s.(goals := kept), kept)
  }

  function GetGoalById(s: Store, id: string): (r: Option<Goal>)
    ensures r.Some? ==> r.value in s.goals && r.value.id == id
    ensures r.Some? ==> Records.IsFirst(s.goals, GoalId, id, r.value)
    ensures r.None? <==> !Records.HasId(s.goals, GoalId, id)
  {
    Records.Find(s.goals, GoalId, id)
  }

  /**
   * Adds `amount` to the accumulated amount of goal `id`. A missing goal
   * yields `None` and no change; otherwise exactly that goal's
   * `currentAmount` grows by `amount` and nothing else changes.
   */
  function AddAmountToGoal(s: Store, id: string, amount: int): (r: Change<Option<Goal>>)
    ensures r.result.None? <==> !Records.HasId(s.goals, GoalId, id)
    ensures r.result.None? ==> r.store == s
    ensures OnlyGoalsChange(s, r.store)
    ensures |r.store.goals| == |s.goals|
    ensures r.result.Some? ==>
              var i := Records.IndexOf(s.goals, GoalId, id);
              var old_ := s.goals[i];
              && r.result.value == old_.(currentAmount := old_.currentAmount + amount)
              && r.store.goals[i] == r.result.value
              && forall j :: 0 <= j < |s.goals| && j != i ==> r.store.goals[j] == s.goals[j]
  {
    match Records.Find(s.goals, GoalId, id)
    case None => Change(s, None)
    case Some(g) => UpdateGoal(s, id, GoalPatch(None, None, None, Some(g.currentAmount + amount)))
  }

  // ===== Settings and savings =====

  const DefaultSettings := Settings("light")

  /** `getSettings`: the stored settings, or the light theme when none are stored. */
  function GetSettings(s: Store): (r: Settings)
    ensures s.settings.Some? ==> r == s.settings.value
    ensures s.settings.None? ==> r.theme == "light"
  {
    s.settings.GetOr(DefaultSettings)
  }

  /** Records the theme; the returned settings are the stored ones. */
  function SetTheme(s: Store, theme: string): (r: Change<Settings>)
    ensures r.result.theme == theme
    ensures r.store.settings == Some(r.result)
    ensures GetSettings(r.store) == r.result
    ensures OnlySettingsChange(s, r.store)
  {
    var settings := GetSettings(s).(theme := theme);
    Change(s.(settings := Some(settings)), settings)
  }

  function SetSavings(s: Store, value: int): (r: Change<int>)
    ensures r.result == value && r.store.savings == value
    ensures OnlySavingsChange(s, r.store)
  {
    Change(s.(savings := value), value)
  }

  // ===== Fixed expenses =====

  function AddFixedExpense(s: Store, e: FixedExpense, id: string, now: int): (r: Change<FixedExpense>)
    ensures r.result.id == id && r.result.createdAt == now
    ensures r.result == e.(id := id, createdAt := now)
    ensures r.store.fixedExpenses == s.fixedExpenses + [r.result]
    ensures OnlyFixedChange(s, r.store)
  {
    var added := e.(id := id, createdAt := now);
    Change(s.(fixedExpenses := s.fixedExpenses + [added]), added)
  }

  function MergeFixed(e: FixedExpense, p: FixedPatch): (m: FixedExpense)
    ensures m.id == e.id && m.createdAt == e.createdAt
    ensures p == FixedPatch(None, None, None, None, None) ==> m == e
  {
    e.(description := p.description.GetOr(e.description), value := p.value.GetOr(e.value),
       category := p.category.GetOr(e.category), dueDay := p.dueDay.GetOr(e.dueDay),
       startMonth := p.startMonth.GetOr(e.startMonth))
  }

  function UpdateFixedExpense(s: Store, id: string, p: FixedPatch): (r: Change<Option<FixedExpense>>)
    ensures r.result.None? <==> !Records.HasId(s.fixedExpenses, FixedId, id)
    ensures r.result.None? ==> r.store == s
    ensures OnlyFixedChange(s, r.store)
    ensures |r.store.fixedExpenses| == |s.fixedExpenses|
    ensures r.result.Some? ==>
              var i := Records.IndexOf(s.fixedExpenses, FixedId, id);
              && r.result.value == MergeFixed(s.fixedExpenses[i], p)
              && r.store.fixedExpenses[i] == r.result.value
              && forall j :: 0 <= j < |s.fixedExpenses| && j != i ==> r.store.fixedExpenses[j] == s.fixedExpenses[j]
  {
    var u := Records.UpdateFirst(s.fixedExpenses, FixedId, id, (e: FixedExpense) => MergeFixed(e, p));
    if u.record.None? then Change(s, None) else Change(s.(fixedExpenses := u.items), u.record)
  }

  function DeleteFixedExpense(s: Store, id: string): (r: Change<seq<FixedExpense>>)
    ensures r.result == r.store.fixedExpenses
    ensures forall e :: e in r.result <==> e in s.fixedExpenses && e.id != id
    ensures forall e :: multiset(r.result)[e] == if e.id == id then 0 else multiset(s.fixedExpenses)[e]
    ensures OnlyFixedChange(s, r.store)
  {
    var kept := Records.Without(s.fixedExpenses, FixedId, id);
    Records.WithoutMultiset(s.fixedExpenses, FixedId, id);
    Change(s.(fixedExpenses := kept), kept)
  }

  function GetFixedExpenseById(s: Store, id: string): (r: Option<FixedExpense>)
    ensures r.Some? ==> r.value in s.fixedExpenses && r.value.id == id
    ensures r.Some? ==> Records.IsFirst(s.fixedExpenses, FixedId, id, r.value)
    ensures r.None? <==> !Records.HasId(s.fixedExpenses, FixedId, id)
  {
    Records.Find(s.fixedExpenses, FixedId, id)
  }

  // ===== Export, import, clear =====

  /** An exported or imported document; a `None` field is a key the document lacks. */
  datatype Snapshot = Snapshot(
    transactions: Option<seq<Transaction>>,
    categories: Option<seq<Category>>,
    goals: Option<seq<Goal>>,
    settings: Option<Settings>,
    savings: Option<int>,
    fixedExpenses: Option<seq<FixedExpense>>,
    exportedAt: Option<int>)

  /** Everything a reader of the store can observe, defaults applied. */
  datatype View = View(
    transactions: seq<Transaction>,
    categories: seq<Category>,
    goals: seq<Goal>,
    settings: Settings,
    savings: int,
    fixedExpenses: seq<FixedExpense>)

  function Observe(s: Store): View {
    View(s.transactions, CategoriesOf(s), s.goals, GetSettings(s), s.savings, s.fixedExpenses)
  }

  /**
   * The write with which a category read seeds an empty store is invisible
   * to every reader: the store before and after it observes the same.
   */
  lemma SeedingUnobservable(s: Store)
    ensures Observe(GetCategories(s).store) == Observe(s)
  {
  }

  /** A document holding every collection as a reader sees it, stamped with `now`. */
  function ExportData(s: Store, now: int): (d: Snapshot)
    ensures d.transactions == Some(Observe(s).transactions)
    ensures d.categories == Some(Observe(s).categories)
    ensures d.goals == Some(Observe(s).goals)
    ensures d.settings == Some(Observe(s).settings)
    ensures d.savings == Some(Observe(s).savings)
    ensures d.fixedExpenses == Some(Observe(s).fixedExpenses)
    ensures d.exportedAt == Some(now)
  {
    var v := Observe(s);
    Snapshot(Some(v.transactions), Some(v.categories), Some(v.goals), Some(v.settings),
             Some(v.savings), Some(v.fixedExpenses), Some(now))
  }

  /**
   * Overwrites exactly the collections present in `d` and keeps the others;
   * a present savings amount is applied even when it is 0.
   */
  function ImportData(s: Store, d: Snapshot): (r: Store)
    ensures r.transactions == d.transactions.GetOr(s.transactions)
    ensures r.categories == (if d.categories.Some? then d.categories else s.categories)
    ensures r.goals == d.goals.GetOr(s.goals)
    ensures r.settings == (if d.settings.Some? then d.settings else s.settings)
    ensures r.savings == d.savings.GetOr(s.savings)
    ensures r.fixedExpenses == d.fixedExpenses.GetOr(s.fixedExpenses)
  {
    Store(
      if d.transactions.Some? then d.transactions.value else s.transactions,
      if d.categories.Some? then d.categories else s.categories,
      if d.goals.Some? then d.goals.value else s.goals,
      if d.settings.Some? then d.settings else s.settings,
      if d.savings.Some? then d.savings.value else s.savings,
      if d.fixedExpenses.Some? then d.fixedExpenses.value else s.fixedExpenses)
  }

  /** Removes every stored collection; reads then see the defaults again. */
  function ClearAllData(s: Store): (r: Store)
    ensures Observe(r) == View([], DefaultCategories, [], DefaultSettings, 0, [])
  {
    EmptyStore
  }

  // ===== Properties relating operations =====

  /** The nine seeded categories are all default ones with distinct ids. */
  lemma DefaultCategoriesFacts()
    ensures |DefaultCategories| == 9
    ensures forall c :: c in DefaultCategories ==> c.isDefault
    ensures forall i, j :: 0 <= i < j < |DefaultCategories| ==> DefaultCategories[i].id != DefaultCategories[j].id
  {
  }

  /** Importing an export, into this store or any other, reproduces everything a reader sees. */
  lemma ImportExportRoundTrip(s: Store, target: Store, now: int)
    ensures Observe(ImportData(target, ExportData(s, now))) == Observe(s)
  {
  }

  /** Adding a transaction and then deleting its fresh id restores the store. */
  lemma AddThenDeleteTransaction(s: Store, t: Transaction, id: string, now: int)
    requires !Records.HasId(s.transactions, TxId, id)
    ensures DeleteTransaction(AddTransaction(s, t, id, now).store, id).store == s
  {
    var added := AddTransaction(s, t, id, now);
    Records.WithoutAppend(s.transactions, [added.result], TxId, id);
    Records.WithoutAbsent(s.transactions, TxId, id);
    assert Records.Without([added.result], TxId, id) == [];
  }

  /** A transaction added under a fresh id is the one a lookup of that id finds. */
  lemma AddThenFindTransaction(s: Store, t: Transaction, id: string, now: int)
    requires !Records.HasId(s.transactions, TxId, id)
    ensures Records.Find(AddTransaction(s, t, id, now).store.transactions, TxId, id)
            == Some(AddTransaction(s, t, id, now).result)
  {
    var txs := AddTransaction(s, t, id, now).store.transactions;
    var i := Records.IndexOf(txs, TxId, id);
    assert TxId(txs[|s.transactions|]) == id;
  }

  /** An update is visible to the next lookup of the same id. */
  lemma UpdateThenFindTransaction(s: Store, id: string, p: TxPatch)
    requires Records.HasId(s.transactions, TxId, id)
    ensures var r := UpdateTransaction(s, id, p);
            Records.Find(r.store.transactions, TxId, id) == r.result
  {
    var r := UpdateTransaction(s, id, p);
    var i := Records.IndexOf(s.transactions, TxId, id);
    var k := Records.IndexOf(r.store.transactions, TxId, id);
    assert TxId(r.store.transactions[i]) == id;
  }

  /**
   * Deleting distributes over any split of the list, so the records kept
   * from an earlier part come before those kept from a later part: together
   * with the multiplicity clause of `DeleteTransaction`, the kept records are
   * the others in their stored order.
   */
  lemma DeleteTransactionKeepsOrder(s: Store, a: seq<Transaction>, b: seq<Transaction>, id: string)
    requires s.transactions == a + b
    ensures DeleteTransaction(s, id).result
            == DeleteTransaction(s.(transactions := a), id).result + DeleteTransaction(s.(transactions := b), id).result
  {
    Records.WithoutAppend(a, b, TxId, id);
  }

  /** The same order-keeping split for goals. */
  lemma DeleteGoalKeepsOrder(s: Store, a: seq<Goal>, b: seq<Goal>, id: string)
    requires s.goals == a + b
    ensures DeleteGoal(s, id).result == DeleteGoal(s.(goals := a), id).result + DeleteGoal(s.(goals := b), id).result
  {
    Records.WithoutAppend(a, b, GoalId, id);
  }

  /** The same order-keeping split for fixed expenses. */
  lemma DeleteFixedExpenseKeepsOrder(s: Store, a: seq<FixedExpense>, b: seq<FixedExpense>, id: string)
    requires s.fixedExpenses == a + b
    ensures DeleteFixedExpense(s, id).result
            == DeleteFixedExpense(s.(fixedExpenses := a), id).result + DeleteFixedExpense(s.(fixedExpenses := b), id).result
  {
    Records.WithoutAppend(a, b, FixedId, id);
  }

  /**
   * A category deletion that goes ahead keeps, from any split of the list
   * as read, the other categories of the first part before those of the second.
   */
  lemma DeleteCategoryKeepsOrder(s: Store, a: seq<Category>, b: seq<Category>, id: string)
    requires CategoriesOf(s) == a + b
    ensures var r := DeleteCategory(s, id).result;
            r.Some? ==> r.value == Records.Without(a, CategoryId, id) + Records.Without(b, CategoryId, id)
  {
    Records.WithoutAppend(a, b, CategoryId, id);
  }

  /** The month filter distributes over any split of the list, so it keeps the stored order. */
  lemma {:induction false} ByMonthAppend(a: seq<Transaction>, b: seq<Transaction>, ym: YearMonth)
    ensures ByMonth(a + b, ym) == ByMonth(a, ym) + ByMonth(b, ym)
  {
    if |b| == 0 {
      assert a + b == a;
    } else {
      var front := b[..|b| - 1];
      Records.AppendInit(a, b);
      ByMonthAppend(a, front, ym);
    }
  }

  /** The type filter distributes over any split of the list, so it keeps the stored order. */
  lemma {:induction false} ByTypeAppend(a: seq<Transaction>, b: seq<Transaction>, kind: TxType)
    ensures ByType(a + b, kind) == ByType(a, kind) + ByType(b, kind)
  {
    if |b| == 0 {
      assert a + b == a;
    } else {
      var front := b[..|b| - 1];
      Records.AppendInit(a, b);
      ByTypeAppend(a, front, kind);
    }
  }

  /** Adding a fixed expense and then deleting its fresh id restores the store. */
  lemma AddThenDeleteFixedExpense(s: Store, e: FixedExpense, id: string, now: int)
    requires !Records.HasId(s.fixedExpenses, FixedId, id)
    ensures DeleteFixedExpense(AddFixedExpense(s, e, id, now).store, id).store == s
  {
    var added := AddFixedExpense(s, e, id, now);
    Records.WithoutAppend(s.fixedExpenses, [added.result], FixedId, id);
    Records.WithoutAbsent(s.fixedExpenses, FixedId, id);
    assert Records.Without([added.result], FixedId, id) == [];
  }

  /** A fixed expense added under a fresh id is the one a lookup of that id finds. */
  lemma AddThenFindFixedExpense(s: Store, e: FixedExpense, id: string, now: int)
    requires !Records.HasId(s.fixedExpenses, FixedId, id)
    ensures GetFixedExpenseById(AddFixedExpense(s, e, id, now).store, id) == Some(AddFixedExpense(s, e, id, now).result)
  {
    var fs := AddFixedExpense(s, e, id, now).store.fixedExpenses;
    var i := Records.IndexOf(fs, FixedId, id);
    assert FixedId(fs[|s.fixedExpenses|]) == id;
  }

  /** An update of a fixed expense is visible to the next lookup of the same id. */
  lemma UpdateThenFindFixedExpense(s: Store, id: string, p: FixedPatch)
    requires Records.HasId(s.fixedExpenses, FixedId, id)
    ensures var r := UpdateFixedExpense(s, id, p);
            GetFixedExpenseById(r.store, id) == r.result
  {
    var r := UpdateFixedExpense(s, id, p);
    var i := Records.IndexOf(s.fixedExpenses, FixedId, id);
    var k := Records.IndexOf(r.store.fixedExpenses, FixedId, id);
    assert FixedId(r.store.fixedExpenses[i]) == id;
  }

  /** Adding a goal and then deleting its fresh id restores the store. */
  lemma AddThenDeleteGoal(s: Store, g: Goal, id: string, now: int)
    requires !Records.HasId(s.goals, GoalId, id)
    ensures DeleteGoal(AddGoal(s, g, id, now).store, id).store == s
  {
    var added := AddGoal(s, g, id, now);
    Records.WithoutAppend(s.goals, [added.result], GoalId, id);
    Records.WithoutAbsent(s.goals, GoalId, id);
    assert Records.Without([added.result], GoalId, id) == [];
  }

  /** A goal added under a fresh id is the one a lookup of that id finds. */
  lemma AddThenFindGoal(s: Store, g: Goal, id: string, now: int)
    requires !Records.HasId(s.goals, GoalId, id)
    ensures GetGoalById(AddGoal(s, g, id, now).store, id) == Some(AddGoal(s, g, id, now).result)
  {
    var gs := AddGoal(s, g, id, now).store.goals;
    var i := Records.IndexOf(gs, GoalId, id);
    assert GoalId(gs[|s.goals|]) == id;
  }

  /** A category added under an id no category read has is the one a lookup of that id finds. */
  lemma AddThenFindCategory(s: Store, c: Category, id: string)
    requires !Records.HasId(CategoriesOf(s), CategoryId, id)
    ensures GetCategoryById(AddCategory(s, c, id).store, id) == Some(AddCategory(s, c, id).result)
  {
    var cs := CategoriesOf(AddCategory(s, c, id).store);
    var i := Records.IndexOf(cs, CategoryId, id);
    assert CategoryId(cs[|CategoriesOf(s)|]) == id;
  }

  /**
   * A category added under a fresh id can be deleted again, and the
   * deletion leaves the list a reader sees as it was before the addition
   * (now stored, when it was the unstored defaults).
   */
  lemma AddThenDeleteCategory(s: Store, c: Category, id: string)
    requires !Records.HasId(CategoriesOf(s), CategoryId, id)
    ensures var r := DeleteCategory(AddCategory(s, c, id).store, id);
            && r.result == Some(CategoriesOf(s))
            && r.store == s.(categories := Some(CategoriesOf(s)))
  {
    var cats := CategoriesOf(s);
    var added := AddCategory(s, c, id);
    var grown := cats + [added.result];
    assert CategoriesOf(added.store) == grown;
    AddThenFindCategory(s, c, id);
    assert Records.Find(grown, CategoryId, id) == Some(added.result);
    assert Records.Without(grown, CategoryId, id) == cats by {
      Records.WithoutAppend(cats, [added.result], CategoryId, id);
      Records.WithoutAbsent(cats, CategoryId, id);
      assert Records.Without([added.result], CategoryId, id) == [];
    }
  }

  /**
   * A category id whose every entry is a default category cannot be
   * deleted: the result is `None` and the list a reader sees is unchanged.
   */
  lemma DefaultCategoryUndeletable(s: Store, id: string)
    requires exists c :: c in CategoriesOf(s) && c.id == id
    requires forall c :: c in CategoriesOf(s) && c.id == id ==> c.isDefault
    ensures DeleteCategory(s, id).result.None?
    ensures CategoriesOf(DeleteCategory(s, id).store) == CategoriesOf(s)
  {
    var c :| c in CategoriesOf(s) && c.id == id;
    var j :| 0 <= j < |CategoriesOf(s)| && CategoriesOf(s)[j] == c;
    assert CategoryId(CategoriesOf(s)[j]) == id;
  }
}

=== FILE: records.dfy ===
/**
 * Id-keyed sequences of records: the lookup, shallow-merge update and
 * filter-delete that the store repeats for every collection. Each helper is
 * given the record's id accessor (`key`).
 */
module Records {
  import opened Common

  /** Some record of `s` has id `id`. */
  predicate HasId<T>(s: seq<T>, key: T -> string, id: string) {
    exists j :: 0 <= j < |s| && key(s[j]) == id
  }

  /** Position of the first record with id `id`, or -1 (`Array.prototype.findIndex`). */
  function IndexOf<T>(s: seq<T>, key: T -> string, id: string): (i: int)
    ensures -1 <= i < |s|
    ensures i >= 0 ==> key(s[i]) == id && forall j :: 0 <= j < i ==> key(s[j]) != id
    ensures i < 0 <==> !HasId(s, key, id)
  {
    if |s| == 0 then -1
    else if key(s[0]) == id then 0
    else
      var k := IndexOf(s[1..], key, id);
      assert HasId(s[1..], key, id) ==> HasId(s, key, id) by {
        if HasId(s[1..], key, id) {
          var j :| 0 <= j < |s[1..]| && key(s[1..][j]) == id;
          assert key(s[j + 1]) == id;
        }
      }
      assert HasId(s, key, id) ==> HasId(s[1..], key, id) by {
        if HasId(s, key, id) {
          var j :| 0 <= j < |s| && key(s[j]) == id;
          assert j > 0 && key(s[1..][j - 1]) == id;
        }
      }
      if k < 0 then -1 else k + 1
  }

  /** `x` is the first record of `s` with id `id`: it sits at a position no earlier record with that id precedes. */
  ghost predicate IsFirst<T>(s: seq<T>, key: T -> string, id: string, x: T) {
    exists i :: 0 <= i < |s| && s[i] == x && key(x) == id && forall j :: 0 <= j < i ==> key(s[j]) != id
  }

  /** The first record with id `id`, if any (`Array.prototype.find`). */
  function Find<T>(s: seq<T>, key: T -> string, id: string): (r: Option<T>)
    ensures r.None? <==> !HasId(s, key, id)
    ensures r.Some? ==> r.value in s && key(r.value) == id
    ensures r.Some? ==> IsFirst(s, key, id, r.value)
    ensures r.Some? ==> r.value == s[IndexOf(s, key, id)]
  {
    var i := IndexOf(s, key, id);
    if i < 0 then None else Some(s[i])
  }

  /** `s` without the records whose id is `id`, in their original order (`filter(x => x.id !== id)`). */
  function Without<T(!new)>(s: seq<T>, key: T -> string, id: string): (r: seq<T>)
    ensures forall x :: x in r <==> x in s && key(x) != id
    ensures !HasId(r, key, id)
    ensures |r| <= |s|
  {
    if |s| == 0 then []
    else
      var rest := Without(s[1..], key, id);
      if key(s[0]) == id then rest
      else [s[0]] + rest
  }

  /** The filter keeps every copy of a record whose id differs and no copy of one whose id matches. */
  lemma WithoutMultiset<T(!new)>(s: seq<T>, key: T -> string, id: string)
    ensures forall x :: multiset(Without(s, key, id))[x] == if key(x) == id then 0 else multiset(s)[x]
  {
    forall x
      ensures multiset(Without(s, key, id))[x] == if key(x) == id then 0 else multiset(s)[x]
    {
      WithoutCount(s, key, id, x);
    }
  }

  /** `WithoutMultiset` for one record `x`. */
  lemma {:induction false} WithoutCount<T(!new)>(s: seq<T>, key: T -> string, id: string, x: T)
    ensures multiset(Without(s, key, id))[x] == if key(x) == id then 0 else multiset(s)[x]
  {
    if |s| > 0 {
      var head: seq<T> := if key(s[0]) == id then [] else [s[0]];
      WithoutCount(s[1..], key, id, x);
      WithoutCons(s, key, id);
      assert multiset(Without(s, key, id)) == multiset(head) + multiset(Without(s[1..], key, id));
      MultisetCons(s);
    }
  }

  /** A non-empty sequence holds its first element once more than its tail does. */
  lemma MultisetCons<T>(s: seq<T>)
    requires |s| > 0
    ensures multiset(s) == multiset{s[0]} + multiset(s[1..])
  {
    assert s == [s[0]] + s[1..];
  }

  /** Filtering distributes over concatenation, so the kept records keep their relative order. */
  lemma {:induction false} WithoutAppend<T(!new)>(a: seq<T>, b: seq<T>, key: T -> string, id: string)
    ensures Without(a + b, key, id) == Without(a, key, id) + Without(b, key, id)
  {
    if |a| == 0 {
      assert a + b == b;
    } else {
      WithoutAppend(a[1..], b, key, id);
      WithoutAppendStep(a, b, key, id);
    }
  }

  /** The inductive step of `WithoutAppend`: the first record of `a` is kept or dropped on both sides alike. */
  lemma WithoutAppendStep<T(!new)>(a: seq<T>, b: seq<T>, key: T -> string, id: string)
    requires |a| > 0
    requires Without(a[1..] + b, key, id) == Without(a[1..], key, id) + Without(b, key, id)
    ensures Without(a + b, key, id) == Without(a, key, id) + Without(b, key, id)
  {
    var head: seq<T> := if key(a[0]) == id then [] else [a[0]];
    calc {
      Without(a + b, key, id);
    == { AppendTail(a, b); WithoutCons(a + b, key, id); }
      head + Without(a[1..] + b, key, id);
    ==
      head + (Without(a[1..], key, id) + Without(b, key, id));
    == { AppendAssociates(head, Without(a[1..], key, id), Without(b, key, id)); }
      (head + Without(a[1..], key, id)) + Without(b, key, id);
    == { WithoutCons(a, key, id); }
      Without(a, key, id) + Without(b, key, id);
    }
  }

  /** The front and last element of a concatenation whose second part is not empty. */
  lemma AppendInit<T>(a: seq<T>, b: seq<T>)
    requires |b| > 0
    ensures (a + b)[..|a + b| - 1] == a + b[..|b| - 1] && (a + b)[|a + b| - 1] == b[|b| - 1]
  {
  }

  /** A non-empty sequence is its head followed by its tail. */
  lemma ConsTail<T>(s: seq<T>)
    requires |s| > 0
    ensures [s[0]] + s[1..] == s
  {
  }

  /** The head and tail of a concatenation whose first part is not empty. */
  lemma AppendTail<T>(a: seq<T>, b: seq<T>)
    requires |a| > 0
    ensures (a + b)[0] == a[0] && (a + b)[1..] == a[1..] + b
  {
  }

  /** Concatenation regroups; stated once so that proofs with many sequence terms in scope need not rediscover it. */
  lemma AppendAssociates<T>(x: seq<T>, y: seq<T>, z: seq<T>)
    ensures x + (y + z) == (x + y) + z
  {
  }

  /** One step of the filter: the first record is kept exactly when its id differs. */
  lemma WithoutCons<T(!new)>(s: seq<T>, key: T -> string, id: string)
    requires |s| > 0
    ensures Without(s, key, id) == (if key(s[0]) == id then [] else [s[0]]) + Without(s[1..], key, id)
  {
    if key(s[0]) == id {
      assert [] + Without(s[1..], key, id) == Without(s[1..], key, id);
    }
  }

  /** Removing an id no record carries changes nothing. */
  lemma {:induction false} WithoutAbsent<T(!new)>(s: seq<T>, key: T -> string, id: string)
    requires !HasId(s, key, id)
    ensures Without(s, key, id) == s
  {
    if |s| > 0 {
      assert key(s[0]) != id;
      assert !HasId(s[1..], key, id) by {
        forall j | 0 <= j < |s| - 1
          ensures key(s[1..][j]) != id
        {
          assert s[1..][j] == s[j + 1];
        }
      }
      WithoutAbsent(s[1..], key, id);
      WithoutCons(s, key, id);
      ConsTail(s);
    }
  }

  /** After removing id `id` and appending a record with that id, a lookup finds the appended record. */
  lemma FindAppendedAfterWithout<T(!new)>(s: seq<T>, key: T -> string, x: T)
    ensures Find(Without(s, key, key(x)) + [x], key, key(x)) == Some(x)
  {
    var w := Without(s, key, key(x));
    var i := IndexOf(w + [x], key, key(x));
    assert key((w + [x])[|w|]) == key(x);
  }

  /** The outcome of an update: the new sequence and the merged record, or `None` when the id is absent. */
  datatype Updated<T> = Updated(items: seq<T>, record: Option<T>)

  /**
   * Replaces the first record with id `id` by `merge` of it; an absent id
   * leaves `s` as it is and yields no record.
   */
  function UpdateFirst<T>(s: seq<T>, key: T -> string, id: string, merge: T -> T): (r: Updated<T>)
    ensures r.record.None? <==> !HasId(s, key, id)
    ensures r.record.None? ==> r.items == s
    ensures |r.items| == |s|
    ensures r.record.Some? ==>
              var i := IndexOf(s, key, id);
              && r.items[i] == merge(s[i])
              && r.record == Some(merge(s[i]))
              && (forall j :: 0 <= j < |s| && j != i ==> r.items[j] == s[j])
  {
    var i := IndexOf(s, key, id);
    if i < 0 then Updated(s, None)
    else
      var m := merge(s[i]);
      Updated(s[i := m], Some(m))
  }

  /** The positions of `s` whose element satisfies `p` are those of the front, plus the last one if it does. */
  lemma MatchesSnoc<T>(s: seq<T>, p: T -> bool)
    requires |s| > 0
    ensures var last := |s| - 1;
            |set i | 0 <= i < |s| && p(s[i])|
            == |set i | 0 <= i < |s[..last]| && p(s[..last][i])| + (if p(s[last]) then 1 else 0)
  {
    var last := |s| - 1;
    var front := s[..last];
    var all := set i | 0 <= i < |s| && p(s[i]);
    var before := set i | 0 <= i < |front| && p(front[i]);
    var here: set<int> := if p(s[last]) then {last} else {};
    forall i | i in all ensures i in before + here {
      if i < last {
        assert front[i] == s[i];
      }
    }
    forall i | i in before + here ensures i in all {
      if i in before {
        assert front[i] == s[i];
      }
    }
    assert all == before + here;
    assert before * here == {};
  }
}

/**
 * Sorting a sequence by a total preorder, the way the user interface sorts
 * lists with a comparator before showing them.
 */
module Sorting {

  /** `le` is total and transitive, so it can order any sequence. */
  ghost predicate TotalPreorder<T(!new)>(le: (T, T) -> bool) {
    && (forall a, b :: le(a, b) || le(b, a))
    && (forall a, b, c :: le(a, b) && le(b, c) ==> le(a, c))
  }

  predicate SortedBy<T>(le: (T, T) -> bool, s: seq<T>) {
    forall i, j :: 0 <= i < j < |s| ==> le(s[i], s[j])
  }

  /** Inserts `x` before the first element it may precede. */
  function Insert<T(!new)>(le: (T, T) -> bool, x: T, s: seq<T>): (r: seq<T>)
    requires TotalPreorder(le)
    requires SortedBy(le, s)
    ensures SortedBy(le, r)
    ensures multiset(r) == multiset(s) + multiset{x}
    ensures forall y :: y in r ==> y in s || y == x
    ensures |r| == |s| + 1
  {
    if |s| == 0 then [x]
    else if le(x, s[0]) then
      assert s == [s[0]] + s[1..];
      [x] + s
    else
      var rest := Insert(le, x, s[1..]);
      HeadPrecedes(le, x, s, rest);
      assert s == [s[0]] + s[1..];
      [s[0]] + rest
  }

  /** The head of a sorted `s` precedes everything that inserting a larger `x` into its tail yields. */
  lemma HeadPrecedes<T(!new)>(le: (T, T) -> bool, x: T, s: seq<T>, rest: seq<T>)
    requires TotalPreorder(le)
    requires |s| > 0 && SortedBy(le, s) && !le(x, s[0])
    requires SortedBy(le, rest)
    requires forall y :: y in rest ==> y in s[1..] || y == x
    ensures SortedBy(le, [s[0]] + rest)
  {
    forall j | 0 <= j < |rest| ensures le(s[0], rest[j]) {
      if rest[j] != x {
        assert rest[j] in s[1..];
      }
    }
  }

  /** An ordered permutation of `s` (insertion sort). */
  function Sort<T(!new)>(le: (T, T) -> bool, s: seq<T>): (r: seq<T>)
    requires TotalPreorder(le)
    ensures SortedBy(le, r)
    ensures multiset(r) == multiset(s)
    ensures |r| == |s|
  {
    if |s| == 0 then []
    else
      assert s == [s[0]] + s[1..];
      Insert(le, s[0], Sort(le, s[1..]))
  }
}

=== FILE: sync.dfy ===
/**
 * Synchronisation of the ledger with a remote document (a GitHub Gist file)
 * as `js/sync.js` performs it. The remote is an abstract `Gist` value whose
 * file may be missing; every HTTP request becomes a boolean parameter that
 * says whether its response was `ok`, and the current instant is a
 * parameter. Local state is the ledger store plus what the sync module
 * keeps beside it: the savings history, the saved configuration and this
 * device's identity.
 */
module Sync {
  import opened Common
  import opened Ledger
  import Records

  // ===== Data =====

  /** The saved sync configuration (`financas_github_config`). */
  datatype Config = Config(token: string, gistId: string, username: string, lastSync: int)

  /** One entry of the remote device list; `blocked` is true only when it was set to `true`. */
  datatype Device = Device(id: string, name: string, lastSync: int, blocked: bool)

  function DeviceId(d: Device): string { d.id }

  /** This device: its persistent id and the name it reports (custom or detected). */
  datatype DeviceInfo = DeviceInfo(id: string, name: string)

  /**
   * An entry of the savings history. Its reader and writer are not part of
   * this model; the sync module only copies the list as a whole.
   */
  datatype HistoryEntry = HistoryEntry(payload: string)

  /** The synchronised document; `None` is a key the document lacks. */
  datatype Doc = Doc(
    transactions: Option<seq<Transaction>>,
    categories: Option<seq<Category>>,
    goals: Option<seq<Goal>>,
    savings: Option<int>,
    savingsHistory: Option<seq<HistoryEntry>>,
    settings: Option<Settings>,
    fixedExpenses: Option<seq<FixedExpense>>,
    devices: Option<seq<Device>>,
    syncedAt: Option<int>)

  /** The remote Gist; `file` is `None` when it has no file of the application's name. */
  datatype Gist = Gist(file: Option<Doc>)

  /** Everything on this device that synchronisation reads or writes. */
  datatype Local = Local(
    store: Store,
    savingsHistory: seq<HistoryEntry>,
    config: Option<Config>,
    me: DeviceInfo)

  /** `{success: true}` or `{success: false, error, blocked}`; `error` is "" when the original sets none. */
  datatype SyncResult = Success | Failure(error: string, blocked: bool)

  datatype Outcome = Outcome(local: Local, gist: Gist, result: SyncResult)

  // ===== Configuration: a two-state machine =====

  /**
   * `isConfigured`: a configuration exists and both its token and its Gist
   * id are non-empty, the empty string being falsy.
   */
  predicate IsConfigured(l: Local): (b: bool)
    ensures l.config.None? ==> !b
    ensures l.config.Some? && (l.config.value.token == "" || l.config.value.gistId == "") ==> !b
    ensures b ==> l.config.Some? && l.config.value.token != "" && l.config.value.gistId != ""
  {
    l.config.Some? && l.config.value.token != "" && l.config.value.gistId != ""
  }

  /** Forgets the configuration; nothing else changes. */
  function RemoveConfig(l: Local): (r: Local)
    ensures !IsConfigured(r)
    ensures r.config.None?
    ensures r.(config := l.config) == l
  {
    l.(config := None)
  }

  /** A Gist of the user's list: its id and whether it holds the application's file. */
  datatype GistListing = GistListing(id: string, hasFile: bool)

  /** The id of the first listed Gist that holds the application's file. */
  function SelectGist(gists: seq<GistListing>): (r: Option<string>)
    ensures r.None? <==> forall i :: 0 <= i < |gists| ==> !gists[i].hasFile
    ensures r.Some? ==> exists i :: 0 <= i < |gists| && gists[i].hasFile && gists[i].id == r.value
                                    && forall j :: 0 <= j < i ==> !gists[j].hasFile
  {
    if |gists| == 0 then None
    else if gists[0].hasFile then
      Some(gists[0].id)
    else
      var r := SelectGist(gists[1..]);
      if r.Some? then
        var i :| 0 <= i < |gists[1..]| && gists[1..][i].hasFile && gists[1..][i].id == r.value
                 && forall j :: 0 <= j < i ==> !gists[1..][j].hasFile;
        assert gists[i + 1].hasFile && gists[i + 1].id == r.value;
        assert forall j :: 0 <= j < i + 1 ==> !gists[j].hasFile by {
          forall j | 0 <= j < i + 1 ensures !gists[j].hasFile {
            if j > 0 {
              assert gists[j] == gists[1..][j - 1];
            }
          }
        }
        r
      else
        assert forall i :: 0 <= i < |gists| ==> !gists[i].hasFile by {
          forall i | 0 <= i < |gists| ensures !gists[i].hasFile {
            if i > 0 {
              assert gists[i] == gists[1..][i - 1];
            }
          }
        }
        r
  }

  /** The message V8 gives when a `for ... of` loop meets a value that is not iterable. */
  const ListNotIterable := "gists is not iterable"

  datatype SetupResult = SetupOk(username: string) | SetupFailed(error: string)

  /** What `setup` leaves behind: the local state, a newly created Gist if any, and the result. */
  datatype SetupOutcome = SetupOutcome(local: Local, created: Option<Gist>, result: SetupResult)

  /**
   * Configures synchronisation with `token`. `user` is the login the token
   * belongs to, or `None` when the token is refused; `listOk` says whether
   * the request for the user's Gist list succeeded, and `gists` is that
   * list; `created` is the id of a newly created Gist, or `None` when
   * creating one fails. An existing Gist holding the application's file is
   * reused; otherwise a new one is created holding the local data. On
   * success the configuration records the token, the Gist id, the user and
   * `now`. A failed list request answers with an error object, which the
   * Gist loop cannot iterate, so setup fails with the engine's message.
   */
  function Setup(l: Local, token: string, user: Option<string>, listOk: bool, gists: seq<GistListing>,
                 created: Option<string>, now: int): (r: SetupOutcome)
    ensures user.None? ==> r == SetupOutcome(l, None, SetupFailed("Token inválido"))
    ensures user.Some? && !listOk ==> r == SetupOutcome(l, None, SetupFailed(ListNotIterable))
    ensures user.Some? && listOk && SelectGist(gists).GetOr("") == "" && created.None? ==>
              r.result == SetupFailed("Erro ao criar Gist")
    ensures r.result.SetupFailed? ==> r.local == l && r.created.None?
    ensures r.result.SetupOk? <==> user.Some? && listOk && (SelectGist(gists).GetOr("") != "" || created.Some?)
    ensures r.result.SetupOk? ==>
              && r.result.username == user.value
              && r.local.config.Some? && r.local == l.(config := r.local.config)
              && r.local.config.value.token == token && r.local.config.value.username == user.value
              && r.local.config.value.lastSync == now
              && (r.created.None? <==> SelectGist(gists).GetOr("") != "")
              && (r.created.None? ==> r.local.config.value.gistId == SelectGist(gists).GetOr(""))
              && (r.created.Some? ==> r.local.config.value.gistId == created.value
                                      && r.created == Some(Gist(Some(AllData(l, [], now)))))
  {
    match user
    case None => SetupOutcome(l, None, SetupFailed("Token inválido"))
    case Some(login) =>
      if !listOk then SetupOutcome(l, None, SetupFailed(ListNotIterable))
      else
        var existing := SelectGist(gists).GetOr("");
        if existing != "" then
          SetupOutcome(l.(config := Some(Config(token, existing, login, now))), None, SetupOk(login))
        else
          match created
          case None => SetupOutcome(l, None, SetupFailed("Erro ao criar Gist"))
          case Some(id) =>
            SetupOutcome(l.(config := Some(Config(token, id, login, now))),
                         Some(Gist(Some(AllData(l, [], now)))), SetupOk(login))
  }

  /**
   * The configured/unconfigured machine: a successful setup with a
   * non-empty token that lands on a non-empty Gist id is configured, and
   * removing the configuration always returns to unconfigured.
   */
  lemma ConfigurationStates(l: Local, token: string, user: Option<string>, listOk: bool, gists: seq<GistListing>,
                            created: Option<string>, now: int)
    requires token != ""
    ensures var r := Setup(l, token, user, listOk, gists, created, now);
            r.result.SetupOk? ==> (IsConfigured(r.local) <==> r.local.config.value.gistId != "")
    ensures var r := Setup(l, token, user, listOk, gists, created, now);
            r.result.SetupOk? && r.created.None? ==> IsConfigured(r.local)
    ensures !IsConfigured(RemoveConfig(Setup(l, token, user, listOk, gists, created, now).local))
  {
  }

  // ===== The document =====

  /** This device's entry as a push writes it: stamped with `now` and not blocked. */
  function SelfEntry(me: DeviceInfo, now: int): Device {
    Device(me.id, me.name, now, false)
  }

  /**
   * The document a push writes: every local collection as a reader sees it,
   * the savings history, and the device list `existing` with this device's
   * entry replaced by a fresh one at the end.
   */
  function AllData(l: Local, existing: seq<Device>, now: int): (d: Doc)
    ensures d.transactions == Some(Observe(l.store).transactions)
    ensures d.categories == Some(Observe(l.store).categories)
    ensures d.goals == Some(Observe(l.store).goals)
    ensures d.savings == Some(Observe(l.store).savings)
    ensures d.settings == Some(Observe(l.store).settings)
    ensures d.fixedExpenses == Some(Observe(l.store).fixedExpenses)
    ensures d.savingsHistory == Some(l.savingsHistory) && d.syncedAt == Some(now)
    ensures d.devices.Some? && |d.devices.value| > 0
    ensures var ds := d.devices.value;
            && ds[|ds| - 1] == SelfEntry(l.me, now)
            && !Records.HasId(ds[..|ds| - 1], DeviceId, l.me.id)
            && (forall x :: x in ds[..|ds| - 1] <==> x in existing && x.id != l.me.id)
            && ds[..|ds| - 1] == Records.Without(existing, DeviceId, l.me.id)
  {
    var v := Observe(l.store);
    var others := Records.Without(existing, DeviceId, l.me.id);
    var ds := others + [SelfEntry(l.me, now)];
    assert ds[..|ds| - 1] == others;
    Doc(Some(v.transactions), Some(v.categories), Some(v.goals), Some(v.savings),
        Some(l.savingsHistory), Some(v.settings), Some(v.fixedExpenses), Some(ds), Some(now))
  }

  /** The device list a readable document carries, `[]` when it has none. */
  function DocDevices(g: Gist): seq<Device> {
    if g.file.Some? then g.file.value.devices.GetOr([]) else []
  }

  /**
   * `getDevices`: the remote device list, or `[]` when there is no
   * configuration, the request fails or the file is missing. A failure and
   * an empty list look the same to the caller.
   */
  function GetDevices(l: Local, g: Gist, ok: bool): (r: seq<Device>)
    ensures l.config.Some? && ok ==> r == DocDevices(g)
    ensures l.config.None? || !ok || g.file.None? ==> r == []
  {
    if l.config.None? || !ok then [] else DocDevices(g)
  }

  /** This device's first entry in `devices` is marked blocked. */
  predicate BlockedIn(devices: seq<Device>, id: string) {
    var e := Records.Find(devices, DeviceId, id);
    e.Some? && e.value.blocked
  }

  /** `isDeviceBlocked`: decided on the list `getDevices` returns, so an unreadable list reads as "not blocked". */
  function IsDeviceBlocked(l: Local, g: Gist, ok: bool): (b: bool)
    ensures b ==> ok && l.config.Some? && g.file.Some?
    ensures b <==> BlockedIn(GetDevices(l, g, ok), l.me.id)
    ensures b ==> exists k :: 0 <= k < |DocDevices(g)| && DocDevices(g)[k].id == l.me.id && DocDevices(g)[k].blocked
  {
    var e := Records.Find(GetDevices(l, g, ok), DeviceId, l.me.id);
    e.Some? && e.value.blocked
  }

  // ===== Push =====

  /**
   * `push` as written: a block check and a device-list read that each fail
   * silently into `[]`, then the PATCH that replaces the remote file with
   * the local data.
   */
  function PushAsWritten(l: Local, g: Gist, blockCheckOk: bool, devicesOk: bool, patchOk: bool, now: int): (r: Outcome)
    ensures l.config.None? ==> r == Outcome(l, g, Failure("Não configurado", false))
    ensures r.result.Failure? ==> r.local == l && r.gist == g
    ensures r.result.Failure? && r.result.blocked <==> l.config.Some? && IsDeviceBlocked(l, g, blockCheckOk)
    ensures r.result.Success? <==> l.config.Some? && !IsDeviceBlocked(l, g, blockCheckOk) && patchOk
    ensures r.result.Success? ==>
              && r.gist == Gist(Some(AllData(l, GetDevices(l, g, devicesOk), now)))
              && r.local == l.(config := Some(l.config.value.(lastSync := now)))
  {
    if l.config.None? then Outcome(l, g, Failure("Não configurado", false))
    else if IsDeviceBlocked(l, g, blockCheckOk) then Outcome(l, g, Failure("Dispositivo bloqueado", true))
    else
      var doc := AllData(l, GetDevices(l, g, devicesOk), now);
      if !patchOk then Outcome(l, g, Failure("Erro ao enviar dados", false))
      else Outcome(l.(config := Some(l.config.value.(lastSync := now))), Gist(Some(doc)), Success)
  }

  /**
   * A successful push as written can erase every other device's entry:
   * here the device-list read fails, and the blocked device "other"
   * disappears from the remote list, which unblocks it.
   */
  lemma PushAsWrittenDropsDevices()
    ensures var me := DeviceInfo("me", "Linux");
            var other := Device("other", "Android", 0, true);
            var l := Local(EmptyStore, [], Some(Config("t", "g", "u", 0)), me);
            var g := Gist(Some(AllData(l, [other], 0)));
            var r := PushAsWritten(l, g, true, false, true, 1);
            && other in DocDevices(g) && other.blocked
            && r.result.Success?
            && DocDevices(r.gist) == [SelfEntry(me, 1)]
  {
    var me := DeviceInfo("me", "Linux");
    var other := Device("other", "Android", 0, true);
    var l := Local(EmptyStore, [], Some(Config("t", "g", "u", 0)), me);
    var g := Gist(Some(AllData(l, [other], 0)));
    var ds := DocDevices(g);
    assert ds[0] == other;
    assert Records.Find(ds, DeviceId, "me") == Some(SelfEntry(me, 0)) by {
      Records.FindAppendedAfterWithout([other], DeviceId, SelfEntry(me, 0));
    }
    assert Records.Without([], DeviceId, "me") == [];
  }

  /** The remote device list as read for a push: `None` when the request fails. */
  function ReadDevices(l: Local, g: Gist, ok: bool): (r: Option<seq<Device>>)
    ensures r.Some? <==> l.config.Some? && ok
    ensures r.Some? ==> r.value == DocDevices(g)
  {
    if l.config.None? || !ok then None else Some(DocDevices(g))
  }

  /**
   * `push` with the device list read once and an unreadable list treated
   * as a failure: the block check and the device upsert see the same list,
   * and a push never writes a device list it could not read.
   */
  function Push(l: Local, g: Gist, devicesOk: bool, patchOk: bool, now: int): (r: Outcome)
    ensures l.config.None? ==> r == Outcome(l, g, Failure("Não configurado", false))
    ensures r.result.Failure? ==> r.local == l && r.gist == g
    ensures r.result.Failure? && r.result.blocked <==> l.config.Some? && devicesOk && BlockedIn(DocDevices(g), l.me.id)
    ensures r.result.Success? <==> l.config.Some? && devicesOk && !BlockedIn(DocDevices(g), l.me.id) && patchOk
    ensures r.result.Success? ==>
              && r.gist == Gist(Some(AllData(l, DocDevices(g), now)))
              && r.local == l.(config := Some(l.config.value.(lastSync := now)))
    ensures r.result.Success? ==> forall d :: d in DocDevices(g) && d.id != l.me.id ==> d in DocDevices(r.gist)
  {
    if l.config.None? then Outcome(l, g, Failure("Não configurado", false))
    else
      match ReadDevices(l, g, devicesOk)
      case None => Outcome(l, g, Failure("Erro ao enviar dados", false))
      case Some(existing) =>
        if BlockedIn(existing, l.me.id) then Outcome(l, g, Failure("Dispositivo bloqueado", true))
        else if !patchOk then Outcome(l, g, Failure("Erro ao enviar dados", false))
        else
          var doc := AllData(l, existing, now);
          var ds := doc.devices.value;
          assert forall d :: d in existing && d.id != l.me.id ==> d in ds[..|ds| - 1];
          Outcome(l.(config := Some(l.config.value.(lastSync := now))), Gist(Some(doc)), Success)
  }

  /** Whenever the as-written push succeeds with every request answered, it agrees with the corrected one. */
  lemma PushAgreesWhenReadsSucceed(l: Local, g: Gist, patchOk: bool, now: int)
    ensures PushAsWritten(l, g, true, true, patchOk, now) == Push(l, g, true, patchOk, now)
  {
    if l.config.Some? {
      assert IsDeviceBlocked(l, g, true) == BlockedIn(DocDevices(g), l.me.id);
    }
  }

  // ===== Pull =====

  /** The part of a document the ledger's import understands. */
  function DocSnapshot(d: Doc): Snapshot {
    Snapshot(d.transactions, d.categories, d.goals, d.settings, d.savings, d.fixedExpenses, d.syncedAt)
  }

  /**
   * `pull`: refuses a blocked device, fails when the request fails or the
   * file is missing, and otherwise overwrites exactly the local collections
   * the document carries (savings even when 0) and stamps `lastSync`.
   */
  function Pull(l: Local, g: Gist, blockCheckOk: bool, fetchOk: bool, now: int): (r: Outcome)
    ensures r.gist == g
    ensures l.config.None? ==> r.local == l && r.result == Failure("Não configurado", false)
    ensures r.result.Failure? ==> r.local == l
    ensures r.result.Failure? && r.result.blocked <==> l.config.Some? && IsDeviceBlocked(l, g, blockCheckOk)
    ensures r.result.Success? <==> l.config.Some? && !IsDeviceBlocked(l, g, blockCheckOk) && fetchOk && g.file.Some?
    ensures r.result.Success? ==>
              var d := g.file.value;
              && r.local.store.transactions == d.transactions.GetOr(l.store.transactions)
              && r.local.store.categories == (if d.categories.Some? then d.categories else l.store.categories)
              && r.local.store.goals == d.goals.GetOr(l.store.goals)
              && r.local.store.savings == d.savings.GetOr(l.store.savings)
              && r.local.savingsHistory == d.savingsHistory.GetOr(l.savingsHistory)
              && r.local.store.settings == (if d.settings.Some? then d.settings else l.store.settings)
              && r.local.store.fixedExpenses == d.fixedExpenses.GetOr(l.store.fixedExpenses)
              && r.local.config == Some(l.config.value.(lastSync := now))
              && r.local.me == l.me
  {
    if l.config.None? then Outcome(l, g, Failure("Não configurado", false))
    else if IsDeviceBlocked(l, g, blockCheckOk) then Outcome(l, g, Failure("Dispositivo bloqueado", true))
    else if !fetchOk then Outcome(l, g, Failure("Erro ao baixar dados", false))
    else
      match g.file
      case None => Outcome(l, g, Failure("Arquivo não encontrado", false))
      case Some(d) =>
        var store := ImportData(l.store, DocSnapshot(d));
        var history := d.savingsHistory.GetOr(l.savingsHistory);
        Outcome(Local(store, history, Some(l.config.value.(lastSync := now)), l.me), g, Success)
  }

  // ===== Sync, autosync, sync on load =====

  /**
   * `sync`: pull, then the push as written. A failed pull is returned as it
   * is and nothing is pushed, so the remote stays as it was; otherwise the
   * push's outcome is the result. The pull and the push each read the
   * device list for their own block check (`pullBlockOk`, `pushBlockOk`).
   */
  function SyncNow(l: Local, g: Gist, pullBlockOk: bool, fetchOk: bool, pushBlockOk: bool, devicesOk: bool,
                   patchOk: bool, now: int): (r: Outcome)
    ensures var p := Pull(l, g, pullBlockOk, fetchOk, now);
            p.result.Failure? ==> r.result == p.result && r.local == l && r.gist == g
    ensures var p := Pull(l, g, pullBlockOk, fetchOk, now);
            r.result.Success? <==>
              p.result.Success? && PushAsWritten(p.local, g, pushBlockOk, devicesOk, patchOk, now).result.Success?
    ensures r.result.Success? ==>
              var p := Pull(l, g, pullBlockOk, fetchOk, now);
              && r.gist == Gist(Some(AllData(p.local, GetDevices(p.local, g, devicesOk), now)))
              && r.local.config.Some? && r.local.config.value.lastSync == now
    ensures var p := Pull(l, g, pullBlockOk, fetchOk, now);
            p.result.Success? ==> r == PushAsWritten(p.local, g, pushBlockOk, devicesOk, patchOk, now)
  {
    var p := Pull(l, g, pullBlockOk, fetchOk, now);
    if p.result.Failure? then p else PushAsWritten(p.local, p.gist, pushBlockOk, devicesOk, patchOk, now)
  }

  /**
   * `sync` built on the corrected `Push`: the same pull, then a push that
   * reads the device list once and fails when it cannot. A success keeps
   * every other device's remote entry.
   */
  function SyncCorrected(l: Local, g: Gist, blockCheckOk: bool, fetchOk: bool, devicesOk: bool, patchOk: bool,
                         now: int): (r: Outcome)
    ensures var p := Pull(l, g, blockCheckOk, fetchOk, now);
            p.result.Failure? ==> r.result == p.result && r.local == l && r.gist == g
    ensures var p := Pull(l, g, blockCheckOk, fetchOk, now);
            r.result.Success? <==> p.result.Success? && Push(p.local, g, devicesOk, patchOk, now).result.Success?
    ensures r.result.Success? ==> forall d :: d in DocDevices(g) && d.id != l.me.id ==> d in DocDevices(r.gist)
    ensures r.result.Success? ==> r.local.config.Some? && r.local.config.value.lastSync == now
    ensures var p := Pull(l, g, blockCheckOk, fetchOk, now);
            p.result.Success? ==> r == Push(p.local, g, devicesOk, patchOk, now)
  {
    var p := Pull(l, g, blockCheckOk, fetchOk, now);
    if p.result.Failure? then p else Push(p.local, p.gist, devicesOk, patchOk, now)
  }

  /** When every read succeeds, `sync` as written and the corrected one agree. */
  lemma SyncAgreesWhenReadsSucceed(l: Local, g: Gist, fetchOk: bool, patchOk: bool, now: int)
    ensures SyncNow(l, g, true, fetchOk, true, true, patchOk, now) == SyncCorrected(l, g, true, fetchOk, true, patchOk, now)
  {
    var p := Pull(l, g, true, fetchOk, now);
    PushAgreesWhenReadsSucceed(p.local, p.gist, patchOk, now);
  }

  /**
   * `sync` as written reports success when only the push's device-list
   * read fails, and then writes a list holding this device alone; the
   * corrected `sync` fails instead and leaves the remote as it was.
   */
  lemma SyncNowDropsDevices()
    ensures var me := DeviceInfo("me", "Linux");
            var other := Device("other", "Android", 0, true);
            var l := Local(EmptyStore, [], Some(Config("t", "g", "u", 0)), me);
            var g := Gist(Some(AllData(l, [other], 0)));
            var r := SyncNow(l, g, true, true, true, false, true, 1);
            var c := SyncCorrected(l, g, true, true, false, true, 1);
            && r.result.Success? && DocDevices(r.gist) == [SelfEntry(me, 1)]
            && c.result == Failure("Erro ao enviar dados", false) && c.gist == g
  {
    var me := DeviceInfo("me", "Linux");
    var other := Device("other", "Android", 0, true);
    var l := Local(EmptyStore, [], Some(Config("t", "g", "u", 0)), me);
    var g := Gist(Some(AllData(l, [other], 0)));
    var ds := DocDevices(g);
    assert ds[0] == other;
    assert Records.Find(ds, DeviceId, "me") == Some(SelfEntry(me, 0)) by {
      Records.FindAppendedAfterWithout([other], DeviceId, SelfEntry(me, 0));
    }
    var p := Pull(l, g, true, true, 1);
    assert p.result.Success?;
    assert p.local.config.Some?;
    assert p.local.me == me;
    assert Records.Without([], DeviceId, "me") == [];
  }

  /** `autoSync`: the push as written, only when configured; otherwise nothing happens. */
  function AutoSync(l: Local, g: Gist, blockCheckOk: bool, devicesOk: bool, patchOk: bool, now: int): (r: Outcome)
    ensures !IsConfigured(l) ==> r.local == l && r.gist == g
    ensures IsConfigured(l) ==> r == PushAsWritten(l, g, blockCheckOk, devicesOk, patchOk, now)
  {
    if !IsConfigured(l) then Outcome(l, g, Failure("", false)) else PushAsWritten(l, g, blockCheckOk, devicesOk, patchOk, now)
  }

  /**
   * When every read succeeds, a configured `autoSync` is the corrected
   * push, so it keeps every other device's remote entry.
   */
  lemma AutoSyncAgreesWhenReadsSucceed(l: Local, g: Gist, patchOk: bool, now: int)
    requires IsConfigured(l)
    ensures AutoSync(l, g, true, true, patchOk, now) == Push(l, g, true, patchOk, now)
    ensures var r := AutoSync(l, g, true, true, patchOk, now);
            r.result.Success? ==> forall d :: d in DocDevices(g) && d.id != l.me.id ==> d in DocDevices(r.gist)
  {
    PushAgreesWhenReadsSucceed(l, g, patchOk, now);
  }

  /** `syncOnLoad`: pulls only when configured; otherwise fails without a message. */
  function SyncOnLoad(l: Local, g: Gist, blockCheckOk: bool, fetchOk: bool, now: int): (r: Outcome)
    ensures !IsConfigured(l) ==> r == Outcome(l, g, Failure("", false))
    ensures IsConfigured(l) ==> r == Pull(l, g, blockCheckOk, fetchOk, now)
  {
    if !IsConfigured(l) then Outcome(l, g, Failure("", false)) else Pull(l, g, blockCheckOk, fetchOk, now)
  }

  /**
   * A push as written followed by a pull, with the remote untouched in
   * between and the fetch and the pull's block check answered, leaves
   * everything a reader of the local store sees, and the savings history,
   * as it was. This holds whatever the push's own reads returned.
   */
  lemma PushThenPull(l: Local, g: Gist, blockCheckOk: bool, devicesOk: bool, now: int, later: int)
    requires PushAsWritten(l, g, blockCheckOk, devicesOk, true, now).result.Success?
    ensures var p := PushAsWritten(l, g, blockCheckOk, devicesOk, true, now);
            var q := Pull(p.local, p.gist, true, true, later);
            && q.result.Success?
            && Observe(q.local.store) == Observe(l.store)
            && q.local.savingsHistory == l.savingsHistory
  {
    var p := PushAsWritten(l, g, blockCheckOk, devicesOk, true, now);
    Records.FindAppendedAfterWithout(GetDevices(l, g, devicesOk), DeviceId, SelfEntry(l.me, now));
    assert !IsDeviceBlocked(p.local, p.gist, true);
  }

  /** The same round trip through the corrected push. */
  lemma CorrectedPushThenPull(l: Local, g: Gist, devicesOk: bool, now: int, later: int)
    requires Push(l, g, devicesOk, true, now).result.Success?
    ensures var p := Push(l, g, devicesOk, true, now);
            var q := Pull(p.local, p.gist, true, true, later);
            && q.result.Success?
            && Observe(q.local.store) == Observe(l.store)
            && q.local.savingsHistory == l.savingsHistory
  {
    var p := Push(l, g, devicesOk, true, now);
    Records.FindAppendedAfterWithout(DocDevices(g), DeviceId, SelfEntry(l.me, now));
    assert !IsDeviceBlocked(p.local, p.gist, true);
  }

  // ===== Device removal =====

  /**
   * `removeDevice` as written: the device list comes from `getDevices`,
   * whose failure reads as `[]`; the file is then fetched again and its
   * device list replaced by the filtered one; the PATCH response is never
   * inspected, so success is reported whether or not the write happened.
   */
  function RemoveDeviceAsWritten(l: Local, g: Gist, id: string, devicesOk: bool, fetchOk: bool, patchOk: bool): (r: Outcome)
    ensures r.local == l
    ensures r.result.Success? <==> l.config.Some? && fetchOk && g.file.Some?
    ensures r.result.Failure? ==> r.gist == g && r.result == Failure("", false)
    ensures r.result.Success? && patchOk ==>
              && r.gist.file == Some(g.file.value.(devices := Some(Records.Without(GetDevices(l, g, devicesOk), DeviceId, id))))
              && forall d :: d in DocDevices(r.gist) <==> d in GetDevices(l, g, devicesOk) && d.id != id
    ensures !patchOk ==> r.gist == g
  {
    if l.config.None? then Outcome(l, g, Failure("", false))
    else
      var filtered := Records.Without(GetDevices(l, g, devicesOk), DeviceId, id);
      if !fetchOk then Outcome(l, g, Failure("", false))
      else
        match g.file
        case None => Outcome(l, g, Failure("", false))
        case Some(d) =>
          var written := if patchOk then Gist(Some(d.(devices := Some(filtered)))) else g;
          Outcome(l, written, Success)
  }

  /**
   * Two ways the as-written removal misreports: when the first read fails,
   * removing "a" also erases "b"; when the write fails, success is
   * reported although the remote still lists "a".
   */
  lemma RemoveDeviceAsWrittenMisreports()
    ensures var a := Device("a", "A", 0, false);
            var b := Device("b", "B", 0, false);
            var l := Local(EmptyStore, [], Some(Config("t", "g", "u", 0)), DeviceInfo("me", "M"));
            var doc := Doc(None, None, None, None, None, None, None, Some([a, b]), None);
            var g := Gist(Some(doc));
            && RemoveDeviceAsWritten(l, g, "a", false, true, true).result.Success?
            && DocDevices(RemoveDeviceAsWritten(l, g, "a", false, true, true).gist) == []
            && RemoveDeviceAsWritten(l, g, "a", true, true, false).result.Success?
            && a in DocDevices(RemoveDeviceAsWritten(l, g, "a", true, true, false).gist)
  {
  }

  /**
   * `removeDevice` with one read that must succeed and a write whose
   * failure is reported: on success the remote list holds exactly the
   * devices of the remote list whose id differs from `id`, in order, and
   * the rest of the document is untouched.
   */
  function RemoveDevice(l: Local, g: Gist, id: string, fetchOk: bool, patchOk: bool): (r: Outcome)
    ensures r.local == l
    ensures r.result.Success? <==> l.config.Some? && fetchOk && g.file.Some? && patchOk
    ensures r.result.Failure? ==> r.gist == g
    ensures r.result.Success? ==>
              && r.gist.file == Some(g.file.value.(devices := Some(Records.Without(DocDevices(g), DeviceId, id))))
              && forall d :: d in DocDevices(r.gist) <==> d in DocDevices(g) && d.id != id
  {
    if l.config.None? || !fetchOk then Outcome(l, g, Failure("", false))
    else
      match g.file
      case None => Outcome(l, g, Failure("", false))
      case Some(d) =>
        if !patchOk then Outcome(l, g, Failure("", false))
        else Outcome(l, Gist(Some(d.(devices := Some(Records.Without(DocDevices(g), DeviceId, id))))), Success)
  }

  /** Removing a device twice is the same as removing it once. */
  lemma RemoveDeviceIdempotent(l: Local, g: Gist, id: string)
    requires RemoveDevice(l, g, id, true, true).result.Success?
    ensures var once := RemoveDevice(l, g, id, true, true).gist;
            RemoveDevice(l, once, id, true, true).gist == once
  {
    var once := RemoveDevice(l, g, id, true, true).gist;
    Records.WithoutAbsent(DocDevices(once), DeviceId, id);
  }
}

=== FILE: text.dfy ===
/**
 * Character-level helpers the user interface and the controller rely on:
 * digit filtering and decimal rendering (the money mask, counts in titles),
 * whitespace trimming (form validation) and joining.
 */
module Text {

  predicate IsDigit(c: char) {
    '0' <= c <= '9'
  }

  predicate AllDigits(s: string) {
    forall i :: 0 <= i < |s| ==> IsDigit(s[i])
  }

  /** Keeps exactly the decimal digits of `s`, in order (a `/\D/g` replacement by ''). */
  function Digits(s: string): (r: string)
    ensures AllDigits(r)
    ensures |r| <= |s|
    ensures forall c :: c in r <==> c in s && IsDigit(c)
  {
    if |s| == 0 then "" else (if IsDigit(s[0]) then [s[0]] else []) + Digits(s[1..])
  }

  /** Digit filtering distributes over concatenation. */
  lemma {:induction false} DigitsAppend(a: string, b: string)
    ensures Digits(a + b) == Digits(a) + Digits(b)
  {
    if |a| == 0 {
      assert a + b == b;
    } else {
      assert (a + b)[1..] == a[1..] + b;
      DigitsAppend(a[1..], b);
    }
  }

  /** A string of digits is left as it is. */
  lemma {:induction false} DigitsOfDigits(s: string)
    requires AllDigits(s)
    ensures Digits(s) == s
  {
    if |s| > 0 {
      DigitsOfDigits(s[1..]);
    }
  }

  function DigitOf(c: char): nat
    requires IsDigit(c)
  {
    c as int - '0' as int
  }

  function DigitChar(d: nat): (c: char)
    requires d < 10
    ensures IsDigit(c) && DigitOf(c) == d
  {
    ('0' as int + d) as char
  }

  /** The number a non-empty string of digits denotes, as `parseInt` reads it. */
  function DigitValue(s: string): nat
    requires AllDigits(s)
  {
    if |s| == 0 then 0 else DigitValue(s[..|s| - 1]) * 10 + DigitOf(s[|s| - 1])
  }

  /** Decimal rendering of a natural number, without leading zeros. */
  function NatText(n: nat): (r: string)
    ensures |r| > 0 && AllDigits(r)
    ensures DigitValue(r) == n
    ensures |r| > 1 ==> r[0] != '0'
  {
    if n < 10 then
      [DigitChar(n)]
    else
      var prefix := NatText(n / 10);
      var r := prefix + [DigitChar(n % 10)];
      assert r[..|r| - 1] == prefix;
      r
  }

  /** Decimal rendering of an integer, with a leading `-` when negative (a template-literal `${i}`). */
  function IntText(i: int): (r: string)
    ensures |r| > 0
    ensures i < 0 <==> r[0] == '-'
    ensures i >= 0 ==> AllDigits(r) && DigitValue(r) == i
  {
    if i < 0 then "-" + NatText(-i) else NatText(i)
  }

  /** Text without digits contributes nothing to the digits read back. */
  lemma NoDigits(s: string)
    requires forall i :: 0 <= i < |s| ==> !IsDigit(s[i])
    ensures Digits(s) == ""
  {
  }

  /** The digits of an integer's text denote its magnitude. */
  lemma IntTextDigits(i: int)
    ensures AllDigits(Digits(IntText(i)))
    ensures DigitValue(Digits(IntText(i))) == if i < 0 then -i else i
  {
    if i < 0 {
      DigitsAppend("-", NatText(-i));
      NoDigits("-");
      DigitsOfDigits(NatText(-i));
      assert Digits("-") + NatText(-i) == NatText(-i);
    } else {
      DigitsOfDigits(IntText(i));
    }
  }

  /** Digits read from three digit-free pieces around `middle` are those of `middle`. */
  lemma OnlyMiddleDigits(prefix: string, middle: string, word: string, suffix: string)
    requires forall i :: 0 <= i < |prefix| ==> !IsDigit(prefix[i])
    requires forall i :: 0 <= i < |word| ==> !IsDigit(word[i])
    requires forall i :: 0 <= i < |suffix| ==> !IsDigit(suffix[i])
    ensures Digits(prefix + middle + word + suffix) == Digits(middle)
  {
    NoDigits(prefix);
    NoDigits(word);
    NoDigits(suffix);
    DigitsAppend(prefix, middle);
    DigitsAppend(prefix + middle, word);
    DigitsAppend(prefix + middle + word, suffix);
  }

  /** The digits of a number's text framed by digit-free pieces denote the number's magnitude. */
  lemma NumberReadBack(prefix: string, n: int, word: string, suffix: string)
    requires forall i :: 0 <= i < |prefix| ==> !IsDigit(prefix[i])
    requires forall i :: 0 <= i < |word| ==> !IsDigit(word[i])
    requires forall i :: 0 <= i < |suffix| ==> !IsDigit(suffix[i])
    ensures AllDigits(Digits(prefix + IntText(n) + word + suffix))
    ensures DigitValue(Digits(prefix + IntText(n) + word + suffix)) == if n < 0 then -n else n
  {
    OnlyMiddleDigits(prefix, IntText(n), word, suffix);
    IntTextDigits(n);
  }

  /** The value of two digits. */
  lemma TwoDigitValue(b: string)
    requires |b| == 2 && AllDigits(b)
    ensures DigitValue(b) == DigitOf(b[0]) * 10 + DigitOf(b[1])
  {
    var b1 := b[..1];
    assert DigitValue(b) == DigitValue(b1) * 10 + DigitOf(b[1]);
    assert DigitValue(b1) == DigitValue(b1[..0]) * 10 + DigitOf(b[0]);
  }

  /** Two more digits multiply the value read so far by a hundred. */
  lemma DigitValueTwoMore(a: string, b: string)
    requires AllDigits(a) && AllDigits(b) && |b| == 2
    ensures AllDigits(a + b)
    ensures DigitValue(a + b) == DigitValue(a) * 100 + DigitValue(b)
  {
    var ab := a + b;
    var a1 := a + [b[0]];
    assert ab[..|ab| - 1] == a1;
    assert a1[..|a1| - 1] == a;
    assert DigitValue(a1) == DigitValue(a) * 10 + DigitOf(b[0]);
    assert DigitValue(ab) == DigitValue(a1) * 10 + DigitOf(b[1]);
    TwoDigitValue(b);
  }

  /** A number is its hundreds, its tens digit and its units digit put back together. */
  lemma LastTwoDigits(n: nat)
    ensures (n % 100 / 10) * 10 + n % 10 == n % 100
    ensures (n / 100) * 100 + (n % 100 / 10) * 10 + n % 10 == n
  {
    var q, r := n / 100, n % 100;
    var tens, units := r / 10, r % 10;
    assert r == tens * 10 + units;
    assert n == (q * 10 + tens) * 10 + units;
    LastDigit(n, q * 10 + tens, units);
  }

  /** The units digit is the one remainder below ten. */
  lemma LastDigit(n: nat, k: int, d: int)
    requires n == k * 10 + d && 0 <= d < 10
    ensures n % 10 == d
  {
  }

  /** A whole part, a dot and two decimals can be taken apart again at the dot. */
  lemma DecimalSplit(whole: string, frac: string)
    requires |frac| == 2
    ensures var r := whole + "." + frac;
            |r| == |whole| + 3 && r[|r| - 3] == '.' && r[..|r| - 3] == whole && r[|r| - 2..] == frac
  {
  }

  /**
   * The characters `String.prototype.trim` removes: the ECMAScript white
   * space (tab, vertical tab, form feed, space, no-break space, the byte
   * order mark and the other space separators of Unicode category Zs) and
   * the line terminators (line feed, carriage return, U+2028, U+2029).
   */
  predicate IsSpace(c: char) {
    c == ' ' || c == '\t' || c == '\n' || c == '\r' || c == '\U{000B}' || c == '\U{000C}'
    || c == '\U{00A0}' || c == '\U{FEFF}' || c == '\U{1680}'
    || ('\U{2000}' <= c <= '\U{200A}')
    || c == '\U{2028}' || c == '\U{2029}' || c == '\U{202F}' || c == '\U{205F}' || c == '\U{3000}'
  }

  /** How many whitespace characters `s` starts with. */
  function LeadingSpaces(s: string): (n: nat)
    ensures n <= |s|
    ensures forall i :: 0 <= i < n ==> IsSpace(s[i])
    ensures n == |s| || !IsSpace(s[n])
  {
    if |s| > 0 && IsSpace(s[0]) then 1 + LeadingSpaces(s[1..]) else 0
  }

  function TrimEnd(s: string): (r: string)
    ensures |r| <= |s| && r == s[..|r|]
    ensures forall i :: |r| <= i < |s| ==> IsSpace(s[i])
    ensures r == [] || !IsSpace(r[|r| - 1])
  {
    if |s| > 0 && IsSpace(s[|s| - 1]) then TrimEnd(s[..|s| - 1]) else s
  }

  /**
   * `s` without leading and trailing whitespace: the part of `s` after its
   * leading spaces, cut before its trailing ones. It is empty exactly when
   * `s` is all whitespace, and otherwise starts and ends with a non-space.
   */
  function Trim(s: string): (r: string)
    ensures r <= s[LeadingSpaces(s)..]
    ensures r == [] <==> forall i :: 0 <= i < |s| ==> IsSpace(s[i])
    ensures r != [] ==> !IsSpace(r[0]) && !IsSpace(r[|r| - 1])
    ensures forall i :: LeadingSpaces(s) + |r| <= i < |s| ==> IsSpace(s[i])
  {
    var k := LeadingSpaces(s);
    var r := TrimEnd(s[k..]);
    assert forall i :: k + |r| <= i < |s| ==> s[i] == s[k..][i - k];
    r
  }

  /** Trimming a trimmed string changes nothing. */
  lemma TrimIdempotent(s: string)
    ensures Trim(Trim(s)) == Trim(s)
  {
    var r := Trim(s);
    if r != [] {
      assert LeadingSpaces(r) == 0;
      assert r[0..] == r;
      assert TrimEnd(r) == r;
    }
  }

  /** `parts` separated by `sep`, as `Array.prototype.join` does. */
  function Join(parts: seq<string>, sep: string): string {
    if |parts| == 0 then ""
    else if |parts| == 1 then parts[0]
    else parts[0] + sep + Join(parts[1..], sep)
  }
}

=== FILE: ui.dfy ===
/**
 * The pure parts of `js/ui.js`: the money input mask, the due-expense
 * alert (counts, title, per-item status), the category choices offered for
 * income and for expense, the replication rows and select-all, the month
 * filter of the transaction list, and the sort-and-truncate rules of the
 * recent list and of the category breakdown. Rendering itself is not
 * modelled; each helper returns the values a view would show.
 */
module Ui {
  import opened Common
  import opened Calendar
  import opened Text
  import opened Ledger
  import Aggregates
  import Sorting

  // ===== Money mask =====

  /** `n` cents as `toFixed(2)` renders `n / 100`: whole part, a dot, exactly two decimals. */
  function Cents(n: nat): (r: string)
    ensures |r| >= 4 && r[|r| - 3] == '.'
    ensures AllDigits(r[..|r| - 3]) && AllDigits(r[|r| - 2..])
    ensures |r| > 4 ==> r[0] != '0'
    ensures DigitValue(r[..|r| - 3]) == n / 100 && DigitValue(r[|r| - 2..]) == n % 100
  {
    var whole := NatText(n / 100);
    var frac := [DigitChar(n % 100 / 10), DigitChar(n % 10)];
    DecimalSplit(whole, frac);
    TwoDigitValue(frac);
    LastTwoDigits(n);
    whole + "." + frac
  }

  /**
   * `applyMoneyMask`: keeps the digits typed, reads them as a number of
   * cents and shows it with two decimals; no digits at all give "".
   */
  function MoneyMask(s: string): (r: string)
    ensures r == "" <==> Digits(s) == ""
    ensures r != "" ==>
              && |r| >= 4 && r[|r| - 3] == '.'
              && AllDigits(r[..|r| - 3]) && AllDigits(r[|r| - 2..])
              && DigitValue(r[..|r| - 3]) * 100 + DigitValue(r[|r| - 2..]) == DigitValue(Digits(s))
    ensures |r| > 4 ==> r[0] != '0'
  {
    var ds := Digits(s);
    if ds == "" then "" else Cents(DigitValue(ds))
  }

  /** The digits of a rendered amount read back as the same number of cents. */
  lemma CentsReadBack(n: nat)
    ensures Digits(Cents(n)) != ""
    ensures DigitValue(Digits(Cents(n))) == n
  {
    var whole := NatText(n / 100);
    var frac := [DigitChar(n % 100 / 10), DigitChar(n % 10)];
    assert Cents(n) == (whole + ".") + frac;
    CentsDigits(whole, frac);
    DigitValueTwoMore(whole, frac);
    TwoDigitValue(frac);
    LastTwoDigits(n);
  }

  /** A whole part, a dot and two decimals keep exactly the digits of both parts. */
  lemma CentsDigits(whole: string, frac: string)
    requires AllDigits(whole) && AllDigits(frac)
    ensures Digits((whole + ".") + frac) == whole + frac
  {
    var dot := ".";
    assert Digits(dot) == "" by {
      assert !IsDigit(dot[0]) && dot[1..] == "";
    }
    DigitsAppend(whole, dot);
    DigitsOfDigits(whole);
    assert Digits(whole + dot) == whole;
    DigitsAppend(whole + dot, frac);
    DigitsOfDigits(frac);
  }

  /** Masking what the mask shows changes nothing, so re-entering the field is harmless. */
  lemma MoneyMaskIdempotent(s: string)
    ensures MoneyMask(MoneyMask(s)) == MoneyMask(s)
  {
    var ds := Digits(s);
    if ds != "" {
      CentsReadBack(DigitValue(ds));
    }
  }

  // ===== Due-expense alert =====

  /** An expense whose due date is near, as the caller classifies it. */
  datatype DueItem = DueItem(description: string, value: int, isOverdue: bool, isDueToday: bool, daysUntilDue: int)

  predicate Overdue(e: DueItem) { e.isOverdue }
  predicate DueToday(e: DueItem) { e.isDueToday }
  predicate Upcoming(e: DueItem) { !e.isOverdue && !e.isDueToday }
  predicate BothFlags(e: DueItem) { e.isOverdue && e.isDueToday }

  /** How many items satisfy `p` (a `filter(p).length`). */
  function Count<T>(items: seq<T>, p: T -> bool): (n: nat)
    ensures n <= |items|
    ensures n == |set i | 0 <= i < |items| && p(items[i])|
    ensures n > 0 <==> exists i :: 0 <= i < |items| && p(items[i])
  {
    if |items| == 0 then 0
    else
      var last := |items| - 1;
      var rest := Count(items[..last], p);
      Records.MatchesSnoc(items, p);
      rest + (if p(items[last]) then 1 else 0)
  }


  /**
   * The three counts add up to the number of items, except that an item
   * flagged both overdue and due today is counted in both groups.
   */
  lemma {:induction false} CountsPartition(items: seq<DueItem>)
    ensures Count(items, Overdue) + Count(items, DueToday) + Count(items, Upcoming)
            == |items| + Count(items, BothFlags)
  {
    if |items| > 0 {
      CountsPartition(items[..|items| - 1]);
    }
  }

  function Plural(n: int, suffix: string): string {
    if n > 1 then suffix else ""
  }

  function OverdueText(n: nat): string { NatText(n) + " atrasada" + Plural(n, "s") }
  function TodayText(n: nat): string { NatText(n) + " vence" + Plural(n, "m") + " hoje" }
  function UpcomingText(n: nat): string { NatText(n) + " próxima" + Plural(n, "s") }

  /** The groups the title names: each non-zero count, in the order overdue, today, upcoming. */
  function TitleParts(overdue: nat, today: nat, upcoming: nat): seq<string> {
    (if overdue > 0 then [OverdueText(overdue)] else [])
    + (if today > 0 then [TodayText(today)] else [])
    + (if upcoming > 0 then [UpcomingText(upcoming)] else [])
  }

  /**
   * The alert title, built the way the original appends each group and a
   * separator when a later group follows. It is the non-zero groups joined
   * by ", ", and empty only when every count is zero.
   */
  function Title(overdue: nat, today: nat, upcoming: nat): (r: string)
    ensures r == Join(TitleParts(overdue, today, upcoming), ", ")
    ensures r == "" <==> overdue == 0 && today == 0 && upcoming == 0
  {
    var a := if overdue > 0 then OverdueText(overdue) + (if today > 0 || upcoming > 0 then ", " else "") else "";
    var b := if today > 0 then TodayText(today) + (if upcoming > 0 then ", " else "") else "";
    var c := if upcoming > 0 then UpcomingText(upcoming) else "";
    TitleIsJoin(overdue, today, upcoming, a, b, c);
    a + b + c
  }

  /** The cascade of appends in the original equals the joined groups. */
  lemma TitleIsJoin(overdue: nat, today: nat, upcoming: nat, a: string, b: string, c: string)
    requires a == if overdue > 0 then OverdueText(overdue) + (if today > 0 || upcoming > 0 then ", " else "") else ""
    requires b == if today > 0 then TodayText(today) + (if upcoming > 0 then ", " else "") else ""
    requires c == if upcoming > 0 then UpcomingText(upcoming) else ""
    ensures a + b + c == Join(TitleParts(overdue, today, upcoming), ", ")
    ensures a + b + c == "" <==> overdue == 0 && today == 0 && upcoming == 0
  {
    var px := if overdue > 0 then [OverdueText(overdue)] else [];
    var pyz := TitleParts(0, today, upcoming);
    TitleTail(today, upcoming, b, c);
    JoinFront(px, pyz, ", ");
    TitlePartsSplit(overdue, today, upcoming);
    assert a + (b + c) == Join(TitleParts(overdue, today, upcoming), ", ");
    Records.AppendAssociates(a, b, c);
    TextsNonEmpty(overdue, today, upcoming);
  }

  /** The overdue group, if any, comes before the other two. */
  lemma TitlePartsSplit(overdue: nat, today: nat, upcoming: nat)
    ensures TitleParts(overdue, today, upcoming)
            == (if overdue > 0 then [OverdueText(overdue)] else []) + TitleParts(0, today, upcoming)
  {
    var px: seq<string> := if overdue > 0 then [OverdueText(overdue)] else [];
    var py: seq<string> := if today > 0 then [TodayText(today)] else [];
    var pz: seq<string> := if upcoming > 0 then [UpcomingText(upcoming)] else [];
    assert TitleParts(0, today, upcoming) == [] + py + pz;
    Records.AppendAssociates(px, py, pz);
  }

  lemma TitleTail(today: nat, upcoming: nat, b: string, c: string)
    requires b == if today > 0 then TodayText(today) + (if upcoming > 0 then ", " else "") else ""
    requires c == if upcoming > 0 then UpcomingText(upcoming) else ""
    ensures b + c == Join(TitleParts(0, today, upcoming), ", ")
  {
    var py := if today > 0 then [TodayText(today)] else [];
    var pz := if upcoming > 0 then [UpcomingText(upcoming)] else [];
    JoinFront(py, pz, ", ");
    assert TitleParts(0, today, upcoming) == py + pz;
  }

  lemma TextsNonEmpty(overdue: nat, today: nat, upcoming: nat)
    ensures |OverdueText(overdue)| > 0 && |TodayText(today)| > 0 && |UpcomingText(upcoming)| > 0
  {
  }

  /** Prepending at most one part `front` puts it, and a separator when more follows, before the joined rest. */
  lemma JoinFront(front: seq<string>, rest: seq<string>, sep: string)
    requires |front| <= 1
    ensures Join(front + rest, sep)
            == (if |front| == 0 then "" else front[0] + (if |rest| > 0 then sep else "")) + Join(rest, sep)
  {
    if |front| == 1 {
      assert (front + rest)[1..] == rest;
      if |rest| == 0 {
        assert front + rest == front;
      }
    } else {
      assert front + rest == rest;
    }
  }

  /**
   * The status line of one item: days late, "Vence hoje!", or days left.
   * "dia" takes its plural only for more than one day.
   */
  function StatusText(e: DueItem): (r: string)
    ensures e.isOverdue ==> "Atrasada " <= r
    ensures !e.isOverdue && e.isDueToday ==> r == "Vence hoje!"
    ensures Upcoming(e) ==> "Vence em " <= r
    ensures e.isOverdue ==> r == "Atrasada " + IntText(Abs(e.daysUntilDue)) + " dia" + Plural(Abs(e.daysUntilDue), "s")
    ensures Upcoming(e) ==> r == "Vence em " + IntText(e.daysUntilDue) + " dia" + Plural(e.daysUntilDue, "s")
    ensures r[|r| - 1] == 's' <==> (e.isOverdue && Abs(e.daysUntilDue) > 1) || (Upcoming(e) && e.daysUntilDue > 1)
  {
    if e.isOverdue then
      var n := Abs(e.daysUntilDue);
      "Atrasada " + IntText(n) + " dia" + Plural(n, "s")
    else if e.isDueToday then "Vence hoje!"
    else
      "Vence em " + IntText(e.daysUntilDue) + " dia" + Plural(e.daysUntilDue, "s")
  }

  function Abs(n: int): nat { if n < 0 then -n else n }

  /**
   * The number in a status line reads back as the day count: the digits of
   * the text of an overdue or upcoming item denote the absolute number of
   * days, and a line for today carries no digits.
   */
  lemma {:induction false} StatusDaysReadBack(e: DueItem)
    ensures var ds := Digits(StatusText(e));
            AllDigits(ds) && (e.isOverdue || Upcoming(e) ==> DigitValue(ds) == Abs(e.daysUntilDue))
    ensures !e.isOverdue && e.isDueToday ==> Digits(StatusText(e)) == ""
  {
    var d := e.daysUntilDue;
    StatusPiecesDigitFree(d);
    if e.isOverdue {
      assert StatusText(e) == "Atrasada " + IntText(Abs(d)) + " dia" + Plural(Abs(d), "s");
      StatusPiecesDigitFree(Abs(d));
      NumberReadBack("Atrasada ", Abs(d), " dia", Plural(Abs(d), "s"));
    } else if e.isDueToday {
      NoDigits("Vence hoje!");
    } else {
      assert StatusText(e) == "Vence em " + IntText(d) + " dia" + Plural(d, "s");
      NumberReadBack("Vence em ", d, " dia", Plural(d, "s"));
    }
  }

  /** The fixed pieces of a status line carry no digits. */
  lemma StatusPiecesDigitFree(n: int)
    ensures forall i :: 0 <= i < |"Atrasada "| ==> !IsDigit("Atrasada "[i])
    ensures forall i :: 0 <= i < |"Vence em "| ==> !IsDigit("Vence em "[i])
    ensures forall i :: 0 <= i < |" dia"| ==> !IsDigit(" dia"[i])
    ensures forall i :: 0 <= i < |Plural(n, "s")| ==> !IsDigit(Plural(n, "s")[i])
  {
  }

  /** The alert's colour: overdue wins over due today; otherwise none. */
  datatype Tone = OverdueTone | TodayTone | PlainTone

  datatype Alert = Alert(title: string, tone: Tone, statuses: seq<string>)

  /**
   * `updateDueExpensesAlert`: hidden (`None`) for an empty list; otherwise
   * the title from the three counts, the tone, and the status lines of at
   * most the first five items.
   */
  function DueAlert(items: seq<DueItem>): (r: Option<Alert>)
    ensures r.None? <==> |items| == 0
    ensures r.Some? ==> r.value.title == Title(Count(items, Overdue), Count(items, DueToday), Count(items, Upcoming))
    ensures r.Some? ==> (r.value.tone == OverdueTone <==> exists i :: 0 <= i < |items| && items[i].isOverdue)
    ensures r.Some? ==> (r.value.tone == PlainTone <==> forall i :: 0 <= i < |items| ==> !items[i].isOverdue && !items[i].isDueToday)
    ensures r.Some? ==> |r.value.statuses| == if |items| < 5 then |items| else 5
    ensures r.Some? ==> forall i :: 0 <= i < |r.value.statuses| ==> r.value.statuses[i] == StatusText(items[i])
  {
    if |items| == 0 then None
    else
      var overdue := Count(items, Overdue);
      var today := Count(items, DueToday);
      var tone := if overdue > 0 then OverdueTone else if today > 0 then TodayTone else PlainTone;
      var n := if |items| < 5 then |items| else 5;
      StatusLinesOfPrefix(items, n);
      Some(Alert(Title(overdue, today, Count(items, Upcoming)), tone, StatusLines(items[..n])))
  }

  /** The status lines of the first `n` items are those items' status texts. */
  lemma StatusLinesOfPrefix(items: seq<DueItem>, n: int)
    requires 0 <= n <= |items|
    ensures |StatusLines(items[..n])| == n
    ensures forall i :: 0 <= i < n ==> StatusLines(items[..n])[i] == StatusText(items[i])
  {
    var lines := StatusLines(items[..n]);
    forall i | 0 <= i < n
      ensures lines[i] == StatusText(items[i])
    {
      assert items[..n][i] == items[i];
    }
  }

  function StatusLines(items: seq<DueItem>): (r: seq<string>)
    ensures |r| == |items| && forall i :: 0 <= i < |r| ==> r[i] == StatusText(items[i])
  {
    if |items| == 0 then []
    else
      var rest := StatusLines(items[1..]);
      assert forall i :: 1 <= i < |items| ==> items[i] == items[1..][i - 1];
      [StatusText(items[0])] + rest
  }

  // ===== Category choices =====

  /** The default categories that belong with income. */
  const IncomeCategoryIds: seq<string> := ["salario", "investimentos", "outros"]

  /** The category select's rule for income (`forIncome`) and for expense. */
  predicate ShownFor(c: Category, forIncome: bool) {
    if forIncome then c.id in IncomeCategoryIds || !c.isDefault
    else c.id !in IncomeCategoryIds || c.id == "outros" || !c.isDefault
  }

  /** `updateCategorySelect`: the categories offered, in stored order. */
  function CategoryOptions(cats: seq<Category>, forIncome: bool): (r: seq<Category>)
    ensures forall c :: c in r <==> c in cats && ShownFor(c, forIncome)
    ensures forall c :: multiset(r)[c] == if ShownFor(c, forIncome) then multiset(cats)[c] else 0
    ensures |r| <= |cats|
  {
    if |cats| == 0 then []
    else
      var rest := CategoryOptions(cats[..|cats| - 1], forIncome);
      var c := cats[|cats| - 1];
      assert cats == cats[..|cats| - 1] + [c];
      assert multiset(cats) == multiset(cats[..|cats| - 1]) + multiset{c};
      if ShownFor(c, forIncome) then rest + [c] else rest
  }

  /** The options distribute over any split of the list, so they keep the stored order. */
  lemma {:induction false} CategoryOptionsAppend(a: seq<Category>, b: seq<Category>, forIncome: bool)
    ensures CategoryOptions(a + b, forIncome) == CategoryOptions(a, forIncome) + CategoryOptions(b, forIncome)
  {
    if |b| == 0 {
      assert a + b == a;
    } else {
      var front := b[..|b| - 1];
      Records.AppendInit(a, b);
      CategoryOptionsAppend(a, front, forIncome);
    }
  }

  /**
   * Which categories each form offers: income offers custom categories and
   * salary, investments and "outros"; expense offers everything except the
   * default salary and investments; so exactly the custom ones and
   * "outros" appear in both.
   */
  lemma CategoryOptionsCharacterised(cats: seq<Category>, c: Category)
    requires c in cats
    ensures c in CategoryOptions(cats, true) <==> !c.isDefault || c.id == "salario" || c.id == "investimentos" || c.id == "outros"
    ensures c in CategoryOptions(cats, false) <==> !c.isDefault || (c.id != "salario" && c.id != "investimentos")
    ensures c in CategoryOptions(cats, true) && c in CategoryOptions(cats, false) <==> !c.isDefault || c.id == "outros"
  {
    ShownForCharacterised(c);
  }

  /** The two rules spelled out over the three default income ids. */
  lemma ShownForCharacterised(c: Category)
    ensures ShownFor(c, true) <==> !c.isDefault || c.id == "salario" || c.id == "investimentos" || c.id == "outros"
    ensures ShownFor(c, false) <==> !c.isDefault || (c.id != "salario" && c.id != "investimentos")
  {
    assert IncomeCategoryIds == ["salario", "investimentos", "outros"];
  }

  // ===== Month filter =====

  /** A month filter value `YYYY-MM`: the year and the number written after the dash. */
  datatype MonthKey = MonthKey(year: int, field: int)

  /** The key `getAvailableMonths` writes for a date: the month field holds `getMonth()`, 0-based. */
  function MonthKeyAsWritten(d: Date): MonthKey {
    MonthKey(d.year, d.month - 1)
  }

  /** The key with the calendar month written as read back, 1-based. */
  function MonthKeyOf(d: Date): MonthKey {
    MonthKey(d.year, d.month)
  }

  /** The list filter's test: `getMonth() === parseInt(month) - 1`, with `getMonth()` 0-based. */
  predicate InMonthFilter(k: MonthKey, d: Date) {
    d.year == k.year && d.month - 1 == k.field - 1
  }

  /** The transactions the month filter keeps under key `k`, in stored order. */
  function FilterByKey(txs: seq<Transaction>, k: MonthKey): (r: seq<Transaction>)
    ensures forall t :: t in r <==> t in txs && InMonthFilter(k, t.date)
    ensures forall t :: multiset(r)[t] == if InMonthFilter(k, t.date) then multiset(txs)[t] else 0
  {
    if |txs| == 0 then []
    else
      var rest := FilterByKey(txs[..|txs| - 1], k);
      var t := txs[|txs| - 1];
      assert txs == txs[..|txs| - 1] + [t];
      assert multiset(txs) == multiset(txs[..|txs| - 1]) + multiset{t};
      if InMonthFilter(k, t.date) then rest + [t] else rest
  }

  /** The list filter distributes over any split of the list, so it keeps the stored order. */
  lemma {:induction false} FilterByKeyAppend(a: seq<Transaction>, b: seq<Transaction>, k: MonthKey)
    ensures FilterByKey(a + b, k) == FilterByKey(a, k) + FilterByKey(b, k)
  {
    if |b| == 0 {
      assert a + b == a;
    } else {
      var front := b[..|b| - 1];
      Records.AppendInit(a, b);
      FilterByKeyAppend(a, front, k);
    }
  }

  /**
   * With keys written 0-based and read 1-based, choosing the option
   * generated for a month shows none of that month's transactions.
   */
  lemma {:induction false} AsWrittenFilterMissesOwnMonth(txs: seq<Transaction>, d: Date)
    requires forall t :: t in txs ==> MonthOf(t.date) == MonthOf(d)
    ensures FilterByKey(txs, MonthKeyAsWritten(d)) == []
  {
    if |txs| > 0 {
      assert txs[|txs| - 1] in txs;
      AsWrittenFilterMissesOwnMonth(txs[..|txs| - 1], d);
    }
  }

  /** With 1-based keys, the option generated for a date's month shows exactly that month. */
  lemma {:induction false} FilterByOwnKey(txs: seq<Transaction>, d: Date)
    ensures FilterByKey(txs, MonthKeyOf(d)) == ByMonth(txs, MonthOf(d))
  {
    if |txs| > 0 {
      FilterByOwnKey(txs[..|txs| - 1], d);
    }
  }

  // ===== Replication =====

  /** The note a replication row carries. */
  datatype ReplicateNote = AlreadyReplicated | LastInstallment | InstallmentStep(from: int, to: int) | CardOnly | NoNote

  datatype ReplicateRow = ReplicateRow(id: string, note: ReplicateNote, disabled: bool, checked: bool)

  /**
   * One row of the replication modal. `replicated` holds the ids already
   * copied to the target month. A card item whose installment count is
   * present and at most 1 is its last installment and cannot be copied;
   * rows start unchecked.
   */
  function ReplicateRowOf(t: Transaction, replicated: set<string>): (r: ReplicateRow)
    ensures r.id == t.id && !r.checked
    ensures r.disabled <==> t.id in replicated || (t.isCard && t.installments != 0 && t.installments <= 1)
    ensures r.note.InstallmentStep? <==> t.id !in replicated && t.isCard && t.installments > 1
    ensures r.note.InstallmentStep? ==> r.note.from == t.installments && r.note.to == t.installments - 1
    ensures r.note == AlreadyReplicated <==> t.id in replicated
    ensures r.note == LastInstallment <==> t.id !in replicated && t.isCard && t.installments != 0 && t.installments <= 1
    ensures r.note == CardOnly <==> t.id !in replicated && t.isCard && t.installments == 0
    ensures r.note == NoNote <==> t.id !in replicated && !t.isCard
  {
    if t.id in replicated then ReplicateRow(t.id, AlreadyReplicated, true, false)
    else if t.isCard && t.installments != 0 then
      if t.installments <= 1 then ReplicateRow(t.id, LastInstallment, true, false)
      else ReplicateRow(t.id, InstallmentStep(t.installments, t.installments - 1), false, false)
    else if t.isCard then ReplicateRow(t.id, CardOnly, false, false)
    else ReplicateRow(t.id, NoNote, false, false)
  }

  function ReplicateRows(txs: seq<Transaction>, replicated: set<string>): (r: seq<ReplicateRow>)
    ensures |r| == |txs| && forall i :: 0 <= i < |r| ==> r[i] == ReplicateRowOf(txs[i], replicated)
  {
    if |txs| == 0 then [] else [ReplicateRowOf(txs[0], replicated)] + ReplicateRows(txs[1..], replicated)
  }

  /** `selectAllReplicate`: every enabled row takes `select`; a disabled row is left as it is. */
  function SelectAll(rows: seq<ReplicateRow>, select: bool): (r: seq<ReplicateRow>)
    ensures |r| == |rows|
    ensures forall i :: 0 <= i < |r| ==> r[i] == rows[i].(checked := r[i].checked)
    ensures forall i :: 0 <= i < |r| && r[i].disabled ==> r[i].checked == rows[i].checked
    ensures forall i :: 0 <= i < |r| && !r[i].disabled ==> r[i].checked == select
  {
    seq(|rows|, i requires 0 <= i < |rows| => SelectRow(rows[i], select))
  }

  function SelectRow(row: ReplicateRow, select: bool): ReplicateRow {
    if row.disabled then row else row.(checked := select)
  }

  /**
   * `getSelectedReplicateIds`: one id per checked row, in row order. The
   * count is the number of checked rows, and the list distributes over any
   * split of the rows (`CheckedIdsAppend`).
   */
  function CheckedIds(rows: seq<ReplicateRow>): (r: seq<string>)
    ensures forall id :: id in r <==> exists i :: 0 <= i < |rows| && rows[i].checked && rows[i].id == id
    ensures |r| == |set i | 0 <= i < |rows| && rows[i].checked|
  {
    if |rows| == 0 then []
    else
      var last := |rows| - 1;
      var front := rows[..last];
      var rest := CheckedIds(front);
      assert forall i :: 0 <= i < last ==> rows[i] == front[i];
      CheckedPositionsSnoc(rows);
      rest + (if rows[last].checked then [rows[last].id] else [])
  }

  /** The checked positions of `rows` are those of its front, plus the last one if it is checked. */
  lemma CheckedPositionsSnoc(rows: seq<ReplicateRow>)
    requires |rows| > 0
    ensures var last := |rows| - 1;
            |set i | 0 <= i < |rows| && rows[i].checked|
            == |set i | 0 <= i < last && rows[..last][i].checked| + (if rows[last].checked then 1 else 0)
  {
    var last := |rows| - 1;
    var front := rows[..last];
    var all := set i | 0 <= i < |rows| && rows[i].checked;
    var before := set i | 0 <= i < last && front[i].checked;
    var here: set<int> := if rows[last].checked then {last} else {};
    forall i | i in all ensures i in before + here {
      if i < last {
        assert front[i] == rows[i];
      }
    }
    forall i | i in before + here ensures i in all {
      if i in before {
        assert front[i] == rows[i];
      }
    }
    assert all == before + here;
    assert before * here == {};
  }

  /** The checked ids of a split list are those of the first part followed by those of the second. */
  lemma {:induction false} CheckedIdsAppend(a: seq<ReplicateRow>, b: seq<ReplicateRow>)
    ensures CheckedIds(a + b) == CheckedIds(a) + CheckedIds(b)
  {
    if |b| == 0 {
      assert a + b == a;
    } else {
      var front := b[..|b| - 1];
      Records.AppendInit(a, b);
      CheckedIdsAppend(a, front);
    }
  }

  /**
   * Selecting all on a freshly shown list checks exactly the transactions
   * that may be copied: never one already copied, never a last installment.
   */
  lemma SelectAllChoosesEligible(txs: seq<Transaction>, replicated: set<string>, i: int)
    requires 0 <= i < |txs|
    ensures var r := SelectAll(ReplicateRows(txs, replicated), true);
            r[i].checked <==> txs[i].id !in replicated && !(txs[i].isCard && txs[i].installments != 0 && txs[i].installments <= 1)
  {
  }

  /** Income before every other type; within a group, earlier dates first. */
  predicate IncomeFirst(a: Transaction, b: Transaction) {
    var ra := if a.kind == Income then 0 else 1;
    var rb := if b.kind == Income then 0 else 1;
    ra < rb || (ra == rb && DateLe(a.date, b.date))
  }

  lemma IncomeFirstOrders()
    ensures Sorting.TotalPreorder(IncomeFirst)
  {
  }

  /**
   * The transactions of month `ym` the replication modal lists: a
   * permutation of that month's transactions with every income before any
   * other transaction and dates ascending within each group.
   */
  function ReplicateCandidates(txs: seq<Transaction>, ym: YearMonth): (r: seq<Transaction>)
    ensures multiset(r) == multiset(ByMonth(txs, ym))
    ensures forall t :: t in r <==> t in txs && MonthOf(t.date) == ym
    ensures forall i, j :: 0 <= i < j < |r| && r[j].kind == Income ==> r[i].kind == Income
    ensures forall i, j :: 0 <= i < j < |r| && r[i].kind == r[j].kind ==> DateLe(r[i].date, r[j].date)
  {
    IncomeFirstOrders();
    var r := Sorting.Sort(IncomeFirst, ByMonth(txs, ym));
    assert forall t :: t in r <==> t in multiset(r);
    r
  }

  // ===== Recent transactions =====

  /** Later dates first. */
  predicate NewestFirst(a: Transaction, b: Transaction) {
    DateLe(b.date, a.date)
  }

  lemma NewestFirstOrders()
    ensures Sorting.TotalPreorder(NewestFirst)
  {
  }

  /**
   * `updateRecentTransactions`: the five newest transactions, newest first.
   * Every transaction left out is no newer than any shown.
   */
  function Recent(txs: seq<Transaction>): (r: seq<Transaction>)
    ensures |r| == if |txs| < 5 then |txs| else 5
    ensures forall i, j :: 0 <= i < j < |r| ==> DateLe(r[j].date, r[i].date)
    ensures multiset(r) <= multiset(txs)
    ensures forall t, u :: t in txs && t !in r && u in r ==> DateLe(t.date, u.date)
  {
    NewestFirstOrders();
    var s := Sorting.Sort(NewestFirst, txs);
    var k := if |s| < 5 then |s| else 5;
    SortedPrefixIsTop(txs, s, k);
    s[..k]
  }

  /** A prefix of the newest-first ordering of `txs` holds its newest elements, newest first. */
  lemma SortedPrefixIsTop(txs: seq<Transaction>, s: seq<Transaction>, k: int)
    requires Sorting.SortedBy(NewestFirst, s) && multiset(s) == multiset(txs) && 0 <= k <= |s|
    ensures forall i, j :: 0 <= i < j < k ==> DateLe(s[..k][j].date, s[..k][i].date)
    ensures multiset(s[..k]) <= multiset(txs)
    ensures forall t, u :: t in txs && t !in s[..k] && u in s[..k] ==> DateLe(t.date, u.date)
  {
    var r := s[..k];
    assert s == r + s[k..];
    forall t, u | t in txs && t !in r && u in r ensures DateLe(t.date, u.date) {
      assert t in multiset(s);
      var j :| 0 <= j < |s| && s[j] == t;
      var i :| 0 <= i < k && r[i] == u;
      assert NewestFirst(s[i], s[j]);
    }
  }

  // ===== Category breakdown =====

  /** One line of the breakdown: the category shown, its amount and its share of `total` in percent. */
  datatype BreakdownItem = BreakdownItem(name: string, color: string, amount: int, percent: real)

  /** Share of `total`; 0 when the total is not positive. */
  function Percent(amount: int, total: int): (p: real)
    ensures total <= 0 ==> p == 0.0
    ensures total > 0 && 0 <= amount <= total ==> 0.0 <= p <= 100.0
  {
    if total > 0 then (amount as real) / (total as real) * 100.0 else 0.0
  }

  /** The category an entry names, or "Outros" in its grey when no category has that id. */
  function BreakdownItemOf(cats: seq<Category>, e: Aggregates.CategoryAmount, total: int): (r: BreakdownItem)
    ensures r.amount == e.amount && r.percent == Percent(e.amount, total)
    ensures (exists c :: c in cats && c.id == e.category) ==> exists c :: c in cats && c.id == e.category && c.name == r.name
    ensures Records.HasId(cats, CategoryId, e.category) ==>
              exists c :: Records.IsFirst(cats, CategoryId, e.category, c) && r.name == c.name && r.color == c.color
    ensures (forall c :: c in cats ==> c.id != e.category) ==> r.name == "Outros" && r.color == "#607D8B"
  {
    match Records.Find(cats, CategoryId, e.category)
    case Some(c) => BreakdownItem(c.name, c.color, e.amount, Percent(e.amount, total))
    case None => BreakdownItem("Outros", "#607D8B", e.amount, Percent(e.amount, total))
  }

  function BreakdownItems(cats: seq<Category>, entries: seq<Aggregates.CategoryAmount>, total: int): (r: seq<BreakdownItem>)
    ensures |r| == |entries| && forall i :: 0 <= i < |r| ==> r[i] == BreakdownItemOf(cats, entries[i], total)
  {
    if |entries| == 0 then []
    else [BreakdownItemOf(cats, entries[0], total)] + BreakdownItems(cats, entries[1..], total)
  }

  predicate LargerFirst(a: BreakdownItem, b: BreakdownItem) {
    a.amount >= b.amount
  }

  lemma LargerFirstOrders()
    ensures Sorting.TotalPreorder(LargerFirst)
  {
  }

  /**
   * `updateCategoryBreakdown`: one item per category entry, largest amount
   * first.
   */
  function Breakdown(cats: seq<Category>, entries: seq<Aggregates.CategoryAmount>, total: int): (r: seq<BreakdownItem>)
    ensures multiset(r) == multiset(BreakdownItems(cats, entries, total))
    ensures forall i, j :: 0 <= i < j < |r| ==> r[i].amount >= r[j].amount
    ensures forall x :: x in r ==> x.percent == Percent(x.amount, total)
    ensures total <= 0 ==> forall x :: x in r ==> x.percent == 0.0
  {
    LargerFirstOrders();
    var items := BreakdownItems(cats, entries, total);
    var r := Sorting.Sort(LargerFirst, items);
    forall x | x in r ensures x.percent == Percent(x.amount, total) {
      assert x in multiset(items);
      var i :| 0 <= i < |items| && items[i] == x;
    }
    r
  }

  function PercentSum(items: seq<BreakdownItem>): real {
    if |items| == 0 then 0.0 else PercentSum(items[..|items| - 1]) + items[|items| - 1].percent
  }

  /** The shares of the entries add up to the share of their sum. */
  lemma PercentsAddUp(cats: seq<Category>, entries: seq<Aggregates.CategoryAmount>, total: int)
    ensures PercentSum(BreakdownItems(cats, entries, total)) == Percent(Aggregates.AmountSum(entries), total)
  {
    SharesAddUp(BreakdownItems(cats, entries, total), entries, total);
  }

  /** Items carrying the shares of the entries, position by position, add up to the share of the entries' sum. */
  lemma {:induction false} SharesAddUp(items: seq<BreakdownItem>, entries: seq<Aggregates.CategoryAmount>, total: int)
    requires |items| == |entries|
    requires forall i :: 0 <= i < |items| ==> items[i].percent == Percent(entries[i].amount, total)
    ensures PercentSum(items) == Percent(Aggregates.AmountSum(entries), total)
  {
    if |entries| == 0 {
      PercentOfNothing(total);
    } else {
      var k := |entries| - 1;
      calc {
        PercentSum(items);
      ==
        PercentSum(items[..k]) + Percent(entries[k].amount, total);
      == { SharesAddUp(items[..k], entries[..k], total); }
        Percent(Aggregates.AmountSum(entries[..k]), total) + Percent(entries[k].amount, total);
      == { PercentAdditive(Aggregates.AmountSum(entries[..k]), entries[k].amount, total); }
        Percent(Aggregates.AmountSum(entries), total);
      }
    }
  }

  lemma PercentOfNothing(total: int)
    ensures Percent(0, total) == 0.0
  {
  }

  /** Shares of the same total add. */
  lemma PercentAdditive(a: int, b: int, total: int)
    ensures Percent(a, total) + Percent(b, total) == Percent(a + b, total)
  {
    if total > 0 {
      var t := total as real;
      assert (a as real) / t + (b as real) / t == ((a + b) as real) / t;
      assert (a as real) / t * 100.0 + (b as real) / t * 100.0 == ((a as real) / t + (b as real) / t) * 100.0;
    }
  }

  /** When the total is the sum of the amounts and positive, the shares add up to 100. */
  lemma PercentsOfTotal(cats: seq<Category>, entries: seq<Aggregates.CategoryAmount>)
    requires Aggregates.AmountSum(entries) > 0
    ensures PercentSum(BreakdownItems(cats, entries, Aggregates.AmountSum(entries))) == 100.0
  {
    PercentsAddUp(cats, entries, Aggregates.AmountSum(entries));
    PercentOfWhole(Aggregates.AmountSum(entries));
  }

  /** Shares are proportional: `p` percent of the total is the amount. */
  lemma PercentScales(amount: int, total: int)
    requires total > 0
    ensures Percent(amount, total) * (total as real) == (amount as real) * 100.0
  {
  }

  lemma PercentOfWhole(total: int)
    requires total > 0
    ensures Percent(total, total) == 100.0
  {
  }
}
